=== FILE: README.md ===
# Technical indicators, modelled in Dafny

This project models the pure logic of a small crypto-charting tool. The tool
downloads candles from an exchange, adds technical indicators to the price
table and draws them. Four parts are modelled:

- **The indicator library.** There are two revisions: `src/indicators.py` (current) and `indicators.py` (older).
  - Each indicator turns aligned price columns and integer periods into one or more derived series of the same length.
  - Prices are `seq<real>`. Derived series are `seq<Option<real>>`, where `None` is pandas' NaN.
  - `rolling(window=p)` is modelled as: undefined until the whole window of `p` positions is defined, then a function of that window (`Series.Rolling`).
  - `ewm(..., adjust=True).mean()` is written out in its documented closed form (`Smoothing`). pandas' online update is proved from it.
- **Chart layout and dispatch** from `src/get_data.py`:
  - `calc_wind_num`, `calc_row_heights` and `calc_specs`;
  - the name dispatch of `Data.add_indicator`, as a function from an entry to a new chart or an error. The chart keeps the derived columns, the row of every trace and `used_rows`;
  - the constructor's loop over the requested entries.
- **The timeframe normaliser** `process_tf` from `get_data.py`. It maps a string to one of fifteen kline intervals, or to nothing.
- **The indicator-selection dialogue** of `src/main.py`. It is a function over two scripted answer streams: the typed names and the typed periods.

Modules: `Base` (Option, Result), `Text` (ASCII lower-casing, decimal
rendering), `Series` (bars, windows, pointwise arithmetic, sorting and
median), `Smoothing`, `Indicators`, `IndicatorProperties`, `LegacyIndicators`,
`Chart`, `Timeframe` and `Selection`. The relations that hold a product or a
quotient of two values are named predicates in `Series`: `ChangePercent`
(TRIX), `PercentAbove` (STOCH) and `PercentBelow` (WILLIAMS).

The model makes some behaviour of the program explicit. Each item is proved:

- `main.py` lower-cases every name. `add_indicator` matches the upper-case `'KC'` only, so a Keltner channel chosen in the dialogue is never drawn (`Selection.KeltnerNeverDrawn`).
- The `'tr'` branch reads `info[1]` and passes it to `ta.TR`, which takes no period. It always raises. An entry made by the dialogue has no `info[1]`, so choosing `tr` makes the whole chart fail (`Chart.AddAllFailsOnTr`, `Selection.ChoosingTrFails`).
- `'trix'` counts towards the subplot rows but has no dispatch branch. Its reserved row stays empty (`Chart.RowsFitFigure`).
- `int()` lets the dialogue pass a zero or negative period. `mom` and `roc` still draw a column (`diff` and `shift` over that offset), a rolling-window name with period 0 draws only NaN, and the `ewm`-based names raise (`Chart.OffsetNamesAlwaysDrawn`, `Chart.EmptyWindowDrawsNothing`, `Chart.AddIndicator`).
- `'3M'`, `'5M'`, `'15M'` and `'30M'` map to nothing, while `'1M'` is one month (`Timeframe.UpperCaseMinutesUnknown`, `Timeframe.CapitalMIsMonthOnly`).

## Model

| member | source | states |
|---|---|---|
| Text.Lower | src/main.py:14 | `str.lower()` on ASCII: same length, each upper-case letter replaced by its lower-case letter, every other character kept |
| Text.LowerIdempotent | src/main.py:14 | lower-casing an already lower-cased name changes nothing, so dialogue names are stored lower-case |
| Series.Rolling | src/indicators.py:141-142 | `rolling(window=p)` of a series with gaps: the result at t is defined exactly when all p positions ending at t are defined, and is then f of those values |
| Series.RollingOverClean | src/indicators.py:37 | on a column with no gaps, a rolling result is undefined exactly at the first p-1 positions and is f of the last p values after that |
| Series.RollingIsLocal | src/indicators.py:37 | a rolling result at t depends only on positions t-p+1..t: two series that agree there give the same result |
| Series.Divide | src/indicators.py:228 | pointwise division is undefined where either side is missing or the divisor is zero, and is the quotient elsewhere |
| Series.Sort | src/indicators.py:48 | the sorted window is ascending and a permutation of the window, used for the rolling median |
| Series.MedianBetweenExtremes | src/indicators.py:48 | the median of a non-empty window lies between its smallest and largest value |
| Series.PercentPositions | src/indicators.py:320-343 | with a non-zero range, the %K and %R of a close differ by exactly 100, and lie in [0,100] and [-100,0] when the close is inside the range |
| Smoothing.SpanDecay | src/indicators.py:70 | `span=p` gives a decay 1-α in [0,1) with (1-α)(p+1) = p-1, i.e. α = 2/(p+1) |
| Smoothing.AlphaDecay | src/indicators.py:59 | `alpha=1/p` gives a decay 1-α in [0,1) with (1-α)p = p-1 |
| Smoothing.EwmFirst | src/indicators.py:70 | the adjusted mean at position 0 is the first value |
| Smoothing.EwmUpdate | src/indicators.py:70 | the closed-form adjusted mean obeys pandas' online update: each mean is one weighted step from the previous one |
| Smoothing.EwmFollowsUpdate | src/indicators.py:70 | at every position from 1, the closed-form mean is pandas' online update of the previous mean, so the two computations give the same series |
| Smoothing.EwmAtLeast | src/indicators.py:70 | a lower bound of every input value is a lower bound of every mean |
| Smoothing.EwmAtMost | src/indicators.py:70 | an upper bound of every input value is an upper bound of every mean |
| Smoothing.EwmNonNegative | src/indicators.py:245 | the mean of a non-negative column is non-negative |
| Smoothing.EwmOfConstant | src/indicators.py:70 | the mean of a constant column is the column itself |
| Smoothing.EwmIsCausal | src/indicators.py:70 | the mean at t depends only on positions 0..t |
| Indicators.SeparateIndicatorsAreKnown | src/indicators.py:4-27 | every name in `sep_window_ind` has an arity in `ind_periods` |
| Indicators.SMA | src/indicators.py:31-40 | same length as the column; undefined exactly at the first period-1 positions; then the window sum divided by period |
| IndicatorProperties.SmaIsLocal | src/indicators.py:36-40 | SMA at t depends only on the last period closes |
| IndicatorProperties.SmaOfConstant | src/indicators.py:36-40 | the SMA of a constant column is that constant wherever it is defined |
| Indicators.SMM | src/indicators.py:42-51 | undefined exactly at the first period-1 positions; then the median of the window (the middle of its sorted values), which lies between the window's lowest and highest close |
| IndicatorProperties.SmmOfConstant | src/indicators.py:47-51 | the moving median of a constant column is that constant wherever it is defined |
| Indicators.WMA | src/indicators.py:150-169 | undefined exactly at the first period-1 positions; then the window weighted 1 (oldest) to period (newest) over period(period+1)/2 |
| IndicatorProperties.WmaWeightsSumToDenominator | src/indicators.py:155-156 | the WMA denominator is exactly the sum of the weights 1..period |
| IndicatorProperties.WmaOfConstant | src/indicators.py:155-169 | the WMA of a constant column is that constant wherever it is defined |
| Indicators.TRIMA | src/indicators.py:104-113 | defined exactly from position 2·period-2; there it is the rolling sum of the SMA over period, divided by period |
| Indicators.SmaFilledFrom | src/indicators.py:110 | the SMA's trailing window is fully defined exactly from position 2·period-2 |
| Indicators.EMA | src/indicators.py:64-73 | defined at every position; it starts at the first close and each later value is pandas' online update of the previous one with α = 2/(period+1) |
| IndicatorProperties.EmaOfConstant | src/indicators.py:64-73 | the EMA of a constant column is the column |
| Indicators.SSMA | src/indicators.py:53-62 | defined at every position; it starts at the first close and each later value is the online update of the previous one with α = 1/period |
| IndicatorProperties.SsmaIsSmma | src/indicators.py:53-62 | SSMA and SMMA are the same series, since the `ignore_na` and `min_periods` arguments change nothing on a column without gaps |
| Indicators.SMMA | src/indicators.py:171-180 | defined at every position; it starts at the first close, each later value is the online update with α = 1/period, and it is non-negative for a non-negative column |
| Indicators.DEMA | src/indicators.py:75-85 | defined at every position, starting from the first close |
| IndicatorProperties.DemaIdentity | src/indicators.py:75-85 | DEMA = 2·EMA − EMA(EMA) at every position |
| Indicators.TEMA | src/indicators.py:87-102 | defined at every position, starting from the first close |
| IndicatorProperties.TemaIdentity | src/indicators.py:87-102 | TEMA = 3·EMA − 3·EMA(EMA) + EMA(EMA(EMA)) at every position |
| IndicatorProperties.DemaTemaOfConstant | src/indicators.py:75-102 | DEMA and TEMA return a constant column unchanged |
| Indicators.TRIX | src/indicators.py:115-131 | defined exactly from position 1 where the triple EMA m is non-zero; there the value is 100·(m[t] − m[t−1]) / m[t] |
| Indicators.PercentChange | src/indicators.py:128 | `100 * (m.diff() / m)` is defined exactly at t ≥ 1 where m[t] is non-zero, and there is 100·(m[t] − m[t−1]) / m[t] |
| Indicators.PercentChangeAt | src/indicators.py:128 | where defined, the value is 100·(m[t] − m[t−1]) / m[t] |
| IndicatorProperties.TrixOfConstant | src/indicators.py:115-131 | the TRIX of a constant non-zero column is 0 from position 1 |
| Indicators.VolumeRatio | src/indicators.py:138-140 | the volume ratio is undefined before position period-1 |
| Indicators.VAMA | src/indicators.py:133-148 | same length as the column; undefined before position 2·period-2 (its value is stated by `VamaAt`) |
| IndicatorProperties.VamaAt | src/indicators.py:133-148 | with positive closes and volumes, from 2·period−2 the value is the close window averaged with the volume-ratio window as weights: Σ(ratio·close) / Σ ratio, with every weight positive |
| IndicatorProperties.VamaWithinWindow | src/indicators.py:133-148 | with positive closes and volumes, VAMA lies between the lowest and the highest close of its window |
| IndicatorProperties.VamaOfConstant | src/indicators.py:133-148 | the VAMA of a constant positive close is that close |
| Series.WeightedAverageBetween | src/indicators.py:141-145 | an average with positive weights, Σ(w·x) / Σ w, lies between the smallest and the largest x |
| IndicatorProperties.VamaDefinedFrom | src/indicators.py:133-148 | with positive closes and volumes, VAMA is defined exactly from position 2·period-2 |
| Indicators.MACD | src/indicators.py:182-209 | all three series are defined everywhere; line = EMA(fast) − EMA(slow); signal = the span-`signal` EMA of the line; difference = line − signal exactly; line and signal start at 0 |
| IndicatorProperties.MacdOfConstant | src/indicators.py:182-209 | on a constant column the line, signal and difference are all 0 |
| Indicators.MOM | src/indicators.py:211-220 | for any integer offset p (zero and negative included, as `diff` takes them): defined exactly where t−p is a position of the column, and then close[t] − close[t−p] |
| IndicatorProperties.MomentumTelescopes | src/indicators.py:217 | for a non-negative offset, MOM at t is the sum of the one-step changes that lead up to t |
| IndicatorProperties.MomentumReversed | src/indicators.py:217 | a negative offset looks forward: MOM over −p at t−p is minus MOM over p at t, and both are defined |
| Indicators.ROC | src/indicators.py:222-231 | for any integer offset p: defined exactly where t−p is a position of the column and that earlier close is non-zero |
| IndicatorProperties.RocIsRelativeMomentum | src/indicators.py:228 | for any integer offset, where defined, ROC = 100·MOM / close[t−p] |
| Indicators.Gains | src/indicators.py:238-240 | the upward moves: one per step, each non-negative |
| Indicators.Losses | src/indicators.py:238-245 | the sizes of the downward moves: one per step, each non-negative |
| Indicators.GainsLossesSplit | src/indicators.py:238-245 | at every step the gain minus the loss is the step `diff`, and at most one of them is non-zero |
| Indicators.RsiOf | src/indicators.py:246-248 | `100 - 100/(1 + gain/loss)` is defined exactly when gain + loss > 0; it equals 100·gain/(gain+loss), lies in [0,100], and is below 100 when loss > 0 |
| Indicators.RSI | src/indicators.py:233-251 | undefined at position 0; from position 1 it is RsiOf of the Wilder-smoothed gains and losses of the steps so far |
| IndicatorProperties.RsiBounded | src/indicators.py:233-251 | where defined, RSI lies in [0,100]; where the smoothed loss is positive it is defined and below 100 |
| IndicatorProperties.RsiOfRisingColumn | src/indicators.py:233-251 | for a column that never falls and has risen by t, RSI at t is exactly 100 |
| Indicators.Max3 | src/indicators.py:264-265 | the row maximum is one of the three ranges and at least each of them |
| Indicators.TR | src/indicators.py:253-270 | defined everywhere; at least high − low and non-negative; at position 0, where there is no previous close, it is \|high − low\| |
| IndicatorProperties.TrIsLargestRange | src/indicators.py:261-265 | from position 1, TR is the largest of \|high−low\|, \|high−prev close\| and \|prev close−low\| |
| Indicators.ATR | src/indicators.py:272-282 | undefined exactly at the first period-1 positions; then the mean of the last period TR values |
| IndicatorProperties.AtrNonNegative | src/indicators.py:272-282 | ATR is non-negative wherever it is defined |
| Indicators.BandsAround | src/indicators.py:296-297 | upper and lower bands are defined exactly where the middle and the deviation are |
| Indicators.BandsAroundAt | src/indicators.py:296-297 | upper − middle = middle − lower = multiplier·deviation |
| Indicators.BandsAroundOrdered | src/indicators.py:296-297 | with a non-negative multiplier and deviation, lower ≤ middle ≤ upper |
| Indicators.RollingStd | src/indicators.py:290 | the rolling sample deviation is defined exactly when period ≥ 2 and the window is full, and is then the deviation of the window |
| Indicators.BBANDS | src/indicators.py:284-298 | middle is MA when given and otherwise the SMA of close; upper and lower are defined exactly where middle is and the deviation window is full |
| Indicators.BbandsSymmetric | src/indicators.py:284-298 | wherever the deviation window is full and the middle band is defined, all three bands are defined and upper − middle = middle − lower = std_multiplier·std of the window |
| Indicators.BbandsOrdered | src/indicators.py:284-298 | there too, with a non-negative multiplier and deviation, lower ≤ middle ≤ upper |
| Indicators.KcMiddle | src/indicators.py:305-308 | the middle line has the column's length, and without an MA series (the EMA of close) it is defined everywhere |
| Indicators.KC | src/indicators.py:300-312 | up and down are defined exactly where the ATR window is full and the middle is defined |
| Indicators.KcAroundMiddle | src/indicators.py:300-312 | wherever the ATR window is full and the middle line is defined, the channel is defined, (up + down)/2 is the middle line and up − down = 2·kc_mult·ATR(atr_period) |
| Indicators.HighestHigh | src/indicators.py:320 | the rolling highest high is undefined exactly at the first period-1 positions |
| Indicators.HighestHighAt | src/indicators.py:320 | once defined, it is the largest high of the window |
| Indicators.LowestLow | src/indicators.py:321 | the rolling lowest low is undefined exactly at the first period-1 positions |
| Indicators.LowestLowAt | src/indicators.py:321 | once defined, it is the smallest low of the window |
| IndicatorProperties.ExtremesEncloseBar | src/indicators.py:320-321 | on well-formed bars, lowest low ≤ low ≤ close ≤ high ≤ highest high at every full window |
| Indicators.STOCH | src/indicators.py:314-327 | defined exactly where the window is full and its range is non-zero |
| Indicators.StochAt | src/indicators.py:320-325 | where the window's range HH − LL is non-zero, the value is defined and `PercentAbove` holds: the value times that range is 100·(close − LL) |
| IndicatorProperties.StochBounded | src/indicators.py:314-327 | on well-formed bars, wherever the window's high-low range is non-zero, %K is defined and lies in [0,100] |
| Indicators.WILLIAMS | src/indicators.py:329-343 | defined exactly where the window is full and its range is non-zero |
| Indicators.WilliamsAt | src/indicators.py:335-343 | where the window's range HH − LL is non-zero, the value is defined and `PercentBelow` holds: the value times that range is −100·(HH − close) |
| IndicatorProperties.WilliamsBounded | src/indicators.py:329-343 | on well-formed bars, wherever the window's high-low range is non-zero, %R is defined and lies in [-100,0] |
| IndicatorProperties.StochWilliamsDefinedTogether | src/indicators.py:320-338 | %K and %R are defined at the same positions |
| IndicatorProperties.StochMinusWilliams | src/indicators.py:314-343 | wherever the window's high-low range is non-zero, %K and %R are both defined and %K − %R = 100 |
| LegacyIndicators.SMA | indicators.py:6-15 | the older SMA has the same undefined prefix and window mean |
| LegacyIndicators.SMM | indicators.py:17-26 | the older SMM has the same undefined prefix, is then the median of the window, and stays between the window's extremes |
| LegacyIndicators.SSMA | indicators.py:28-37 | defined everywhere; it starts at the first close, each later value is the online update with α = 1/period, and it is the same series as the older SMMA |
| LegacyIndicators.EMA | indicators.py:39-48 | defined everywhere; it starts at the first close and each later value is the online update with α = 2/(period+1) |
| LegacyIndicators.DEMA | indicators.py:50-60 | DEMA = 2·EMA − EMA(EMA) at every position |
| LegacyIndicators.TEMA | indicators.py:62-77 | TEMA = 3·EMA − 3·EMA(EMA) + EMA(EMA(EMA)) at every position |
| LegacyIndicators.TRIMA | indicators.py:79-88 | defined exactly from position 2·period-2; there it is the rolling sum of the SMA over period, divided by period |
| LegacyIndicators.TRIX | indicators.py:90-106 | defined exactly from position 1 where the triple EMA m is non-zero; there the value is 100·(m[t] − m[t−1]) / m[t] |
| LegacyIndicators.VAMA | indicators.py:108-123 | undefined before position 2·period-2; it is the current `VAMA`, so `VamaAt` gives its value |
| LegacyIndicators.WMA | indicators.py:125-144 | the same undefined prefix and linear weighting as the current WMA |
| LegacyIndicators.SMMA | indicators.py:146-155 | defined everywhere; it starts at the first close, each later value is the online update with α = 1/period, and it is non-negative for a non-negative column |
| LegacyIndicators.MACD | indicators.py:157-184 | line = EMA(fast) − EMA(slow); signal = the span-`signal` EMA of the line; difference = line − signal exactly; line and signal start at 0 |
| LegacyIndicators.MOM | indicators.py:186-195 | for any signed offset, defined exactly where t − period is a position; there close[t] − close[t−period] |
| LegacyIndicators.ROC | indicators.py:197-206 | for any signed offset, defined exactly where t − period is a position holding a non-zero close; there it is 100·(close[t] − close[t−period]) / close[t−period] |
| LegacyIndicators.RSI | indicators.py:208-226 | undefined at position 0; from position 1 it is RsiOf of the Wilder-smoothed gains and losses; within [0,100] wherever defined, and defined and below 100 wherever the smoothed loss is positive |
| LegacyIndicators.TR | indicators.py:228-245 | at least high − low and non-negative everywhere; \|high − low\| at position 0; from position 1 at least each of the two ranges to the previous close and equal to one of the three ranges |
| LegacyIndicators.ATR | indicators.py:247-257 | undefined exactly at the first period-1 positions; then the trailing mean of TR |
| LegacyIndicators.BBANDS | indicators.py:259-264 | raises `NotImplementedError` whatever the bars |
| LegacyIndicators.KC | indicators.py:266-271 | raises `NotImplementedError` whatever the bars |
| LegacyIndicators.STOCH | indicators.py:273-278 | raises `NotImplementedError` whatever the bars and period |
| LegacyIndicators.WILLIAMS | indicators.py:280-285 | raises `NotImplementedError` whatever the bars and period |
| Chart.SeparateNames | src/indicators.py:27 | `sep_window_ind` is exactly the names that take a subplot row, plus `tr` and `trix` |
| Chart.NameGroupsDisjoint | src/get_data.py:93-280 | the dispatch branches are for distinct names, so their order does not matter |
| Chart.CalcWindNum | src/get_data.py:16-21 | 1 plus the number of entries whose name is in `sep_window_ind`, so between 1 and 1 + the number of entries |
| Chart.SepCount | src/get_data.py:16-21 | the count of separate-window entries is at most the number of entries, and zero exactly when no entry has a separate-window name |
| Chart.SepCountSplits | src/get_data.py:16-21 | the separate-window count is the subplot-row names plus the `tr` and `trix` entries |
| Chart.CalcRowHeights | src/get_data.py:24-28 | max(1, n) heights: 3 for the price row, 1 for every other row |
| Chart.CalcSpecs | src/get_data.py:31-35 | max(1, n) specs, and only the first has a secondary y axis |
| Chart.ColumnName | src/get_data.py:95 | an f-string column name starts with the prefix and an underscore, with the rendered number after them |
| Chart.AddIndicator | src/get_data.py:91-280 | `tr` always fails; names without a branch (`kc`, `trix`, …) leave the chart unchanged; other handled names succeed exactly when their periods are present and pandas accepts them; `mom` and `roc` succeed for every integer period; the ewm-based names fail for a period below 1; `volume` always succeeds |
| Chart.AddIndicatorRows | src/get_data.py:178-278 | success raises `used_rows` by 1 for macd, mom, roc, rsi, atr, stoch and williams and leaves it alone otherwise; earlier traces are kept and new ones go to row `used_rows + 1` or row 1 |
| Chart.OverlayAddsOneColumn | src/get_data.py:93-159 | an overlay adds exactly the column `<name>_<period>`, holding that indicator of close, and leaves every other column as it was |
| Chart.OffsetNamesAlwaysDrawn | src/get_data.py:198-214 | `mom` and `roc` with any integer period, zero and negative included, add the column `<name>_<period>` holding `diff`/`shift` over that offset and take a new subplot row |
| Chart.EmptyWindowDrawsNothing | src/get_data.py:93-278 | a rolling-window name with period 0 is drawn, and each column it writes is NaN at every position |
| Chart.EmptyBandsDrawNothing | src/get_data.py:160-177 | `bbands` with period 0 is drawn, and its upper, middle and lower columns are NaN at every position |
| Chart.EmptyLineDrawsNothing | src/get_data.py:93-278 | every other rolling-window name with period 0 is drawn, and its one column is NaN at every position |
| Chart.BandColumns | src/get_data.py:160-163 | Bollinger bands add exactly `upper_bb_<p>`, `middle_bb_<p>` and `lower_bb_<p>` |
| Chart.ChannelColumns | src/get_data.py:249-251 | Keltner channels add exactly `kc_up_<p>` and `kc_down_<p>` |
| Chart.AddAllRows | src/get_data.py:88-89 | the loop raises `used_rows` once per subplot-row entry and never places a trace beyond the rows used so far |
| Chart.AddAllFailsOnTr | src/get_data.py:225-227 | any `tr` entry makes the constructor's loop fail |
| Chart.Build | src/get_data.py:51-89 | a successful construction ends with `used_rows` = 1 + the number of subplot-row entries |
| Chart.RowsFitFigure | src/get_data.py:58-60 | after construction, `used_rows` ≤ `calc_wind_num`, every trace lies within the figure, and the unused rows are exactly the `trix` entries |
| Timeframe.EveryIntervalHasBranch | get_data.py:12-42 | every kline interval has a branch in the `elif` chain |
| Timeframe.ProcessTf | get_data.py:12-42 | an answer is an interval whose branch accepts the string |
| Timeframe.NoneWhenNoneAccepts | get_data.py:12-42 | the chain falls through to None exactly when no branch accepts the string |
| Timeframe.NoneMeansNoBranch | get_data.py:12-42 | a string mapped to None is accepted by no branch |
| Timeframe.SpellingDeterminesParts | get_data.py:13-42 | a spelling `<n><unit>` or `<n> <unit>` determines its number and its unit word |
| Timeframe.BranchesDisjoint | get_data.py:12-42 | no string is accepted by two branches |
| Timeframe.AcceptedIsAnswer | get_data.py:12-42 | any branch that accepts a string gives the answer, whatever the order of the chain |
| Timeframe.CodeRoundTrip | get_data.py:12-42 | each interval's exchange code (`1m` … `1M`) maps back to that interval |
| Timeframe.CaseInsensitiveOutsideM | get_data.py:23-40 | a string not ending in `m` or `M` gets the same answer as its lower-cased form |
| Timeframe.OnlyMonthTakesCapitalM | get_data.py:13-42 | only the month branch accepts a string ending in `M` |
| Timeframe.MonthTakesCapitalM | get_data.py:41-42 | the month branch accepts a string ending in `M` exactly when it is `1M` or `1 M` |
| Timeframe.CapitalMIsMonthOnly | get_data.py:41-42 | a string ending in `M` is one month if it is `1M` or `1 M`, and otherwise nothing |
| Timeframe.UpperCaseMinutesUnknown | get_data.py:15-22 | `3M`, `5M`, `15M` and `30M` map to nothing |
| Timeframe.MinuteAndMonthSpellings | get_data.py:13-14 | `1m`, `1 m`, `1MIN` and `1 Minute` are one minute; `1M` and `1 M` are one month |
| Timeframe.FourHours | get_data.py:27-28 | `4H` and `4h` are both four hours |
| Selection.Asked | src/main.py:20-28 | arity 0 asks no period, arity 1 one, any other arity two (fast and slow) |
| Selection.Collect | src/main.py:11-29 | the loop keeps what it already accepted, never goes past five entries, and only adds well-formed entries |
| Selection.Select | src/main.py:11-29 | the dialogue yields at most five entries, each a known lower-case name with as many periods as its arity asks, and their periods read in order are the first numbers typed |
| Selection.EntriesAreWanted | src/main.py:12-29 | the entries are the known names typed before the first empty line, lower-cased and in order, cut at five |
| Selection.PeriodsAreTyped | src/main.py:20-28 | the periods of the new entries, read entry after entry, are exactly the first numbers of the number script, so each entry takes the next numbers typed |
| Selection.ShortSelectionMeansStop | src/main.py:15-16 | fewer than five entries means an empty name was typed |
| Selection.UnknownNamesIgnored | src/main.py:17-19 | striking the unknown names from the script changes nothing |
| Selection.KeltnerNeverDrawn | src/main.py:14 | a selected entry is never `KC`, and a selected `kc` leaves the chart unchanged |
| Selection.ChoosingTrFails | src/main.py:20-21 | choosing `tr` in the dialogue makes chart construction fail |

## Left out

- Network and exchange access: the Binance client, the kline download and the `__main__` block of `get_data.py`. Candles are given as clean `Series.Bars`.
- DataFrame construction, `to_datetime` and `to_numeric`. These are library plumbing; the model takes real-valued columns as given.
- Plotly figures, trace styles and names, `show_chart`, `beauty_print_data`, `print_data` and every `print`. Only the row each trace targets is kept.
- `random_color`: it is random and only picks a colour.
- The root `main.py`: a console loop that prints. Its only logic is the interval lookup, which is modelled from `get_data.py` as `Timeframe.ProcessTf`.
- The `Data` class of `get_data.py` is not part of this model. It repeats the download and the chart with the third-party `finta` library.
- IEEE floating point. The model uses exact reals. pandas' ±inf results of a division by zero (ROC, TRIX, STOCH, WILLIAMS, VAMA) are modelled as undefined (`None`).
- Indicators.RSI: where the smoothed loss is 0 and the gain is positive, pandas yields 100 (100 − 100/inf), and so does the model. Where both are 0, pandas yields NaN, and the model yields `None`.
- Indicators.RollingStd: the square root in `rolling().std()` is not modelled. The deviation of a window is a parameter `stdev`. Only that a window of one has no sample deviation (ddof = 1) is built in. Band ordering assumes the parameter is non-negative.
- Indicators.DEMA, Indicators.TEMA: these contracts state only where the series is defined and its first value. Values are stated by `DemaIdentity`, `TemaIdentity` and the constant-input lemmas.
- Indicators.VAMA: the contract gives only one direction of definedness. A window of zero volumes or a zero ratio sum leaves it undefined later. For positive prices and volumes the exact start is stated by `VamaDefinedFrom` and the value by `VamaAt`; with zero or negative volumes nothing about the value is promised.
- LegacyIndicators.VAMA: likewise, only one direction of definedness; `VamaAt` applies to it unchanged.
- Indicators.HighestHigh, Indicators.LowestLow: these contracts state definedness only. Values are stated by `HighestHighAt` and `LowestLowAt`.
- Chart.AddIndicator: the new column values are stated by `OverlayAddsOneColumn`, `BandColumns` and `ChannelColumns`. The `macd` column names are not restated in a contract.
- Chart.AddIndicator: `int()` already turned every typed period into an integer. Which periods pandas accepts is modelled per name. `diff` and `shift` (`mom`, `roc`) take any integer. `rolling` takes a window from 0 on. Over an empty window `mean`, `median`, `max`, `min`, `std` and `apply` give NaN, while `sum` gives 0. TRIMA then divides 0 by the period 0, and VAMA divides 0 by 0, so every column a window-0 name writes is NaN (`Chart.NoValues`). The `span` and `alpha = 1/period` of `ewm` need a period of at least 1; a smaller one raises `ValueError` or `ZeroDivisionError`, which is the `InvalidPeriod` failure. A missing `info[1]` or `info[2]` is the `MissingArgument` failure (IndexError).
- Selection.Collect: a non-numeric answer to a period prompt makes `int()` raise. Answers are modelled as already-parsed integers. A script that runs out models `EOFError`.
- Text.Lower: Python's `lower()` also folds non-ASCII letters. The model folds only `A`–`Z`. The names and timeframes compared here are ASCII, but a typed name can still fold onto one: the KELVIN SIGN (U+212A) lowers to `k`, so the Kelvin sign followed by `c` selects `kc` in the program, while the model treats it as an unknown name and asks again. In the same way `process_tf` maps `1 wee` followed by the Kelvin sign to one week, because it lower-cases to `1 week`, while `Timeframe.ProcessTf` returns no interval for it.
- The base OHLCV columns and `time` are not among `Chart.columns`, which holds only the derived columns.
- The default `column='close'` and `adjust=True` arguments are fixed: every caller in the program uses them. `adjust=False` is not modelled.

=== FILE: base.dfy ===
/** Failure-compatible wrappers shared by every module of the model.
    - Option<T> stands for a value that may be missing (pandas' NaN in a series,
      Python's implicit `None` return).
    - Result<T, E> stands for a call that either returns or raises.
 */
module Base {

  datatype Option<+T> = None | Some(value: T)

  datatype Result<+T, +E> = Success(value: T) | Failure(error: E) {

    predicate IsFailure() {
      Failure?
    }

    function PropagateFailure<U>(): Result<U, E>
      requires Failure?
    {
      Failure(error)
    }

    function Extract(): T
      requires Success?
    {
      value
    }
  }
}

=== FILE: chart.dfy ===
/** The chart assembly of `src/get_data.py`: the subplot layout computed up
    front from the requested indicators, and the `add_indicator` dispatch that
    adds indicator columns to the price table and places each trace on a row
    of the figure.  Plotting itself is left out; what is kept is which columns
    are added, which row every trace targets, and the `used_rows` counter. */
module Chart {
  import opened Base
  import opened Series
  import opened Text
  import Indicators

  // ------------------------------------------------------------ requests

  /** One requested indicator, `[name]`, `[name, period]` or
      `[name, fast, slow]`: `info[0]` is the name, the rest are `args`. */
  datatype Entry = Entry(name: string, args: seq<int>)

  /** Names drawn over the price chart as one column `<name>_<period>`. */
  const Overlays: set<string> :=
    {"sma", "smm", "ssma", "ema", "dema", "tema", "trima", "vama", "wma", "smma"}

  /** Names drawn on a subplot of their own below the price chart. */
  const RowIndicators: set<string> := {"macd", "mom", "roc", "rsi", "atr", "stoch", "williams"}

  /** Names whose period is a `diff`/`shift` offset, which pandas takes for
      any integer. */
  const OffsetNames: set<string> := {"mom", "roc"}

  /** Names whose period is only a `rolling` window size, which pandas takes
      from 0 on: a window of no bars is NaN at every position. */
  const WindowNames: set<string> :=
    {"sma", "smm", "trima", "vama", "wma", "bbands", "atr", "stoch", "williams"}

  /** Every name `add_indicator` has a branch for; dispatch is an exact,
      case-sensitive string match, so "kc" and "trix" are not among them. */
  const Handled: set<string> := Overlays + RowIndicators + {"bbands", "tr", "volume", "KC"}

  /** The layout reserves a row for every name that takes a subplot row when
      it is added, and for `tr` and `trix`, which never take one. */
  lemma SeparateNames()
    ensures forall n :: n in Indicators.SepWindowInd <==> n in RowIndicators || n == "tr" || n == "trix"
  {
  }

  /** The dispatch branches are for distinct names, so the order of the
      `elif` chain does not matter. */
  lemma NameGroupsDisjoint()
    ensures Overlays !! RowIndicators
    ensures forall n :: n in {"bbands", "tr", "volume", "KC"} ==> n !in Overlays && n !in RowIndicators
  {
  }

  // -------------------------------------------------------------- layout

  /** Number of entries whose name is in `sep_window_ind`. */
  function SepCount(inds: seq<Entry>): (n: nat)
    ensures n <= |inds|
    ensures n == 0 <==> forall k :: 0 <= k < |inds| ==> !(inds[k].name in Indicators.SepWindowInd)
  {
    if |inds| == 0 then 0
    else SepCount(inds[..|inds| - 1]) + (if inds[|inds| - 1].name in Indicators.SepWindowInd then 1 else 0)
  }

  /** Extending a prefix by one entry counts that entry alone. */
  lemma SepCountStep(inds: seq<Entry>, i: int)
    requires 0 <= i < |inds|
    ensures SepCount(inds[..i + 1]) == SepCount(inds[..i]) + (if inds[i].name in Indicators.SepWindowInd then 1 else 0)
  {
    assert inds[..i + 1][..i] == inds[..i];
  }

  /** Number of entries whose name is `name`. */
  function NameCount(inds: seq<Entry>, name: string): (n: nat)
    ensures n <= |inds|
    ensures n == 0 <==> forall k :: 0 <= k < |inds| ==> !(inds[k].name == name)
  {
    if |inds| == 0 then 0
    else NameCount(inds[..|inds| - 1], name) + (if inds[|inds| - 1].name == name then 1 else 0)
  }

  /** Number of entries whose name takes a subplot row when it is added. */
  function RowCount(inds: seq<Entry>): (n: nat)
    ensures n <= |inds|
    ensures n == 0 <==> forall k :: 0 <= k < |inds| ==> !(inds[k].name in RowIndicators)
  {
    if |inds| == 0 then 0
    else RowCount(inds[..|inds| - 1]) + (if inds[|inds| - 1].name in RowIndicators then 1 else 0)
  }

  /** `calc_wind_num`: one window for the price chart plus one per
      separate-window indicator. */
  method CalcWindNum(indicators: seq<Entry>) returns (windNum: int)
    ensures windNum == 1 + SepCount(indicators)
    ensures 1 <= windNum <= 1 + |indicators|
  {
    windNum := 1;
    var i := 0;
    while i < |indicators|
      invariant 0 <= i <= |indicators|
      invariant windNum == 1 + SepCount(indicators[..i])
    {
      SepCountStep(indicators, i);
      if indicators[i].name in Indicators.SepWindowInd {
        windNum := windNum + 1;
      }
      i := i + 1;
    }
    assert indicators[..i] == indicators;
  }

  /** `calc_row_heights`: the price chart is three times as tall as each
      indicator row; there is always at least the price row. */
  method CalcRowHeights(windNum: int) returns (heights: seq<int>)
    ensures |heights| == (if windNum >= 1 then windNum else 1)
    ensures heights[0] == 3
    ensures forall i :: 1 <= i < |heights| ==> heights[i] == 1
  {
    heights := [3];
    var i := 0;
    while i < windNum - 1
      invariant 0 <= i <= (if windNum >= 1 then windNum - 1 else 0)
      invariant |heights| == i + 1 && heights[0] == 3
      invariant forall k :: 1 <= k < |heights| ==> heights[k] == 1
    {
      heights := heights + [1];
      i := i + 1;
    }
  }

  /** One subplot's options: whether it has a secondary y axis. */
  datatype Spec = Spec(secondaryY: bool)

  /** `calc_specs`: only the price row has a secondary axis (for volume). */
  method CalcSpecs(windNum: int) returns (specs: seq<Spec>)
    ensures |specs| == (if windNum >= 1 then windNum else 1)
    ensures forall i :: 0 <= i < |specs| ==> (specs[i].secondaryY <==> i == 0)
  {
    specs := [Spec(true)];
    var i := 0;
    while i < windNum - 1
      invariant 0 <= i <= (if windNum >= 1 then windNum - 1 else 0)
      invariant |specs| == i + 1 && specs[0].secondaryY
      invariant forall k :: 1 <= k < |specs| ==> !specs[k].secondaryY
    {
      specs := specs + [Spec(false)];
      i := i + 1;
    }
  }

  // ------------------------------------------------------------- the chart

  type Column = seq<Option<real>>

  /** The parts of a `Data` object that `add_indicator` changes: the derived
      columns of the price table, the row targeted by every trace added so
      far (in order), and `used_rows`. */
  datatype Chart = Chart(columns: map<string, Column>, usedRows: int, traceRows: seq<int>)

  /** Why `add_indicator` can raise. */
  datatype ChartError =
    | MissingArgument     // `info[1]` or `info[2]` does not exist
    | InvalidPeriod       // pandas rejects the period: a negative window, a span below 1, or alpha = 1/period
    | UnexpectedPeriod    // `ta.TR` is called with a period it does not take

  /** `<prefix>_<n>`, the f-string column naming. */
  function ColumnName(prefix: string, n: int): (s: string)
    ensures |s| > |prefix| + 1
    ensures s[..|prefix| + 1] == prefix + "_"
  {
    prefix + "_" + IntToString(n)
  }

  /** Whether pandas computes `name`'s indicator for period `p`: any offset
      for `diff`/`shift`, a window from 0 on, and otherwise (`span=p` or
      `alpha=1/p` of `ewm`) a period from 1 on. */
  predicate AcceptsPeriod(name: string, p: int) {
    if name in OffsetNames then true
    else if name in WindowNames then p >= 0
    else p >= 1
  }

  /** The first `n` arguments exist and pandas accepts them as periods. */
  predicate ValidPeriods(name: string, args: seq<int>, n: nat) {
    |args| >= n && forall k :: 0 <= k < n ==> AcceptsPeriod(name, args[k])
  }

  /** The error raised when `ValidPeriods(name, args, n)` fails. */
  function PeriodError(name: string, args: seq<int>, n: nat): (e: ChartError)
    ensures e == MissingArgument <==> |args| < n
  {
    if |args| < n then MissingArgument else InvalidPeriod
  }

  /** A column of `n` NaNs: what every window name gives for a window of
      no bars. */
  function NoValues(n: nat): (col: Column)
    ensures |col| == n && forall t :: 0 <= t < n ==> col[t].None?
  {
    seq(n, _ => None)
  }

  /** The column an overlay name computes, from `close` (and `volume`). */
  function Overlay(name: string, bars: Bars, p: int): (col: Column)
    requires bars.Aligned() && name in Overlays && AcceptsPeriod(name, p)
    ensures |col| == |bars.close|
  {
    if p == 0 then NoValues(|bars.close|)
    else if name == "sma" then Indicators.SMA(bars.close, p)
    else if name == "smm" then Indicators.SMM(bars.close, p)
    else if name == "ssma" then Indicators.SSMA(bars.close, p)
    else if name == "ema" then Indicators.EMA(bars.close, p)
    else if name == "dema" then Indicators.DEMA(bars.close, p)
    else if name == "tema" then Indicators.TEMA(bars.close, p)
    else if name == "trima" then Indicators.TRIMA(bars.close, p)
    else if name == "vama" then Indicators.VAMA(bars.close, bars.volume, p)
    else if name == "wma" then Indicators.WMA(bars.close, p)
    else Indicators.SMMA(bars.close, p)
  }

  /** The column a single-series subplot name computes. */
  function RowColumn(name: string, bars: Bars, p: int): (col: Column)
    requires bars.Aligned() && name in RowIndicators - {"macd"} && AcceptsPeriod(name, p)
    ensures |col| == |bars.close|
  {
    if name == "mom" then Indicators.MOM(bars.close, p)
    else if name == "roc" then Indicators.ROC(bars.close, p)
    else if p == 0 then NoValues(|bars.close|)
    else if name == "rsi" then Indicators.RSI(bars.close, p)
    else if name == "atr" then Indicators.ATR(bars, p)
    else if name == "stoch" then Indicators.STOCH(bars, p)
    else Indicators.WILLIAMS(bars, p)
  }

  /** `add_indicator(info)`: `stdev` is the rolling standard deviation the
      Bollinger branch uses.  Overlays, Bollinger bands, volume and Keltner
      channels draw on row 1; the subplot names draw on row `used_rows + 1`
      and then advance `used_rows`; the `tr` branch always raises; any other
      name only prints a message. */
  function AddIndicator(c: Chart, bars: Bars, stdev: seq<real> -> real, info: Entry): (r: Result<Chart, ChartError>)
    requires bars.Aligned()
    ensures info.name == "tr" ==> r.Failure?
    ensures info.name !in Handled ==> r == Success(c)
    ensures info.name in Handled - {"tr", "volume"} ==>
      (r.Success? <==> ValidPeriods(info.name, info.args, if info.name == "macd" then 2 else 1))
    ensures info.name == "volume" ==> r.Success?
    ensures info.name in OffsetNames ==> (r.Success? <==> |info.args| >= 1)
    ensures (info.name in Handled - OffsetNames - WindowNames - {"tr", "volume"} &&
             |info.args| >= (if info.name == "macd" then 2 else 1) && info.args[0] < 1) ==>
      r == Failure(InvalidPeriod)
  {
    NameGroupsDisjoint();
    var name := info.name;
    var args := info.args;
    if name in Overlays then
      if !ValidPeriods(name, args, 1) then Failure(PeriodError(name, args, 1))
      else Success(Draw(c, map[ColumnName(name, args[0]) := Overlay(name, bars, args[0])], 1, 1))
    else if name == "bbands" then
      if !ValidPeriods(name, args, 1) then Failure(PeriodError(name, args, 1))
      else Success(Draw(c, BandColumns(bars, stdev, args[0]), 1, 3))
    else if name == "macd" then
      if !ValidPeriods(name, args, 2) then Failure(PeriodError(name, args, 2))
      else Success(Draw(c, MacdColumns(bars, args[0], args[1]), c.usedRows + 1, 3).(usedRows := c.usedRows + 1))
    else if name in RowIndicators then
      if !ValidPeriods(name, args, 1) then Failure(PeriodError(name, args, 1))
      else
        Success(Draw(c, map[ColumnName(name, args[0]) := RowColumn(name, bars, args[0])], c.usedRows + 1, 1)
                  .(usedRows := c.usedRows + 1))
    else if name == "tr" then
      if |args| < 1 then Failure(MissingArgument) else Failure(UnexpectedPeriod)
    else if name == "volume" then
      Success(Draw(c, map[], 1, 1))
    else if name == "KC" then
      if !ValidPeriods(name, args, 1) then Failure(PeriodError(name, args, 1))
      else Success(Draw(c, ChannelColumns(bars, args[0]), 1, 2))
    else
      Success(c)
  }

  /** `c` with the columns of `added` written into the table (replacing any
      of the same name) and `traces` more traces on row `row`. */
  function Draw(c: Chart, added: map<string, Column>, row: int, traces: nat): (d: Chart)
    ensures d.usedRows == c.usedRows
    ensures d.columns.Keys == c.columns.Keys + added.Keys
    ensures forall k :: k in added ==> d.columns[k] == added[k]
    ensures forall k :: k in c.columns && k !in added ==> d.columns[k] == c.columns[k]
    ensures |d.traceRows| == |c.traceRows| + traces && d.traceRows[..|c.traceRows|] == c.traceRows
    ensures forall k :: |c.traceRows| <= k < |d.traceRows| ==> d.traceRows[k] == row
  {
    Chart(c.columns + added, c.usedRows, c.traceRows + seq(traces, _ => row))
  }

  /** `upper_bb_<p>`, `middle_bb_<p>`, `lower_bb_<p>`: Bollinger bands of
      `close` around its SMA at the default multiplier 2. */
  function BandColumns(bars: Bars, stdev: seq<real> -> real, p: nat): (cols: map<string, Column>)
    requires bars.Aligned()
    ensures cols.Keys == {ColumnName("upper_bb", p), ColumnName("middle_bb", p), ColumnName("lower_bb", p)}
  {
    var b := if p == 0 then Indicators.Bands(NoValues(|bars.close|), NoValues(|bars.close|), NoValues(|bars.close|))
             else Indicators.BBANDS(bars, bars.close, p, None, 2.0, stdev);
    map[ColumnName("upper_bb", p) := b.upper, ColumnName("middle_bb", p) := b.middle,
        ColumnName("lower_bb", p) := b.lower]
  }

  /** `macd_<f>_<s>`, `macd_signal_<f>_<s>`, `macd_difference_<f>_<s>`, with
      the default signal period 9. */
  function MacdColumns(bars: Bars, fast: Period, slow: Period): (cols: map<string, Column>)
  {
    var suffix := IntToString(fast) + "_" + IntToString(slow);
    var m := Indicators.MACD(bars.close, fast, slow, 9);
    map["macd_" + suffix := m.line, "macd_signal_" + suffix := m.signal, "macd_difference_" + suffix := m.difference]
  }

  /** `kc_up_<p>` and `kc_down_<p>`, with the defaults `atr_period` 10 and
      `kc_mult` 2 around the EMA of `close`. */
  function ChannelColumns(bars: Bars, p: Period): (cols: map<string, Column>)
    requires bars.Aligned()
    ensures cols.Keys == {ColumnName("kc_up", p), ColumnName("kc_down", p)}
  {
    var ch := Indicators.KC(bars, p, 10, None, 2.0);
    map[ColumnName("kc_up", p) := ch.up, ColumnName("kc_down", p) := ch.down]
  }

  /** A successful `add_indicator` advances `used_rows` by exactly one for
      the subplot names and leaves it alone otherwise; it keeps the earlier
      traces and puts the new ones on row `used_rows + 1` for subplot names
      and on row 1 for everything else. */
  lemma AddIndicatorRows(c: Chart, bars: Bars, stdev: seq<real> -> real, info: Entry)
    requires bars.Aligned()
    ensures var r := AddIndicator(c, bars, stdev, info);
      r.Success? ==>
        r.value.usedRows == c.usedRows + (if info.name in RowIndicators then 1 else 0) &&
        |r.value.traceRows| >= |c.traceRows| && r.value.traceRows[..|c.traceRows|] == c.traceRows &&
        forall k :: |c.traceRows| <= k < |r.value.traceRows| ==>
          r.value.traceRows[k] == (if info.name in RowIndicators then c.usedRows + 1 else 1)
  {
    NameGroupsDisjoint();
  }

  /** A single-period overlay adds exactly the column `<name>_<period>`,
      holding that indicator of the closes, and leaves every other column
      as it was. */
  lemma OverlayAddsOneColumn(c: Chart, bars: Bars, stdev: seq<real> -> real, info: Entry)
    requires bars.Aligned() && info.name in Overlays
    ensures var r := AddIndicator(c, bars, stdev, info);
      r.Success? ==>
        var col := ColumnName(info.name, info.args[0]);
        r.value.columns.Keys == c.columns.Keys + {col} &&
        r.value.columns[col] == Overlay(info.name, bars, info.args[0]) &&
        forall k :: k in c.columns && k != col ==> r.value.columns[k] == c.columns[k]
  {
  }

  /** `mom` and `roc` are drawn for every integer period, zero and negative
      ones included, as the column of `diff`/`shift` over that offset, on a
      new subplot row. */
  lemma OffsetNamesAlwaysDrawn(c: Chart, bars: Bars, stdev: seq<real> -> real, info: Entry)
    requires bars.Aligned() && info.name in OffsetNames && |info.args| >= 1
    ensures var r := AddIndicator(c, bars, stdev, info);
      var col := ColumnName(info.name, info.args[0]);
      r.Success? && r.value.usedRows == c.usedRows + 1 && col in r.value.columns &&
      r.value.columns[col] == (if info.name == "mom" then Indicators.MOM(bars.close, info.args[0])
                               else Indicators.ROC(bars.close, info.args[0]))
  {
    NameGroupsDisjoint();
  }

  /** A window name with period 0 is drawn, but every column it writes is
      NaN throughout. */
  lemma EmptyWindowDrawsNothing(c: Chart, bars: Bars, stdev: seq<real> -> real, info: Entry)
    requires bars.Aligned() && info.name in WindowNames && |info.args| >= 1 && info.args[0] == 0
    ensures var r := AddIndicator(c, bars, stdev, info);
      r.Success? &&
      (info.name != "bbands" ==>
         ColumnName(info.name, 0) in r.value.columns && r.value.columns[ColumnName(info.name, 0)] == NoValues(|bars.close|)) &&
      (info.name == "bbands" ==>
         forall k :: k in {ColumnName("upper_bb", 0), ColumnName("middle_bb", 0), ColumnName("lower_bb", 0)} ==>
           k in r.value.columns && r.value.columns[k] == NoValues(|bars.close|))
  {
    if info.name == "bbands" {
      EmptyBandsDrawNothing(c, bars, stdev, info);
    } else {
      EmptyLineDrawsNothing(c, bars, stdev, info);
    }
  }

  /** `bbands` over an empty window: all three band columns are NaN. */
  lemma EmptyBandsDrawNothing(c: Chart, bars: Bars, stdev: seq<real> -> real, info: Entry)
    requires bars.Aligned() && info.name == "bbands" && |info.args| >= 1 && info.args[0] == 0
    ensures var r := AddIndicator(c, bars, stdev, info);
      r.Success? &&
      forall k :: k in {ColumnName("upper_bb", 0), ColumnName("middle_bb", 0), ColumnName("lower_bb", 0)} ==>
        k in r.value.columns && r.value.columns[k] == NoValues(|bars.close|)
  {
    NameGroupsDisjoint();
  }

  /** Any other window name over an empty window: its one column is NaN. */
  lemma EmptyLineDrawsNothing(c: Chart, bars: Bars, stdev: seq<real> -> real, info: Entry)
    requires bars.Aligned() && info.name in WindowNames - {"bbands"} && |info.args| >= 1 && info.args[0] == 0
    ensures var r := AddIndicator(c, bars, stdev, info);
      r.Success? &&
      ColumnName(info.name, 0) in r.value.columns && r.value.columns[ColumnName(info.name, 0)] == NoValues(|bars.close|)
  {
    NameGroupsDisjoint();
  }

  /** The constructor's loop `for indicator in indicators: add_indicator(...)`,
      stopping at the first entry that raises. */
  function AddAll(c: Chart, bars: Bars, stdev: seq<real> -> real, inds: seq<Entry>): (r: Result<Chart, ChartError>)
    requires bars.Aligned()
    ensures |inds| == 0 ==> r == Success(c)
  {
    if |inds| == 0 then Success(c)
    else
      var prev :- AddAll(c, bars, stdev, inds[..|inds| - 1]);
      AddIndicator(prev, bars, stdev, inds[|inds| - 1])
  }

  /** The chart right after the candlestick trace: no derived columns, one
      used row, one trace on row 1. */
  const Initial: Chart := Chart(map[], 1, [1])

  /** `Data(..., indicators)`: the layout and every indicator added in order. */
  function Build(bars: Bars, stdev: seq<real> -> real, inds: seq<Entry>): (r: Result<Chart, ChartError>)
    requires bars.Aligned()
    ensures r.Success? ==> r.value.usedRows == 1 + RowCount(inds)
  {
    AddAllRows(Initial, bars, stdev, inds);
    AddAll(Initial, bars, stdev, inds)
  }

  /** Every trace so far targets a row between 1 and `n`. */
  predicate RowsWithin(rows: seq<int>, n: int) {
    forall k :: 0 <= k < |rows| ==> 1 <= rows[k] <= n
  }

  /** Adding entries advances `used_rows` once per subplot name and never
      places a trace beyond the rows used so far. */
  lemma {:induction false} AddAllRows(c: Chart, bars: Bars, stdev: seq<real> -> real, inds: seq<Entry>)
    requires bars.Aligned()
    ensures var r := AddAll(c, bars, stdev, inds);
      r.Success? ==> r.value.usedRows == c.usedRows + RowCount(inds) &&
                     (c.usedRows >= 1 && RowsWithin(c.traceRows, c.usedRows) ==>
                        RowsWithin(r.value.traceRows, r.value.usedRows))
  {
    if |inds| > 0 {
      var front := inds[..|inds| - 1];
      AddAllRows(c, bars, stdev, front);
      var prev := AddAll(c, bars, stdev, front);
      if prev.Success? {
        AddIndicatorRows(prev.value, bars, stdev, inds[|inds| - 1]);
        var r := AddIndicator(prev.value, bars, stdev, inds[|inds| - 1]);
        if r.Success? && c.usedRows >= 1 && RowsWithin(c.traceRows, c.usedRows) {
          var old_ := prev.value.traceRows;
          forall k | 0 <= k < |r.value.traceRows|
            ensures 1 <= r.value.traceRows[k] <= r.value.usedRows
          {
            if k < |old_| {
              assert r.value.traceRows[k] == r.value.traceRows[..|old_|][k];
            }
          }
        }
      }
    }
  }

  /** An entry that raises ends the whole loop. */
  lemma {:induction false} AddAllFailsOnTr(c: Chart, bars: Bars, stdev: seq<real> -> real, inds: seq<Entry>)
    requires bars.Aligned()
    ensures NameCount(inds, "tr") > 0 ==> AddAll(c, bars, stdev, inds).Failure?
  {
    if |inds| > 0 {
      AddAllFailsOnTr(c, bars, stdev, inds[..|inds| - 1]);
    }
  }

  /** Entries split into subplot names, `tr`, `trix` and the rest. */
  lemma {:induction false} SepCountSplits(inds: seq<Entry>)
    ensures SepCount(inds) == RowCount(inds) + NameCount(inds, "tr") + NameCount(inds, "trix")
  {
    if |inds| > 0 {
      SepCountSplits(inds[..|inds| - 1]);
      SeparateNames();
    }
  }

  /** After the constructor's loop, `used_rows` never exceeds the number of
      subplots `calc_wind_num` reserved, and every trace targets an existing
      row; the reserved rows left empty are exactly one per `trix` entry. */
  lemma RowsFitFigure(bars: Bars, stdev: seq<real> -> real, inds: seq<Entry>)
    requires bars.Aligned()
    requires Build(bars, stdev, inds).Success?
    ensures Build(bars, stdev, inds).value.usedRows <= 1 + SepCount(inds)
    ensures RowsWithin(Build(bars, stdev, inds).value.traceRows, 1 + SepCount(inds))
    ensures 1 + SepCount(inds) - Build(bars, stdev, inds).value.usedRows == NameCount(inds, "trix")
  {
    AddAllRows(Initial, bars, stdev, inds);
    AddAllFailsOnTr(Initial, bars, stdev, inds);
    SepCountSplits(inds);
    var ch := Build(bars, stdev, inds).value;
    assert RowsWithin(ch.traceRows, ch.usedRows);
  }
}

=== FILE: indicator_properties.dfy ===
/** Facts about the indicator library that relate several indicators, or an
    indicator and an independent description of what it computes. */
module IndicatorProperties {
  import opened Base
  import opened Series
  import opened Smoothing
  import opened Indicators

  // ------------------------------------------------- trailing windows

  /** The SMA at `t` sees only the last `period` prices. */
  lemma SmaIsLocal(xs: seq<real>, ys: seq<real>, period: Period, t: int)
    requires 0 <= t < |xs| && t < |ys|
    requires forall k :: t - period + 1 <= k <= t && 0 <= k ==> xs[k] == ys[k]
    ensures SMA(xs, period)[t] == SMA(ys, period)[t]
  {
    RollingIsLocal(Lift(xs), Lift(ys), period, Mean, t);
  }

  /** A constant column is its own SMA wherever the SMA is defined. */
  lemma {:induction false} SmaOfConstant(xs: seq<real>, period: Period, c: real, t: int)
    requires forall i :: 0 <= i < |xs| ==> xs[i] == c
    requires period - 1 <= t < |xs|
    ensures SMA(xs, period)[t] == Some(c)
  {
    var w := Window(xs, period, t);
    MeanOfConstantWindow(w, c, period);
    assert SMA(xs, period)[t].value == Sum(w) / period as real;
  }

  /** The mean of `p` equal values is that value. */
  lemma {:induction false} MeanOfConstantWindow(w: seq<real>, c: real, p: Period)
    requires |w| == p && forall i :: 0 <= i < |w| ==> w[i] == c
    ensures Sum(w) / p as real == c
  {
    SumOfConstant(w, c);
    DivideMultiple(Sum(w), c, |w| as real);
  }

  lemma DivideMultiple(s: real, c: real, d: real)
    requires d != 0.0 && s == c * d
    ensures s / d == c
  {
  }

  lemma {:induction false} LinearWeightedOfConstant(w: seq<real>, c: real)
    requires forall i :: 0 <= i < |w| ==> w[i] == c
    ensures LinearWeighted(w) == c * ((|w| * (|w| + 1)) as real / 2.0)
  {
    if |w| > 0 {
      var n := |w|;
      var front := LinearWeighted(w[..n - 1]);
      assert front == c * (((n - 1) * n) as real / 2.0) by {
        LinearWeightedOfConstant(w[..n - 1], c);
      }
      assert LinearWeighted(w) == front + n as real * c;
      TriangleStep(n, c);
    }
  }

  lemma TriangleStep(n: nat, c: real)
    requires n >= 1
    ensures c * (((n - 1) * n) as real / 2.0) + n as real * c == c * ((n * (n + 1)) as real / 2.0)
  {
    assert (n * (n + 1)) as real == ((n - 1) * n) as real + 2.0 * n as real;
  }

  /** The WMA weights 1..period sum to the WMA denominator. */
  lemma WmaWeightsSumToDenominator(period: Period)
    ensures LinearWeighted(seq(period, _ => 1.0)) == WmaDenominator(period)
  {
    LinearWeightedOfConstant(seq(period, _ => 1.0), 1.0);
  }

  /** Because the weights sum to the denominator, a constant column is its
      own WMA. */
  lemma WmaOfConstant(xs: seq<real>, period: Period, c: real, t: int)
    requires forall i :: 0 <= i < |xs| ==> xs[i] == c
    requires period - 1 <= t < |xs|
    ensures WMA(xs, period)[t] == Some(c)
  {
    var w := Window(xs, period, t);
    var s, d := LinearWeighted(w), WmaDenominator(period);
    assert s == c * d by {
      LinearWeightedOfConstant(w, c);
    }
    assert WMA(xs, period)[t] == Some(s / d);
    DivideMultiple(s, c, d);
  }

  /** A constant column is its own moving median. */
  lemma SmmOfConstant(xs: seq<real>, period: Period, c: real, t: int)
    requires forall i :: 0 <= i < |xs| ==> xs[i] == c
    requires period - 1 <= t < |xs|
    ensures SMM(xs, period)[t] == Some(c)
  {
    var w := Window(xs, period, t);
    assert Lowest(w) == c && Highest(w) == c by {
      ExtremesOfConstant(w, c);
    }
    var m := SMM(xs, period)[t];
    assert m.Some? && Lowest(w) <= m.value <= Highest(w) by {
      SmmWithinWindow(xs, period, t);
    }
    assert m.value == c;
  }

  lemma SmmWithinWindow(xs: seq<real>, period: Period, t: int)
    requires period - 1 <= t < |xs|
    ensures var w := Window(xs, period, t);
            SMM(xs, period)[t].Some? && Lowest(w) <= SMM(xs, period)[t].value <= Highest(w)
  {
  }

  lemma ExtremesOfConstant(w: seq<real>, c: real)
    requires |w| > 0 && forall i :: 0 <= i < |w| ==> w[i] == c
    ensures Lowest(w) == c && Highest(w) == c
  {
  }

  // ------------------------------------------- exponentially weighted means

  /** SSMA and SMMA compute the same series: `min_periods=0` changes nothing. */
  lemma SsmaIsSmma(xs: seq<real>, period: Period)
    ensures SSMA(xs, period) == SMMA(xs, period)
  {
  }

  /** A constant column is its own EMA. */
  lemma EmaOfConstant(xs: seq<real>, period: Period, c: real)
    requires forall i :: 0 <= i < |xs| ==> xs[i] == c
    ensures EMA(xs, period) == Lift(xs)
  {
    EwmOfConstant(xs, SpanDecay(period), c);
  }

  /** DEMA equals twice the EMA minus the EMA of the EMA series, both computed
      by the public EMA. */
  lemma DemaIdentity(xs: seq<real>, period: Period, t: int)
    requires 0 <= t < |xs|
    ensures var e := EMA(xs, period);
            DEMA(xs, period)[t].value == 2.0 * e[t].value - EMA(Values(e), period)[t].value
  {
    ValuesOfLift(EmaValues(xs, period));
  }

  /** TEMA equals 3·EMA − 3·EMA(EMA) + EMA(EMA(EMA)), with every EMA computed
      by the public EMA. */
  lemma TemaIdentity(xs: seq<real>, period: Period, t: int)
    requires 0 <= t < |xs|
    ensures var e := EMA(xs, period);
            var ee := EMA(Values(e), period);
            TEMA(xs, period)[t].value == 3.0 * e[t].value - 3.0 * ee[t].value + EMA(Values(ee), period)[t].value
  {
    var e := EmaValues(xs, period);
    ValuesOfLift(e);
    ValuesOfLift(EmaValues(e, period));
  }

  /** DEMA and TEMA return a constant column unchanged. */
  lemma DemaTemaOfConstant(xs: seq<real>, period: Period, c: real)
    requires forall i :: 0 <= i < |xs| ==> xs[i] == c
    ensures DEMA(xs, period) == Lift(xs)
    ensures TEMA(xs, period) == Lift(xs)
  {
    var w := SpanDecay(period);
    EwmOfConstant(xs, w, c);
    var e := EmaValues(xs, period);
    assert e == xs;
    EwmOfConstant(e, w, c);
    EwmOfConstant(EmaValues(e, period), w, c);
  }

  /** For a constant column the MACD line, signal and histogram are all zero. */
  lemma MacdOfConstant(xs: seq<real>, fast: Period, slow: Period, signal: Period, c: real, t: int)
    requires forall i :: 0 <= i < |xs| ==> xs[i] == c
    requires 0 <= t < |xs|
    ensures var m := MACD(xs, fast, slow, signal);
            m.line[t] == Some(0.0) && m.signal[t] == Some(0.0) && m.difference[t] == Some(0.0)
  {
    EwmOfConstant(xs, SpanDecay(fast), c);
    EwmOfConstant(xs, SpanDecay(slow), c);
    var ef, es := EmaValues(xs, fast), EmaValues(xs, slow);
    assert ef == xs && es == xs;
    var line := seq(|xs|, k requires 0 <= k < |xs| => ef[k] - es[k]);
    assert forall k :: 0 <= k < |line| ==> line[k] == 0.0;
    EwmOfConstant(line, SpanDecay(signal), 0.0);
  }

  /** TRIX is zero after the first position for a constant non-zero column. */
  lemma TrixOfConstant(xs: seq<real>, period: Period, c: real, t: int)
    requires c != 0.0
    requires forall i :: 0 <= i < |xs| ==> xs[i] == c
    requires 1 <= t < |xs|
    ensures TRIX(xs, period)[t].Some? && TRIX(xs, period)[t].value == 0.0
  {
    var m := TripleEma(xs, period);
    assert m == xs by {
      var w := SpanDecay(period);
      EwmOfConstant(xs, w, c);
      EwmOfConstant(EmaValues(xs, period), w, c);
      EwmOfConstant(EmaValues(EmaValues(xs, period), period), w, c);
    }
    assert m[t] - m[t - 1] == 0.0;
    assert (m[t] - m[t - 1]) / m[t] == 0.0;
  }

  // ------------------------------------------------------- differences

  /** The one-step changes `close[k+1] - close[k]`: the values of `diff(1)`
      after its leading NaN. */
  function Changes(xs: seq<real>): (ch: seq<real>)
    requires |xs| > 0
    ensures |ch| == |xs| - 1
  {
    seq(|xs| - 1, k requires 0 <= k < |xs| - 1 => xs[k + 1] - xs[k])
  }

  /** The changes are exactly the values of MOM over one bar. */
  lemma ChangesAreUnitMomentum(xs: seq<real>)
    requires |xs| > 0
    ensures forall k {:trigger Changes(xs)[k]} :: 0 <= k < |xs| - 1 ==> MOM(xs, 1)[k + 1] == Some(Changes(xs)[k])
  {
  }

  /** A sum of consecutive differences collapses to its end points. */
  lemma {:induction false} Telescope(xs: seq<real>, ch: seq<real>, a: int, b: int)
    requires |ch| == |xs| - 1 && 0 <= a <= b < |xs|
    requires forall k {:trigger ch[k]} :: 0 <= k < |ch| ==> ch[k] == xs[k + 1] - xs[k]
    ensures Sum(ch[a..b]) == xs[b] - xs[a]
  {
    if a < b {
      var v := ch[a..b];
      assert v[..|v| - 1] == ch[a..b - 1] && v[|v| - 1] == ch[b - 1];
      assert Sum(v) == Sum(ch[a..b - 1]) + ch[b - 1];
      Telescope(xs, ch, a, b - 1);
    }
  }

  /** MOM over `period` is the sum of the `period` one-step changes that end
      at `t`. */
  lemma MomentumTelescopes(xs: seq<real>, period: nat, t: int)
    requires period <= t < |xs|
    ensures MOM(xs, period)[t] == Some(Sum(Changes(xs)[t - period..t]))
  {
    Telescope(xs, Changes(xs), t - period, t);
  }

  /** A negative offset looks forward: MOM over `-period` at `t - period` is
      MOM over `period` at `t` with the sign flipped, and the two are defined
      at the same pairs of positions. */
  lemma MomentumReversed(xs: seq<real>, period: int, t: int)
    requires 0 <= t < |xs| && 0 <= t - period < |xs|
    ensures MOM(xs, -period)[t - period].Some? && MOM(xs, period)[t].Some?
    ensures MOM(xs, -period)[t - period].value == -MOM(xs, period)[t].value
  {
    var u := t - period;
    assert u - (-period) == t;
  }

  /** ROC is MOM relative to the price `period` bars away, in percent, for any
      signed offset. */
  lemma RocIsRelativeMomentum(xs: seq<real>, period: int, t: int)
    requires 0 <= t < |xs| && 0 <= t - period < |xs| && xs[t - period] != 0.0
    ensures ROC(xs, period)[t] == Some(100.0 * (MOM(xs, period)[t].value / xs[t - period]))
  {
  }

  // ------------------------------------------------------------------ RSI

  /** RSI is a percentage: within [0, 100], and below 100 wherever the smoothed
      loss is positive. */
  lemma RsiBounded(xs: seq<real>, period: Period, t: int)
    requires 1 <= t < |xs|
    ensures RSI(xs, period)[t].Some? ==> 0.0 <= RSI(xs, period)[t].value <= 100.0
    ensures SMMA(Losses(xs), period)[t - 1].value > 0.0 ==>
      RSI(xs, period)[t].Some? && RSI(xs, period)[t].value < 100.0
  {
  }

  /** A column that never falls has RSI 100 wherever it has risen at least once. */
  lemma RsiOfRisingColumn(xs: seq<real>, period: Period, t: int)
    requires period >= 2
    requires forall i, j :: 0 <= i <= j < |xs| ==> xs[i] <= xs[j]
    requires 1 <= t < |xs| && xs[0] < xs[t]
    ensures RSI(xs, period)[t] == Some(100.0)
  {
    SmoothedLossOfRisingColumn(xs, period, t);
    SmoothedGainOfRisingColumn(xs, period, t);
    assert RSI(xs, period)[t] == RsiOf(SMMA(Gains(xs), period)[t - 1].value, SMMA(Losses(xs), period)[t - 1].value);
  }

  /** A column that never falls has no losses to smooth. */
  lemma SmoothedLossOfRisingColumn(xs: seq<real>, period: Period, t: int)
    requires forall i, j :: 0 <= i <= j < |xs| ==> xs[i] <= xs[j]
    requires 1 <= t < |xs|
    ensures SMMA(Losses(xs), period)[t - 1].value == 0.0
  {
    var w := AlphaDecay(period);
    var l := Losses(xs);
    assert forall k :: 0 <= k < |l| ==> l[k] == 0.0;
    EwmOfConstant(l, w, 0.0);
    assert SMMA(l, period) == Lift(Ewm(l, w));
  }

  /** Some step up to `t` was a strict rise, so the smoothed gain is positive. */
  lemma SmoothedGainOfRisingColumn(xs: seq<real>, period: Period, t: int)
    requires period >= 2
    requires 1 <= t < |xs| && xs[0] < xs[t]
    ensures SMMA(Gains(xs), period)[t - 1].value > 0.0
  {
    var w := AlphaDecay(period);
    var g := Gains(xs);
    var k := RisingStep(xs, t);
    assert g[k] > 0.0;
    assert w > 0.0;
    PositiveGainHasPositiveMean(g, w, k, t - 1);
    assert SMMA(g, period) == Lift(Ewm(g, w));
  }

  /** A strict rise `xs[0] < xs[t]` of a column happens in some single step. */
  lemma {:induction false} RisingStep(xs: seq<real>, t: int) returns (k: int)
    requires 1 <= t < |xs| && xs[0] < xs[t]
    ensures 0 <= k < t && xs[k] < xs[k + 1]
  {
    if xs[t - 1] < xs[t] {
      k := t - 1;
    } else {
      k := RisingStep(xs, t - 1);
    }
  }

  /** A non-negative column with a positive entry at or before `t` has a
      positive mean at `t`. */
  lemma {:induction false} PositiveGainHasPositiveMean(g: seq<real>, w: real, k: int, t: int)
    requires 0.0 < w < 1.0 && 0 <= k <= t < |g|
    requires forall i :: 0 <= i < |g| ==> g[i] >= 0.0
    requires g[k] > 0.0
    ensures Ewm(g, w)[t] > 0.0
  {
    PositiveWeightedSum(g, w, t, t + 1, k);
  }

  lemma {:induction false} PositiveWeightedSum(g: seq<real>, w: real, t: int, n: nat, k: int)
    requires 0.0 < w < 1.0 && n <= t + 1 <= |g|
    requires forall i :: 0 <= i < |g| ==> g[i] >= 0.0
    requires t - n < k <= t && g[k] > 0.0
    ensures WeightedSum(g, w, t, n) > 0.0
  {
    assert n >= 1;
    var p := Pow(w, n - 1);
    var x := g[t - (n - 1)];
    if k == t - (n - 1) {
      WeightedSumAtLeast(g, w, t, n - 1, 0.0);
      assert p * x > 0.0 by {
        PowPositive(w, n - 1);
      }
    } else {
      PositiveWeightedSum(g, w, t, n - 1, k);
      assert p * x >= 0.0;
    }
  }

  /** Every weight is positive when the decay is: with `period == 1` the decay
      is zero and only the newest observation carries weight. */
  lemma {:induction false} PowPositive(w: real, k: nat)
    requires 0.0 < w
    ensures Pow(w, k) > 0.0
  {
    if k > 0 {
      PowPositive(w, k - 1);
    }
  }

  // ---------------------------------------------------------- true range

  /** TR at `t >= 1` is the largest of the three ranges. */
  lemma TrIsLargestRange(bars: Bars, t: int)
    requires bars.Aligned() && 1 <= t < |bars.close|
    ensures var r := TR(bars)[t].value;
            var a, b, c := Abs(bars.high[t] - bars.low[t]),
                           Abs(bars.high[t] - bars.close[t - 1]),
                           Abs(bars.close[t - 1] - bars.low[t]);
            r >= a && r >= b && r >= c && (r == a || r == b || r == c)
  {
  }

  /** ATR is never negative. */
  lemma AtrNonNegative(bars: Bars, period: Period, t: int)
    requires bars.Aligned() && period - 1 <= t < |bars.close|
    ensures ATR(bars, period)[t].value >= 0.0
  {
    var tr := TR(bars);
    var v := Values(Window(tr, period, t));
    var s, d := Sum(v), period as real;
    assert s >= 0.0 by {
      forall i | 0 <= i < period ensures v[i] >= 0.0 {
        assert Some(v[i]) == tr[t - period + 1 + i];
      }
      SumNonNegative(v);
    }
    assert ATR(bars, period)[t].value == s / d;
    NonNegativeQuotient(s, d);
  }

  lemma NonNegativeQuotient(s: real, d: real)
    requires s >= 0.0 && d > 0.0
    ensures s / d >= 0.0
  {
  }

  // ------------------------------------------------------------ oscillators

  /** Within a window the highest high and lowest low enclose the current bar. */
  lemma ExtremesEncloseBar(bars: Bars, period: Period, t: int)
    requires bars.Aligned() && bars.WellFormed() && period - 1 <= t < |bars.close|
    ensures HighestHigh(bars, period)[t].Some? && LowestLow(bars, period)[t].Some?
    ensures LowestLow(bars, period)[t].value <= bars.low[t] <= bars.close[t]
    ensures bars.close[t] <= bars.high[t] <= HighestHigh(bars, period)[t].value
  {
    assert bars.CloseInRange(t);
    HighestHighAt(bars, period, t);
    LowestLowAt(bars, period, t);
    assert Window(bars.low, period, t)[period - 1] == bars.low[t];
    assert Window(bars.high, period, t)[period - 1] == bars.high[t];
  }

  /** On well-formed bars, wherever the window's range is non-zero, STOCH is
      defined and lies in [0, 100]. */
  lemma StochBounded(bars: Bars, period: Period, t: int)
    requires bars.Aligned() && bars.WellFormed() && period - 1 <= t < |bars.close|
    requires Highest(Window(bars.high, period, t)) != Lowest(Window(bars.low, period, t))
    ensures STOCH(bars, period)[t].Some?
    ensures 0.0 <= STOCH(bars, period)[t].value <= 100.0
  {
    HighestHighAt(bars, period, t);
    LowestLowAt(bars, period, t);
    StochWilliamsDefinedTogether(bars, period, t);
    ExtremesEncloseBar(bars, period, t);
    PercentPositions(bars.close, HighestHigh(bars, period), LowestLow(bars, period), STOCH(bars, period), WILLIAMS(bars, period), t);
  }

  /** On well-formed bars, wherever the window's range is non-zero, WILLIAMS
      is defined and lies in [-100, 0]. */
  lemma WilliamsBounded(bars: Bars, period: Period, t: int)
    requires bars.Aligned() && bars.WellFormed() && period - 1 <= t < |bars.close|
    requires Highest(Window(bars.high, period, t)) != Lowest(Window(bars.low, period, t))
    ensures WILLIAMS(bars, period)[t].Some?
    ensures -100.0 <= WILLIAMS(bars, period)[t].value <= 0.0
  {
    HighestHighAt(bars, period, t);
    LowestLowAt(bars, period, t);
    StochWilliamsDefinedTogether(bars, period, t);
    ExtremesEncloseBar(bars, period, t);
    PercentPositions(bars.close, HighestHigh(bars, period), LowestLow(bars, period), STOCH(bars, period), WILLIAMS(bars, period), t);
  }

  /** STOCH and WILLIAMS are defined at the same positions, on any bars. */
  lemma StochWilliamsDefinedTogether(bars: Bars, period: Period, t: int)
    requires bars.Aligned() && 0 <= t < |bars.close|
    ensures STOCH(bars, period)[t].Some? <==> WILLIAMS(bars, period)[t].Some?
  {
  }

  /** Wherever the window's range is non-zero, STOCH and WILLIAMS are both
      defined and differ by exactly 100, on any bars. */
  lemma StochMinusWilliams(bars: Bars, period: Period, t: int)
    requires bars.Aligned() && period - 1 <= t < |bars.close|
    requires Highest(Window(bars.high, period, t)) != Lowest(Window(bars.low, period, t))
    ensures STOCH(bars, period)[t].Some? && WILLIAMS(bars, period)[t].Some?
    ensures STOCH(bars, period)[t].value - WILLIAMS(bars, period)[t].value == 100.0
  {
    HighestHighAt(bars, period, t);
    LowestLowAt(bars, period, t);
    StochWilliamsDefinedTogether(bars, period, t);
    PercentPositions(bars.close, HighestHigh(bars, period), LowestLow(bars, period), STOCH(bars, period), WILLIAMS(bars, period), t);
  }

  // --------------------------------------------------------------- VAMA

  /** With positive volumes and prices the volume ratio is positive once the
      volume window is full. */
  lemma RatioPositive(close: seq<real>, volume: seq<real>, period: Period, k: int)
    requires |volume| == |close|
    requires forall i :: 0 <= i < |close| ==> close[i] > 0.0
    requires forall i :: 0 <= i < |volume| ==> volume[i] > 0.0
    requires period - 1 <= k < |close|
    ensures VolumeRatio(close, volume, period)[k].Some?
    ensures VolumeRatio(close, volume, period)[k].value > 0.0
  {
    var vp := Times(Lift(volume), Lift(close));
    var volMean := Rolling(Lift(volume), period, Mean);
    assert VolumeRatio(close, volume, period) == Divide(vp, volMean);
    assert volMean[k].Some? && volMean[k].value > 0.0 by {
      MeanVolumePositive(volume, period, k);
    }
    assert vp[k].Some? && vp[k].value > 0.0 by {
      ProductPositive(volume, close, k);
    }
    QuotientPositive(vp, volMean, k);
  }

  lemma MeanVolumePositive(volume: seq<real>, period: Period, k: int)
    requires forall i :: 0 <= i < |volume| ==> volume[i] > 0.0
    requires period - 1 <= k < |volume|
    ensures var m := Rolling(Lift(volume), period, Mean)[k];
            m.Some? && m.value > 0.0
  {
    var vw := Window(volume, period, k);
    var s := Sum(vw);
    assert s > 0.0 by {
      PositiveSum(vw);
    }
    assert Mean(vw) == s / period as real;
    PositiveQuotient(s, period as real);
    RollingOverClean(volume, period, Mean);
  }

  lemma ProductPositive(a: seq<real>, b: seq<real>, k: int)
    requires |a| == |b| && 0 <= k < |a|
    requires a[k] > 0.0 && b[k] > 0.0
    ensures var p := Times(Lift(a), Lift(b))[k];
            p.Some? && p.value > 0.0
  {
    assert Times(Lift(a), Lift(b))[k] == TimesAt(Lift(a)[k], Lift(b)[k]);
    PositiveProduct(a[k], b[k]);
  }

  lemma QuotientPositive(xs: seq<Option<real>>, ys: seq<Option<real>>, k: int)
    requires |xs| == |ys| && 0 <= k < |xs|
    requires xs[k].Some? && xs[k].value > 0.0 && ys[k].Some? && ys[k].value > 0.0
    ensures Divide(xs, ys)[k].Some? && Divide(xs, ys)[k].value > 0.0
  {
    PositiveQuotient(xs[k].value, ys[k].value);
  }

  lemma PositiveProduct(a: real, b: real)
    requires a > 0.0 && b > 0.0
    ensures a * b > 0.0
  {
  }

  lemma PositiveQuotient(a: real, b: real)
    requires a > 0.0 && b > 0.0
    ensures a / b > 0.0
  {
  }

  /** A window of positive ratios is filled, so is the window of ratio-weighted
      prices, and the ratios have a positive sum. */
  lemma PositiveRatioWindow(ratio: seq<Option<real>>, close: seq<real>, period: Period, t: int)
    requires |ratio| == |close| && period - 1 <= t < |close|
    requires forall k :: t - period + 1 <= k <= t ==> ratio[k].Some? && ratio[k].value > 0.0
    ensures Filled(ratio, period, t) && Filled(Times(ratio, Lift(close)), period, t)
    ensures Sum(Values(Window(ratio, period, t))) > 0.0
  {
    var weighted := Times(ratio, Lift(close));
    var rw, ww := Window(ratio, period, t), Window(weighted, period, t);
    forall i | 0 <= i < period
      ensures rw[i].Some? && rw[i].value > 0.0 && ww[i].Some?
    {
      assert rw[i] == ratio[t - period + 1 + i] && ww[i] == weighted[t - period + 1 + i];
    }
    PositiveSum(Values(rw));
  }

  /** With positive volumes and prices VAMA is defined exactly from position
      `2*period - 2` on: the first full window of volume ratios. */
  lemma VamaDefinedFrom(close: seq<real>, volume: seq<real>, period: Period, t: int)
    requires |volume| == |close| && 0 <= t < |close|
    requires forall i :: 0 <= i < |close| ==> close[i] > 0.0
    requires forall i :: 0 <= i < |volume| ==> volume[i] > 0.0
    ensures VAMA(close, volume, period)[t].Some? <==> t >= 2 * period - 2
  {
    if t >= 2 * period - 2 {
      var ratio := VolumeRatio(close, volume, period);
      forall k | t - period + 1 <= k <= t
        ensures ratio[k].Some? && ratio[k].value > 0.0
      {
        RatioPositive(close, volume, period, k);
      }
      PositiveRatioWindow(ratio, close, period, t);
      var weighted := Times(ratio, Lift(close));
      var cumSum, cumDiv := Rolling(weighted, period, Sum), Rolling(ratio, period, Sum);
      assert VAMA(close, volume, period) == Divide(cumSum, cumDiv);
      assert cumSum[t].Some? && cumDiv[t].Some? && cumDiv[t].value > 0.0;
    }
  }

  /** Once the window of volume ratios is full, VAMA is the average of the
      window's closes weighted by their volume ratios, which are positive. */
  lemma VamaAt(close: seq<real>, volume: seq<real>, period: Period, t: int)
    requires |volume| == |close| && 2 * period - 2 <= t < |close|
    requires forall i :: 0 <= i < |close| ==> close[i] > 0.0
    requires forall i :: 0 <= i < |volume| ==> volume[i] > 0.0
    ensures Filled(VolumeRatio(close, volume, period), period, t)
    ensures forall i :: 0 <= i < period ==> Values(Window(VolumeRatio(close, volume, period), period, t))[i] > 0.0
    ensures Sum(Values(Window(VolumeRatio(close, volume, period), period, t))) > 0.0
    ensures VAMA(close, volume, period)[t].Some?
    ensures VAMA(close, volume, period)[t].value ==
      Sum(Products(Values(Window(VolumeRatio(close, volume, period), period, t)), Window(close, period, t))) /
      Sum(Values(Window(VolumeRatio(close, volume, period), period, t)))
  {
    var ratio := VolumeRatio(close, volume, period);
    forall k | t - period + 1 <= k <= t
      ensures ratio[k].Some? && ratio[k].value > 0.0
    {
      RatioPositive(close, volume, period, k);
    }
    PositiveRatioWindow(ratio, close, period, t);
    var weighted := Times(ratio, Lift(close));
    var rw, cw := Values(Window(ratio, period, t)), Window(close, period, t);
    forall i | 0 <= i < period
      ensures rw[i] > 0.0
    {
      assert Window(ratio, period, t)[i] == ratio[t - period + 1 + i];
    }
    WeightedWindow(ratio, close, period, t);
    var cumSum, cumDiv := Rolling(weighted, period, Sum), Rolling(ratio, period, Sum);
    assert VAMA(close, volume, period) == Divide(cumSum, cumDiv);
  }

  /** The window of `vol_ratio * close` holds the products of the ratio
      window and the close window. */
  lemma WeightedWindow(ratio: seq<Option<real>>, close: seq<real>, period: Period, t: int)
    requires |ratio| == |close| && Filled(ratio, period, t)
    ensures Filled(Times(ratio, Lift(close)), period, t)
    ensures Values(Window(Times(ratio, Lift(close)), period, t)) ==
      Products(Values(Window(ratio, period, t)), Window(close, period, t))
  {
    var weighted := Times(ratio, Lift(close));
    var rw, cw := Values(Window(ratio, period, t)), Window(close, period, t);
    forall i | 0 <= i < period
      ensures Window(weighted, period, t)[i] == Some(Products(rw, cw)[i])
    {
      var k := t - period + 1 + i;
      assert Window(ratio, period, t)[i] == ratio[k] == Some(rw[i]);
      assert Lift(close)[k] == Some(cw[i]);
      TimesOfSome(ratio, Lift(close), k, rw[i], cw[i], Products(rw, cw)[i]);
      assert Window(weighted, period, t)[i] == weighted[k];
    }
  }

  /** A product of two present values is present and is their product. */
  lemma TimesOfSome(xs: seq<Option<real>>, ys: seq<Option<real>>, k: int, a: real, b: real, p: real)
    requires |xs| == |ys| && 0 <= k < |xs|
    requires xs[k] == Some(a) && ys[k] == Some(b) && p == a * b
    ensures Times(xs, ys)[k] == Some(p)
  {
    var q := xs[k].value * ys[k].value;
    assert Times(xs, ys)[k] == Some(q);
    assert q == a * b;
  }

  /** VAMA is a weighted average of the window's closes, so it lies between
      the window's lowest and highest close. */
  lemma VamaWithinWindow(close: seq<real>, volume: seq<real>, period: Period, t: int)
    requires |volume| == |close| && 2 * period - 2 <= t < |close|
    requires forall i :: 0 <= i < |close| ==> close[i] > 0.0
    requires forall i :: 0 <= i < |volume| ==> volume[i] > 0.0
    ensures VAMA(close, volume, period)[t].Some?
    ensures Lowest(Window(close, period, t)) <= VAMA(close, volume, period)[t].value <= Highest(Window(close, period, t))
  {
    VamaAt(close, volume, period, t);
    WeightedAverageBetween(Values(Window(VolumeRatio(close, volume, period), period, t)), Window(close, period, t));
  }

  /** The VAMA of a constant positive close is that close. */
  lemma VamaOfConstant(close: seq<real>, volume: seq<real>, period: Period, c: real, t: int)
    requires |volume| == |close| && 2 * period - 2 <= t < |close|
    requires forall i :: 0 <= i < |close| ==> close[i] == c
    requires c > 0.0 && forall i :: 0 <= i < |volume| ==> volume[i] > 0.0
    ensures VAMA(close, volume, period)[t] == Some(c)
  {
    var cw := Window(close, period, t);
    assert Lowest(cw) == c && Highest(cw) == c by {
      ExtremesOfConstant(cw, c);
    }
    var m := VAMA(close, volume, period)[t];
    assert m.Some? && Lowest(cw) <= m.value <= Highest(cw) by {
      VamaWithinWindow(close, volume, period, t);
    }
    assert m.value == c;
    assert m == Some(c);
  }

  lemma {:induction false} PositiveSum(xs: seq<real>)
    requires |xs| > 0 && forall i :: 0 <= i < |xs| ==> xs[i] > 0.0
    ensures Sum(xs) > 0.0
  {
    if |xs| > 1 {
      PositiveSum(xs[..|xs| - 1]);
    }
  }
}

=== FILE: indicators.dfy ===
/** The indicator library of the current revision: the arity table, the list
    of indicators drawn in a window of their own, and one function per `ta.X`
    classmethod.  Price columns are clean `seq<real>`; every result is a
    derived series of the input's length in which `None` is pandas' NaN.
    Each function takes the column it reads (`ohlc[column]`) directly; those
    that read fixed columns take the whole table. */
module Indicators {
  import opened Base
  import opened Series
  import opened Smoothing

  /** `ind_periods`: how many integer periods each indicator name asks for. */
  const IndPeriods: map<string, nat> := map[
    "volume" := 0, "sma" := 1, "smm" := 1, "ssma" := 1, "ema" := 1, "dema" := 1,
    "tema" := 1, "trima" := 1, "trix" := 1, "vama" := 1, "wma" := 1, "smma" := 1,
    "macd" := 2, "mom" := 1, "roc" := 1, "rsi" := 1, "tr" := 0, "atr" := 1,
    "bbands" := 1, "kc" := 1, "stoch" := 1, "williams" := 1]

  /** `sep_window_ind`: indicators drawn below the price chart. */
  const SepWindowInd: seq<string> := ["macd", "mom", "roc", "rsi", "tr", "atr", "stoch", "williams", "trix"]

  /** Every separate-window indicator is a known indicator name. */
  lemma SeparateIndicatorsAreKnown()
    ensures forall k :: 0 <= k < |SepWindowInd| ==> SepWindowInd[k] in IndPeriods
  {
  }

  // ------------------------------------------------- trailing windows

  /** Simple moving average: `rolling(window=period).mean()`. */
  function SMA(xs: seq<real>, period: Period): (r: seq<Option<real>>)
    ensures |r| == |xs|
    ensures forall t :: 0 <= t < |xs| ==> (r[t].Some? <==> t >= period - 1)
    ensures forall t {:trigger Window(xs, period, t)} :: period - 1 <= t < |xs| ==>
      r[t].value == Sum(Window(xs, period, t)) / period as real
  {
    RollingOverClean(xs, period, Mean);
    Rolling(Lift(xs), period, Mean)
  }

  /** Simple moving median: `rolling(window=period).median()`. */
  function SMM(xs: seq<real>, period: Period): (r: seq<Option<real>>)
    ensures |r| == |xs|
    ensures forall t :: 0 <= t < |xs| ==> (r[t].Some? <==> t >= period - 1)
    ensures forall t :: period - 1 <= t < |xs| ==> r[t].value == Median(Window(xs, period, t))
    ensures forall t :: period - 1 <= t < |xs| ==>
      Lowest(Window(xs, period, t)) <= r[t].value <= Highest(Window(xs, period, t))
  {
    RollingOverClean(xs, period, Median);
    forall t | period - 1 <= t < |xs| ensures Lowest(Window(xs, period, t)) <= Median(Window(xs, period, t)) <= Highest(Window(xs, period, t)) {
      MedianBetweenExtremes(Window(xs, period, t));
    }
    Rolling(Lift(xs), period, Median)
  }

  /** Sum of a window with weights 1..n from the oldest to the newest position. */
  function LinearWeighted(w: seq<real>): real
  {
    if |w| == 0 then 0.0 else LinearWeighted(w[..|w| - 1]) + |w| as real * w[|w| - 1]
  }

  /** The WMA denominator `(period * (period + 1)) / 2`. */
  function WmaDenominator(period: Period): (d: real)
    ensures d >= 1.0
  {
    (period * (period + 1)) as real / 2.0
  }

  /** Weighted moving average: weights 1..period over the trailing window,
      divided by `period * (period + 1) / 2`. */
  function WMA(xs: seq<real>, period: Period): (r: seq<Option<real>>)
    ensures |r| == |xs|
    ensures forall t :: 0 <= t < |xs| ==> (r[t].Some? <==> t >= period - 1)
    ensures forall t :: period - 1 <= t < |xs| ==>
      r[t].value == LinearWeighted(Window(xs, period, t)) / WmaDenominator(period)
  {
    var f := (w: seq<real>) => LinearWeighted(w) / WmaDenominator(period);
    RollingOverClean(xs, period, f);
    Rolling(Lift(xs), period, f)
  }

  /** Triangular moving average: the rolling sum of the SMA divided by `period`. */
  function TRIMA(xs: seq<real>, period: Period): (r: seq<Option<real>>)
    ensures |r| == |xs|
    ensures forall t :: 0 <= t < |xs| ==> (r[t].Some? <==> t >= 2 * period - 2)
    ensures forall t :: 2 * period - 2 <= t < |xs| ==>
      r[t].value == Sum(Values(Window(SMA(xs, period), period, t))) / period as real
  {
    SmaFilledFrom(xs, period);
    Rolling(SMA(xs, period), period, (w: seq<real>) => Sum(w) / period as real)
  }

  /** A full window of SMA values exists from position `2*period - 2` on. */
  lemma SmaFilledFrom(xs: seq<real>, period: Period)
    ensures forall t :: 0 <= t < |xs| ==> (Filled(SMA(xs, period), period, t) <==> t >= 2 * period - 2)
  {
    var sma := SMA(xs, period);
    forall t | 0 <= t < |xs|
      ensures Filled(sma, period, t) <==> t >= 2 * period - 2
    {
      if t >= 2 * period - 2 {
        assert AllSome(Window(sma, period, t));
      }
      if Filled(sma, period, t) {
        assert Window(sma, period, t)[0].Some?;
      }
    }
  }

  // ------------------------------------------- exponentially weighted means

  /** `ewm(span=period, adjust=True).mean()` of a clean column. */
  function EmaValues(xs: seq<real>, period: Period): (r: seq<real>)
    ensures |r| == |xs|
    ensures |xs| > 0 ==> r[0] == xs[0]
  {
    EwmFirst(xs, SpanDecay(period));
    Ewm(xs, SpanDecay(period))
  }

  /** Exponential moving average: it starts at the first close, and each
      later value is pandas' online update of the previous one with decay
      `1 - 2/(period+1)`. */
  function EMA(xs: seq<real>, period: Period): (r: seq<Option<real>>)
    ensures |r| == |xs| && AllSome(r)
    ensures |xs| > 0 ==> r[0] == Some(xs[0])
    ensures forall t :: 1 <= t < |xs| ==>
      r[t].value == OnlineStep(r[t - 1].value, WeightTotal(SpanDecay(period), t), SpanDecay(period), xs[t])
  {
    EwmFollowsUpdate(xs, SpanDecay(period));
    Lift(EmaValues(xs, period))
  }

  /** Smoothed simple moving average: `ewm(alpha=1/period, min_periods=0)`,
      the online update with decay `1 - 1/period` from the first close. */
  function SSMA(xs: seq<real>, period: Period): (r: seq<Option<real>>)
    ensures |r| == |xs| && AllSome(r)
    ensures |xs| > 0 ==> r[0] == Some(xs[0])
    ensures forall t :: 1 <= t < |xs| ==>
      r[t].value == OnlineStep(r[t - 1].value, WeightTotal(AlphaDecay(period), t), AlphaDecay(period), xs[t])
  {
    EwmFirst(xs, AlphaDecay(period));
    EwmFollowsUpdate(xs, AlphaDecay(period));
    Lift(Ewm(xs, AlphaDecay(period)))
  }

  /** Smoothed moving average: `ewm(alpha=1/period)`, the same online update;
      a mean of non-negative prices is non-negative. */
  function SMMA(xs: seq<real>, period: Period): (r: seq<Option<real>>)
    ensures |r| == |xs| && AllSome(r)
    ensures |xs| > 0 ==> r[0] == Some(xs[0])
    ensures forall t :: 1 <= t < |xs| ==>
      r[t].value == OnlineStep(r[t - 1].value, WeightTotal(AlphaDecay(period), t), AlphaDecay(period), xs[t])
    ensures (forall i :: 0 <= i < |xs| ==> xs[i] >= 0.0) ==> forall t :: 0 <= t < |r| ==> r[t].value >= 0.0
  {
    var w := AlphaDecay(period);
    EwmFirst(xs, w);
    EwmFollowsUpdate(xs, w);
    EwmNonNegative(xs, w);
    Lift(Ewm(xs, w))
  }

  /** Double exponential moving average: `2*EMA - EMA(EMA)`. */
  function DEMA(xs: seq<real>, period: Period): (r: seq<Option<real>>)
    ensures |r| == |xs| && AllSome(r)
    ensures |xs| > 0 ==> r[0] == Some(xs[0])
  {
    var e := EmaValues(xs, period);
    var ee := EmaValues(e, period);
    Lift(seq(|xs|, t requires 0 <= t < |xs| => 2.0 * e[t] - ee[t]))
  }

  /** Triple exponential moving average: `3*EMA - 3*EMA(EMA) + EMA(EMA(EMA))`. */
  function TEMA(xs: seq<real>, period: Period): (r: seq<Option<real>>)
    ensures |r| == |xs| && AllSome(r)
    ensures |xs| > 0 ==> r[0] == Some(xs[0])
  {
    var e := EmaValues(xs, period);
    var ee := EmaValues(e, period);
    var eee := EmaValues(ee, period);
    Lift(seq(|xs|, t requires 0 <= t < |xs| => 3.0 * e[t] - 3.0 * ee[t] + eee[t]))
  }

  /** The triple EMA that TRIX differentiates. */
  function TripleEma(xs: seq<real>, period: Period): (m: seq<real>)
    ensures |m| == |xs|
  {
    EmaValues(EmaValues(EmaValues(xs, period), period), period)
  }

  /** TRIX: `100 * (m.diff() / m)` for the triple EMA `m`. */
  function TRIX(xs: seq<real>, period: Period): (r: seq<Option<real>>)
    ensures |r| == |xs|
    ensures forall t :: 0 <= t < |xs| ==> (r[t].Some? <==> t >= 1 && TripleEma(xs, period)[t] != 0.0)
    ensures forall t :: 1 <= t < |xs| && TripleEma(xs, period)[t] != 0.0 ==>
      ChangePercent(r[t].value, TripleEma(xs, period)[t - 1], TripleEma(xs, period)[t])
  {
    PercentChange(TripleEma(xs, period))
  }

  /** `100 * (m.diff() / m)`: the change from the previous position as a
      percentage of the current value; `m.diff()` is the momentum over one bar. */
  function PercentChange(m: seq<real>): (r: seq<Option<real>>)
    ensures |r| == |m|
    ensures forall t :: 0 <= t < |m| ==> (r[t].Some? <==> t >= 1 && m[t] != 0.0)
    ensures forall t :: 1 <= t < |m| && m[t] != 0.0 ==> ChangePercent(r[t].value, m[t - 1], m[t])
  {
    var d := MOM(m, 1);
    forall t | 1 <= t < |m| && m[t] != 0.0
      ensures ChangePercent(Scale(100.0, Divide(d, Lift(m)))[t].value, m[t - 1], m[t])
    {
      ScaledChangeAt(d, m, t);
    }
    Scale(100.0, Divide(d, Lift(m)))
  }

  /** Where the percent change is defined it is the step from the previous
      position as a percentage of the current value. */
  lemma PercentChangeAt(m: seq<real>, t: int)
    requires 1 <= t < |m| && m[t] != 0.0
    ensures PercentChange(m)[t].Some?
    ensures PercentChange(m)[t].value == 100.0 * ((m[t] - m[t - 1]) / m[t])
  {
    assert MOM(m, 1)[t].value == m[t] - m[t - 1];
  }

  /** Volume adjusted moving average.  `vol_ratio = volume*close / mean volume`
      over the window; the result is the rolling sum of `vol_ratio*close` over
      the rolling sum of `vol_ratio`. */
  function VAMA(close: seq<real>, volume: seq<real>, period: Period): (r: seq<Option<real>>)
    requires |volume| == |close|
    ensures |r| == |close|
    ensures forall t :: 0 <= t < |close| && r[t].Some? ==> t >= 2 * period - 2
  {
    var ratio := VolumeRatio(close, volume, period);
    var cumSum := Rolling(Times(ratio, Lift(close)), period, Sum);
    var cumDiv := Rolling(ratio, period, Sum);
    var r := Divide(cumSum, cumDiv);
    forall t | 0 <= t < |close| && r[t].Some?
      ensures t >= 2 * period - 2
    {
      assert Filled(ratio, period, t);
      assert Window(ratio, period, t)[0].Some?;
    }
    r
  }

  /** `vp / vol_sum`: volume times price over the rolling mean volume. */
  function VolumeRatio(close: seq<real>, volume: seq<real>, period: Period): (r: seq<Option<real>>)
    requires |volume| == |close|
    ensures |r| == |close|
    ensures forall t :: 0 <= t < |close| && r[t].Some? ==> t >= period - 1
  {
    var vp := Times(Lift(volume), Lift(close));
    var volMean := Rolling(Lift(volume), period, Mean);
    RollingOverClean(volume, period, Mean);
    Divide(vp, volMean)
  }

  // ------------------------------------------------ MACD and differences

  /** The three MACD series. */
  datatype Macd = Macd(line: seq<Option<real>>, signal: seq<Option<real>>, difference: seq<Option<real>>)

  /** MACD: the fast EMA minus the slow EMA, its EMA over `signal`, and the
      histogram (line minus signal). */
  function MACD(xs: seq<real>, fast: Period, slow: Period, signal: Period): (m: Macd)
    ensures |m.line| == |m.signal| == |m.difference| == |xs|
    ensures AllSome(m.line) && AllSome(m.signal) && AllSome(m.difference)
    ensures forall t :: 0 <= t < |xs| ==>
      m.line[t].value == EMA(xs, fast)[t].value - EMA(xs, slow)[t].value
    ensures forall t :: 0 <= t < |xs| ==>
      m.difference[t].value == m.line[t].value - m.signal[t].value
    ensures |xs| > 0 ==> m.line[0] == Some(0.0) && m.signal[0] == Some(0.0)
    ensures forall t :: 0 <= t < |xs| ==> m.signal[t] == EMA(Values(m.line), signal)[t]
  {
    var ef := EmaValues(xs, fast);
    var es := EmaValues(xs, slow);
    var line := seq(|xs|, t requires 0 <= t < |xs| => ef[t] - es[t]);
    var sig := EmaValues(line, signal);
    ValuesOfLift(line);
    Macd(Lift(line), Lift(sig), Minus(Lift(line), Lift(sig)))
  }

  /** `diff(period)` of a clean column.  The period is a signed offset, as
      pandas takes it: `diff(0)` is zero everywhere, and a negative period
      looks forward, leaving the last `-period` positions undefined. */
  function MOM(xs: seq<real>, period: int): (r: seq<Option<real>>)
    ensures |r| == |xs|
    ensures forall t :: 0 <= t < |xs| ==> (r[t].Some? <==> 0 <= t - period < |xs|)
    ensures forall t {:trigger r[t]} :: 0 <= t < |xs| && 0 <= t - period < |xs| ==> r[t].value == xs[t] - xs[t - period]
  {
    seq(|xs|, t requires 0 <= t < |xs| => if 0 <= t - period < |xs| then Some(xs[t] - xs[t - period]) else None)
  }

  /** `shift(period)` of a clean column, for a signed offset. */
  function Shift(xs: seq<real>, period: int): (r: seq<Option<real>>)
    ensures |r| == |xs|
    ensures forall t :: 0 <= t < |xs| ==> (r[t].Some? <==> 0 <= t - period < |xs|)
  {
    seq(|xs|, t requires 0 <= t < |xs| => if 0 <= t - period < |xs| then Some(xs[t - period]) else None)
  }

  /** Rate of change: `diff(period) / shift(period) * 100`, undefined where
      either side is, and where the earlier price is zero. */
  function ROC(xs: seq<real>, period: int): (r: seq<Option<real>>)
    ensures |r| == |xs|
    ensures forall t {:trigger r[t]} :: 0 <= t < |xs| ==> (r[t].Some? <==> 0 <= t - period < |xs| && xs[t - period] != 0.0)
  {
    Scale(100.0, Divide(MOM(xs, period), Shift(xs, period)))
  }

  // ------------------------------------------------------------------ RSI

  /** `up`: the positive part of each one-step change `close[k+1] - close[k]`. */
  function Gains(xs: seq<real>): (g: seq<real>)
    requires |xs| > 0
    ensures |g| == |xs| - 1
    ensures forall k :: 0 <= k < |g| ==> g[k] >= 0.0
  {
    seq(|xs| - 1, k requires 0 <= k < |xs| - 1 => if xs[k + 1] - xs[k] < 0.0 then 0.0 else xs[k + 1] - xs[k])
  }

  /** `down.abs()`: the size of each one-step fall, zero for a rise. */
  function Losses(xs: seq<real>): (l: seq<real>)
    requires |xs| > 0
    ensures |l| == |xs| - 1
    ensures forall k :: 0 <= k < |l| ==> l[k] >= 0.0
  {
    seq(|xs| - 1, k requires 0 <= k < |xs| - 1 => if xs[k + 1] - xs[k] > 0.0 then 0.0 else xs[k] - xs[k + 1])
  }

  /** Each step splits into its gain and its loss: the gain minus the loss is
      the step, and at most one of the two is non-zero. */
  lemma GainsLossesSplit(xs: seq<real>, k: int)
    requires |xs| > 0 && 0 <= k < |xs| - 1
    ensures Gains(xs)[k] - Losses(xs)[k] == xs[k + 1] - xs[k]
    ensures Gains(xs)[k] * Losses(xs)[k] == 0.0
  {
  }

  /** `100 - 100 / (1 + gain/loss)`: a zero loss with a positive gain gives an
      infinite RS and so 100; a zero loss with a zero gain gives NaN. */
  function RsiOf(gain: real, loss: real): (r: Option<real>)
    requires gain >= 0.0 && loss >= 0.0
    ensures r.Some? <==> gain + loss > 0.0
    ensures r.Some? ==> r.value == 100.0 * gain / (gain + loss)
    ensures r.Some? ==> 0.0 <= r.value <= 100.0
    ensures r.Some? && loss > 0.0 ==> r.value < 100.0
  {
    if loss == 0.0 then (if gain == 0.0 then None else Some(100.0))
    else
      var rs := gain / loss;
      assert 100.0 / (1.0 + rs) == 100.0 * loss / (gain + loss) by {
        assert (1.0 + rs) * loss == gain + loss;
      }
      Some(100.0 - 100.0 / (1.0 + rs))
  }

  /** Relative strength index.  `diff()` is NaN at position 0, so the Wilder
      means of gains and losses start at position 1 (pandas' `ewm` starts a
      series with leading NaN at its first observation). */
  function RSI(xs: seq<real>, period: Period): (r: seq<Option<real>>)
    ensures |r| == |xs|
    ensures |xs| > 0 ==> r[0] == None
    ensures |xs| > 0 ==> forall t :: 1 <= t < |xs| ==>
      r[t] == RsiOf(SMMA(Gains(xs), period)[t - 1].value, SMMA(Losses(xs), period)[t - 1].value)
  {
    if |xs| == 0 then []
    else
      var gain := Ewm(Gains(xs), AlphaDecay(period));
      var loss := Ewm(Losses(xs), AlphaDecay(period));
      forall k | 0 <= k < |xs| - 1 ensures gain[k] >= 0.0 && loss[k] >= 0.0 {
        EwmAtLeast(Gains(xs), AlphaDecay(period), 0.0, k);
        EwmAtLeast(Losses(xs), AlphaDecay(period), 0.0, k);
      }
      seq(|xs|, t requires 0 <= t < |xs| => if t == 0 then None else RsiOf(gain[t - 1], loss[t - 1]))
  }

  // ---------------------------------------------------------- true range

  function Abs(x: real): (r: real)
    ensures r >= 0.0 && (r == x || r == -x)
  {
    if x < 0.0 then -x else x
  }

  function Max3(a: real, b: real, c: real): (r: real)
    ensures r >= a && r >= b && r >= c
    ensures r == a || r == b || r == c
  {
    if a >= b && a >= c then a else if b >= c then b else c
  }

  /** True range.  The previous close is NaN at position 0 and `max(axis=1)`
      skips NaN, so the first value is `|high - low|`. */
  function TR(bars: Bars): (r: seq<Option<real>>)
    requires bars.Aligned()
    ensures |r| == |bars.close| && AllSome(r)
    ensures forall t :: 0 <= t < |r| ==> r[t].value >= bars.high[t] - bars.low[t] && r[t].value >= 0.0
    ensures |r| > 0 ==> r[0] == Some(Abs(bars.high[0] - bars.low[0]))
  {
    seq(|bars.close|, t requires 0 <= t < |bars.close| =>
      if t == 0 then Some(Abs(bars.high[0] - bars.low[0]))
      else Some(Max3(Abs(bars.high[t] - bars.low[t]),
                     Abs(bars.high[t] - bars.close[t - 1]),
                     Abs(bars.close[t - 1] - bars.low[t]))))
  }

  /** Average true range: the rolling mean of TR. */
  function ATR(bars: Bars, period: Period): (r: seq<Option<real>>)
    requires bars.Aligned()
    ensures |r| == |bars.close|
    ensures forall t :: 0 <= t < |r| ==> (r[t].Some? <==> t >= period - 1)
    ensures forall t :: period - 1 <= t < |r| ==>
      r[t].value == Sum(Values(Window(TR(bars), period, t))) / period as real
  {
    var tr := TR(bars);
    forall t | period - 1 <= t < |tr| ensures Filled(tr, period, t) {
      assert AllSome(Window(tr, period, t));
    }
    Rolling(tr, period, Mean)
  }

  // --------------------------------------------------------------- bands

  /** The three Bollinger bands. */
  datatype Bands = Bands(upper: seq<Option<real>>, middle: seq<Option<real>>, lower: seq<Option<real>>)

  /** Bands `k·dev` above and below `middle`. */
  function BandsAround(middle: seq<Option<real>>, dev: seq<Option<real>>, k: real): (b: Bands)
    requires |middle| == |dev|
    ensures |b.upper| == |b.lower| == |middle| && b.middle == middle
    ensures forall t :: 0 <= t < |middle| ==>
      (b.upper[t].Some? <==> middle[t].Some? && dev[t].Some?) && (b.lower[t].Some? <==> b.upper[t].Some?)
  {
    Bands(Plus(middle, Scale(k, dev)), middle, Minus(middle, Scale(k, dev)))
  }

  /** Where the middle and the deviation have a value, the bands `b` sit
      `k` deviations away from the middle on either side. */
  lemma BandsAroundAt(middle: seq<Option<real>>, dev: seq<Option<real>>, k: real, t: int, b: Bands)
    requires |middle| == |dev| && 0 <= t < |middle|
    requires middle[t].Some? && dev[t].Some?
    requires b == BandsAround(middle, dev, k)
    ensures b.upper[t].Some? && b.lower[t].Some?
    ensures b.upper[t].value - b.middle[t].value == k * dev[t].value
    ensures b.middle[t].value - b.lower[t].value == k * dev[t].value
  {
    BandAt(middle, dev, b.upper, b.lower, k, t, dev[t].value);
  }

  /** With `k` and the deviation non-negative, the bands enclose the middle. */
  lemma BandsAroundOrdered(middle: seq<Option<real>>, dev: seq<Option<real>>, k: real, t: int, b: Bands)
    requires |middle| == |dev| && 0 <= t < |middle|
    requires middle[t].Some? && dev[t].Some? && dev[t].value >= 0.0 && k >= 0.0
    requires b == BandsAround(middle, dev, k)
    ensures b.upper[t].Some? && b.lower[t].Some?
    ensures b.lower[t].value <= b.middle[t].value <= b.upper[t].value
  {
    BandsAroundAt(middle, dev, k, t, b);
    assert k * dev[t].value >= 0.0;
  }

  /** `rolling(window=period).std()`.  The square root is not modelled: `stdev`
      stands for the sample standard deviation of a window; pandas returns NaN
      for a one-point window (ddof=1). */
  function RollingStd(xs: seq<real>, period: Period, stdev: seq<real> -> real): (r: seq<Option<real>>)
    ensures |r| == |xs|
    ensures forall t :: 0 <= t < |xs| ==> (r[t].Some? <==> period >= 2 && t >= period - 1)
    ensures forall t :: 0 <= t < |xs| && r[t].Some? ==> r[t].value == stdev(Window(xs, period, t))
  {
    RollingOverClean(xs, period, stdev);
    if period == 1 then seq(|xs|, t => None) else Rolling(Lift(xs), period, stdev)
  }

  /** Bollinger bands: the middle band is the SMA of `close` unless a series
      `ma` is passed; the outer bands sit `std_multiplier` standard deviations
      of `column` above and below it (BbandsSymmetric). */
  function BBANDS(bars: Bars, column: seq<real>, period: Period, ma: Option<seq<Option<real>>>,
                  stdMultiplier: real, stdev: seq<real> -> real): (b: Bands)
    requires bars.Aligned() && |column| == |bars.close|
    requires ma.Some? ==> |ma.value| == |bars.close|
    ensures |b.upper| == |b.middle| == |b.lower| == |bars.close|
    ensures b.middle == (if ma.Some? then ma.value else SMA(bars.close, period))
    ensures forall t :: 0 <= t < |b.upper| ==>
      (b.upper[t].Some? <==> b.middle[t].Some? && period >= 2 && t >= period - 1) &&
      (b.lower[t].Some? <==> b.upper[t].Some?)
  {
    BandsAround(if ma.Some? then ma.value else SMA(bars.close, period), RollingStd(column, period, stdev),
                stdMultiplier)
  }

  /** Wherever the deviation window is full and the middle band is defined,
      all three bands are defined and the outer ones are symmetric about the
      middle, at a distance of `std_multiplier` times the window's standard
      deviation (the rolling deviation at `t`, `stdev` of the last `period`
      values). */
  lemma BbandsSymmetric(bars: Bars, column: seq<real>, period: Period, ma: Option<seq<Option<real>>>,
                        stdMultiplier: real, stdev: seq<real> -> real, b: Bands, t: int)
    requires bars.Aligned() && |column| == |bars.close|
    requires ma.Some? ==> |ma.value| == |bars.close|
    requires b == BBANDS(bars, column, period, ma, stdMultiplier, stdev)
    requires 2 <= period && period - 1 <= t < |bars.close| && (ma.Some? ==> ma.value[t].Some?)
    ensures b.upper[t].Some? && b.middle[t].Some? && b.lower[t].Some?
    ensures RollingStd(column, period, stdev)[t].Some?
    ensures RollingStd(column, period, stdev)[t].value == stdev(Window(column, period, t))
    ensures b.upper[t].value - b.middle[t].value == stdMultiplier * RollingStd(column, period, stdev)[t].value
    ensures b.middle[t].value - b.lower[t].value == stdMultiplier * RollingStd(column, period, stdev)[t].value
  {
    BandsAroundAt(b.middle, RollingStd(column, period, stdev), stdMultiplier, t, b);
  }

  /** With a non-negative multiplier and deviation the bands are ordered. */
  lemma BbandsOrdered(bars: Bars, column: seq<real>, period: Period, ma: Option<seq<Option<real>>>,
                      stdMultiplier: real, stdev: seq<real> -> real, b: Bands, t: int)
    requires bars.Aligned() && |column| == |bars.close|
    requires ma.Some? ==> |ma.value| == |bars.close|
    requires b == BBANDS(bars, column, period, ma, stdMultiplier, stdev)
    requires 2 <= period && period - 1 <= t < |bars.close| && (ma.Some? ==> ma.value[t].Some?)
    requires stdMultiplier >= 0.0 && stdev(Window(column, period, t)) >= 0.0
    ensures b.upper[t].Some? && b.middle[t].Some? && b.lower[t].Some?
    ensures b.lower[t].value <= b.middle[t].value <= b.upper[t].value
  {
    var dev := RollingStd(column, period, stdev);
    assert b.middle[t].Some? && dev[t].value == stdev(Window(column, period, t));
    BandsAroundOrdered(b.middle, dev, stdMultiplier, t, b);
  }

  /** The two Keltner channel lines. */
  datatype Channel = Channel(up: seq<Option<real>>, down: seq<Option<real>>)

  /** Keltner channels: `kc_mult` ATRs over `atr_period` above and below the
      EMA of `close` over `period`, or around `ma` when one is passed
      (KcAroundMiddle). */
  function KC(bars: Bars, period: Period, atrPeriod: Period, ma: Option<seq<Option<real>>>, kcMult: real): (c: Channel)
    requires bars.Aligned()
    requires ma.Some? ==> |ma.value| == |bars.close|
    ensures |c.up| == |c.down| == |bars.close|
    ensures forall t :: 0 <= t < |c.up| ==>
      (c.up[t].Some? <==> t >= atrPeriod - 1 && KcMiddle(bars, period, ma)[t].Some?) &&
      (c.down[t].Some? <==> c.up[t].Some?)
  {
    var middle := KcMiddle(bars, period, ma);
    var width := Scale(kcMult, ATR(bars, atrPeriod));
    Channel(Plus(middle, width), Minus(middle, width))
  }

  /** The Keltner middle line: `ma` when passed, else the EMA of `close`. */
  function KcMiddle(bars: Bars, period: Period, ma: Option<seq<Option<real>>>): (m: seq<Option<real>>)
    requires bars.Aligned()
    requires ma.Some? ==> |ma.value| == |bars.close|
    ensures |m| == |bars.close|
    ensures ma.None? ==> AllSome(m)
  {
    if ma.Some? then ma.value else EMA(bars.close, period)
  }

  /** Wherever the ATR window is full and the middle line is defined, the
      channel is defined, the middle line is its midpoint, and its width is
      twice `kc_mult` ATRs. */
  lemma KcAroundMiddle(bars: Bars, period: Period, atrPeriod: Period, ma: Option<seq<Option<real>>>,
                       kcMult: real, c: Channel, t: int)
    requires bars.Aligned()
    requires ma.Some? ==> |ma.value| == |bars.close|
    requires c == KC(bars, period, atrPeriod, ma, kcMult)
    requires atrPeriod - 1 <= t < |bars.close| && (ma.Some? ==> ma.value[t].Some?)
    ensures c.up[t].Some? && c.down[t].Some? && KcMiddle(bars, period, ma)[t].Some? && ATR(bars, atrPeriod)[t].Some?
    ensures (c.up[t].value + c.down[t].value) / 2.0 == KcMiddle(bars, period, ma)[t].value
    ensures c.up[t].value - c.down[t].value == 2.0 * (kcMult * ATR(bars, atrPeriod)[t].value)
  {
    BandAt(KcMiddle(bars, period, ma), ATR(bars, atrPeriod), c.up, c.down, kcMult, t,
           ATR(bars, atrPeriod)[t].value);
  }

  // ------------------------------------------------------------ oscillators

  /** `high.rolling(window=period).max()`; HighestHighAt gives its values. */
  function HighestHigh(bars: Bars, period: Period): (r: seq<Option<real>>)
    requires bars.Aligned()
    ensures |r| == |bars.close|
    ensures forall t :: 0 <= t < |r| ==> (r[t].Some? <==> t >= period - 1)
  {
    RollingOverClean(bars.high, period, Highest);
    Rolling(Lift(bars.high), period, Highest)
  }

  /** `low.rolling(window=period).min()`; LowestLowAt gives its values. */
  function LowestLow(bars: Bars, period: Period): (r: seq<Option<real>>)
    requires bars.Aligned()
    ensures |r| == |bars.close|
    ensures forall t :: 0 <= t < |r| ==> (r[t].Some? <==> t >= period - 1)
  {
    RollingOverClean(bars.low, period, Lowest);
    Rolling(Lift(bars.low), period, Lowest)
  }

  /** Once the window is full the rolling maximum is the window's highest high. */
  lemma HighestHighAt(bars: Bars, period: Period, t: int)
    requires bars.Aligned() && period - 1 <= t < |bars.close|
    ensures HighestHigh(bars, period)[t].Some?
    ensures HighestHigh(bars, period)[t].value == Highest(Window(bars.high, period, t))
  {
    RollingOverClean(bars.high, period, Highest);
  }

  /** Once the window is full the rolling minimum is the window's lowest low. */
  lemma LowestLowAt(bars: Bars, period: Period, t: int)
    requires bars.Aligned() && period - 1 <= t < |bars.close|
    ensures LowestLow(bars, period)[t].Some?
    ensures LowestLow(bars, period)[t].value == Lowest(Window(bars.low, period, t))
  {
    RollingOverClean(bars.low, period, Lowest);
  }

  /** Stochastic %K: `(close - lowest low) / (highest high - lowest low) * 100`.
      It has a value once the window is full and the range is not empty
      (pandas divides by zero otherwise). */
  function STOCH(bars: Bars, period: Period): (r: seq<Option<real>>)
    requires bars.Aligned()
    ensures |r| == |bars.close|
    ensures forall t :: 0 <= t < |r| ==>
      (r[t].Some? <==> t >= period - 1 && HighestHigh(bars, period)[t].value != LowestLow(bars, period)[t].value)
  {
    var hh := HighestHigh(bars, period);
    var ll := LowestLow(bars, period);
    Scale(100.0, Divide(Minus(Lift(bars.close), ll), Minus(hh, ll)))
  }

  /** Once the window is full and its range is not empty, %K is the close's
      distance above the lowest low as a percentage of the range up to the
      highest high (stated multiplied out). */
  lemma StochAt(bars: Bars, period: Period, t: int)
    requires bars.Aligned() && period - 1 <= t < |bars.close|
    requires HighestHigh(bars, period)[t].value != LowestLow(bars, period)[t].value
    ensures STOCH(bars, period)[t].Some?
    ensures PercentAbove(STOCH(bars, period)[t].value, bars.close[t],
                         HighestHigh(bars, period)[t].value, LowestLow(bars, period)[t].value)
  {
    PercentFromBottomAt(bars.close, HighestHigh(bars, period), LowestLow(bars, period), STOCH(bars, period), t);
  }

  /** Williams %R: `(highest high - close) / (highest high - lowest low) * -100`,
      defined where STOCH is. */
  function WILLIAMS(bars: Bars, period: Period): (r: seq<Option<real>>)
    requires bars.Aligned()
    ensures |r| == |bars.close|
    ensures forall t :: 0 <= t < |r| ==>
      (r[t].Some? <==> t >= period - 1 && HighestHigh(bars, period)[t].value != LowestLow(bars, period)[t].value)
  {
    var hh := HighestHigh(bars, period);
    var ll := LowestLow(bars, period);
    Scale(-100.0, Divide(Minus(hh, Lift(bars.close)), Minus(hh, ll)))
  }

  /** Once the window is full and its range is not empty, %R is the close's
      distance below the highest high as a negative percentage of the range
      (stated multiplied out). */
  lemma WilliamsAt(bars: Bars, period: Period, t: int)
    requires bars.Aligned() && period - 1 <= t < |bars.close|
    requires HighestHigh(bars, period)[t].value != LowestLow(bars, period)[t].value
    ensures WILLIAMS(bars, period)[t].Some?
    ensures PercentBelow(WILLIAMS(bars, period)[t].value, bars.close[t],
                         HighestHigh(bars, period)[t].value, LowestLow(bars, period)[t].value)
  {
    PercentFromTopAt(bars.close, HighestHigh(bars, period), LowestLow(bars, period), WILLIAMS(bars, period), t);
  }
}

=== FILE: legacy_indicators.dfy ===
/** The older revision of the indicator library, `indicators.py` at the root of
    the repository.  Its SMA … ATR are the same pandas expressions as in the
    current revision, so each is defined here as the current definition and
    its contract restates the facts that carry over; BBANDS, KC, STOCH and
    WILLIAMS only raise `NotImplementedError`, which is the `NotImplemented`
    failure here, whatever the input. */
module LegacyIndicators {
  import opened Base
  import opened Series
  import opened Smoothing
  import Indicators
  import IndicatorProperties

  /** The one error this revision raises. */
  datatype LegacyError = NotImplemented

  // ------------------------------------------------- trailing windows

  function SMA(xs: seq<real>, period: Period): (r: seq<Option<real>>)
    ensures |r| == |xs|
    ensures forall t :: 0 <= t < |xs| ==> (r[t].Some? <==> t >= period - 1)
    ensures forall t :: period - 1 <= t < |xs| ==> r[t].value == Sum(Window(xs, period, t)) / period as real
  {
    Indicators.SMA(xs, period)
  }

  function SMM(xs: seq<real>, period: Period): (r: seq<Option<real>>)
    ensures |r| == |xs|
    ensures forall t :: 0 <= t < |xs| ==> (r[t].Some? <==> t >= period - 1)
    ensures forall t :: period - 1 <= t < |xs| ==> r[t].value == Median(Window(xs, period, t))
    ensures forall t :: period - 1 <= t < |xs| ==>
      Lowest(Window(xs, period, t)) <= r[t].value <= Highest(Window(xs, period, t))
  {
    Indicators.SMM(xs, period)
  }

  function WMA(xs: seq<real>, period: Period): (r: seq<Option<real>>)
    ensures |r| == |xs|
    ensures forall t :: 0 <= t < |xs| ==> (r[t].Some? <==> t >= period - 1)
    ensures forall t :: period - 1 <= t < |xs| ==>
      r[t].value == Indicators.LinearWeighted(Window(xs, period, t)) / Indicators.WmaDenominator(period)
  {
    Indicators.WMA(xs, period)
  }

  function TRIMA(xs: seq<real>, period: Period): (r: seq<Option<real>>)
    ensures |r| == |xs|
    ensures forall t :: 0 <= t < |xs| ==> (r[t].Some? <==> t >= 2 * period - 2)
    ensures forall t :: 2 * period - 2 <= t < |xs| ==>
      r[t].value == Sum(Values(Window(SMA(xs, period), period, t))) / period as real
  {
    Indicators.TRIMA(xs, period)
  }

  function VAMA(close: seq<real>, volume: seq<real>, period: Period): (r: seq<Option<real>>)
    requires |volume| == |close|
    ensures |r| == |close|
    ensures forall t :: 0 <= t < |close| && r[t].Some? ==> t >= 2 * period - 2
  {
    Indicators.VAMA(close, volume, period)
  }

  // ------------------------------------------- exponentially weighted means

  function EMA(xs: seq<real>, period: Period): (r: seq<Option<real>>)
    ensures |r| == |xs| && AllSome(r)
    ensures |xs| > 0 ==> r[0] == Some(xs[0])
    ensures forall t :: 1 <= t < |xs| ==>
      r[t].value == OnlineStep(r[t - 1].value, WeightTotal(SpanDecay(period), t), SpanDecay(period), xs[t])
  {
    Indicators.EMA(xs, period)
  }

  /** Wilder smoothing, `alpha=1/period`: pandas' online update with decay
      `1 - 1/period` from the first close, and the same series as SMMA, the
      extra `ignore_na` and `min_periods` arguments change nothing on a full
      column. */
  function SSMA(xs: seq<real>, period: Period): (r: seq<Option<real>>)
    ensures |r| == |xs| && AllSome(r)
    ensures |xs| > 0 ==> r[0] == Some(xs[0])
    ensures forall t :: 1 <= t < |xs| ==>
      r[t].value == OnlineStep(r[t - 1].value, WeightTotal(AlphaDecay(period), t), AlphaDecay(period), xs[t])
    ensures r == SMMA(xs, period)
  {
    IndicatorProperties.SsmaIsSmma(xs, period);
    Indicators.SSMA(xs, period)
  }

  /** Wilder smoothing, `alpha=1/period`: the online update from the first
      close, and a mean of non-negative prices is non-negative. */
  function SMMA(xs: seq<real>, period: Period): (r: seq<Option<real>>)
    ensures |r| == |xs| && AllSome(r)
    ensures |xs| > 0 ==> r[0] == Some(xs[0])
    ensures forall t :: 1 <= t < |xs| ==>
      r[t].value == OnlineStep(r[t - 1].value, WeightTotal(AlphaDecay(period), t), AlphaDecay(period), xs[t])
    ensures (forall i :: 0 <= i < |xs| ==> xs[i] >= 0.0) ==> forall t :: 0 <= t < |r| ==> r[t].value >= 0.0
  {
    Indicators.SMMA(xs, period)
  }

  /** `2*EMA - EMA(EMA)`, position by position. */
  function DEMA(xs: seq<real>, period: Period): (r: seq<Option<real>>)
    ensures |r| == |xs| && AllSome(r)
    ensures forall t :: 0 <= t < |xs| ==>
      r[t].value == 2.0 * EMA(xs, period)[t].value - EMA(Values(EMA(xs, period)), period)[t].value
  {
    assert forall t :: 0 <= t < |xs| ==>
      Indicators.DEMA(xs, period)[t].value
        == 2.0 * EMA(xs, period)[t].value - EMA(Values(EMA(xs, period)), period)[t].value by {
      forall t | 0 <= t < |xs| {
        IndicatorProperties.DemaIdentity(xs, period, t);
      }
    }
    Indicators.DEMA(xs, period)
  }

  /** `3*EMA - 3*EMA(EMA) + EMA(EMA(EMA))`, position by position. */
  function TEMA(xs: seq<real>, period: Period): (r: seq<Option<real>>)
    ensures |r| == |xs| && AllSome(r)
    ensures forall t :: 0 <= t < |xs| ==>
      var e := EMA(xs, period);
      var ee := EMA(Values(e), period);
      r[t].value == 3.0 * e[t].value - 3.0 * ee[t].value + EMA(Values(ee), period)[t].value
  {
    assert forall t :: 0 <= t < |xs| ==>
      var e := EMA(xs, period);
      var ee := EMA(Values(e), period);
      Indicators.TEMA(xs, period)[t].value
        == 3.0 * e[t].value - 3.0 * ee[t].value + EMA(Values(ee), period)[t].value by {
      forall t | 0 <= t < |xs| {
        IndicatorProperties.TemaIdentity(xs, period, t);
      }
    }
    Indicators.TEMA(xs, period)
  }

  function TRIX(xs: seq<real>, period: Period): (r: seq<Option<real>>)
    ensures |r| == |xs|
    ensures forall t :: 0 <= t < |xs| ==> (r[t].Some? <==> t >= 1 && Indicators.TripleEma(xs, period)[t] != 0.0)
    ensures forall t :: 1 <= t < |xs| && Indicators.TripleEma(xs, period)[t] != 0.0 ==>
      ChangePercent(r[t].value, Indicators.TripleEma(xs, period)[t - 1], Indicators.TripleEma(xs, period)[t])
  {
    Indicators.TRIX(xs, period)
  }

  /** MACD line, signal and histogram; the histogram is exactly line minus
      signal. */
  function MACD(xs: seq<real>, fast: Period, slow: Period, signal: Period): (m: Indicators.Macd)
    ensures |m.line| == |m.signal| == |m.difference| == |xs|
    ensures AllSome(m.line) && AllSome(m.signal) && AllSome(m.difference)
    ensures forall t :: 0 <= t < |xs| ==> m.line[t].value == EMA(xs, fast)[t].value - EMA(xs, slow)[t].value
    ensures forall t :: 0 <= t < |xs| ==> m.difference[t].value == m.line[t].value - m.signal[t].value
    ensures forall t :: 0 <= t < |xs| ==> m.signal[t] == EMA(Values(m.line), signal)[t]
    ensures |xs| > 0 ==> m.line[0] == Some(0.0) && m.signal[0] == Some(0.0)
  {
    Indicators.MACD(xs, fast, slow, signal)
  }

  // ------------------------------------------------------- differences

  /** `diff(period)` over a signed offset: defined where `t - period` is a
      position, and there the change from that position. */
  function MOM(xs: seq<real>, period: int): (r: seq<Option<real>>)
    ensures |r| == |xs|
    ensures forall t :: 0 <= t < |xs| ==> (r[t].Some? <==> 0 <= t - period < |xs|)
    ensures forall t {:trigger r[t]} :: 0 <= t < |xs| && 0 <= t - period < |xs| ==> r[t].value == xs[t] - xs[t - period]
  {
    Indicators.MOM(xs, period)
  }

  /** `diff(period) / shift(period) * 100` over a signed offset: defined
      where MOM is and the earlier price is non-zero, and there the change in
      percent of the earlier price. */
  function ROC(xs: seq<real>, period: int): (r: seq<Option<real>>)
    ensures |r| == |xs|
    ensures forall t {:trigger r[t]} :: 0 <= t < |xs| ==> (r[t].Some? <==> 0 <= t - period < |xs| && xs[t - period] != 0.0)
    ensures forall t {:trigger r[t]} :: 0 <= t < |xs| && 0 <= t - period < |xs| && xs[t - period] != 0.0 ==>
      r[t].value == 100.0 * ((xs[t] - xs[t - period]) / xs[t - period])
  {
    forall t | 0 <= t < |xs| && 0 <= t - period < |xs| && xs[t - period] != 0.0
      ensures Indicators.ROC(xs, period)[t].value == 100.0 * ((xs[t] - xs[t - period]) / xs[t - period])
    {
      IndicatorProperties.RocIsRelativeMomentum(xs, period, t);
    }
    Indicators.ROC(xs, period)
  }

  /** RSI: undefined at position 0, then `100 - 100/(1 + RS)` of the Wilder
      means of the gains and losses; a percentage wherever it is defined, and
      below 100 wherever the smoothed loss is positive. */
  function RSI(xs: seq<real>, period: Period): (r: seq<Option<real>>)
    ensures |r| == |xs|
    ensures |xs| > 0 ==> r[0].None?
    ensures |xs| > 0 ==> forall t :: 1 <= t < |xs| ==>
      r[t] == Indicators.RsiOf(SMMA(Indicators.Gains(xs), period)[t - 1].value,
                               SMMA(Indicators.Losses(xs), period)[t - 1].value)
    ensures forall t :: 0 <= t < |xs| && r[t].Some? ==> 0.0 <= r[t].value <= 100.0
    ensures forall t :: 1 <= t < |xs| && SMMA(Indicators.Losses(xs), period)[t - 1].value > 0.0 ==>
      r[t].Some? && r[t].value < 100.0
  {
    assert forall t :: 1 <= t < |xs| ==>
      (Indicators.RSI(xs, period)[t].Some? ==> 0.0 <= Indicators.RSI(xs, period)[t].value <= 100.0) &&
      (Indicators.SMMA(Indicators.Losses(xs), period)[t - 1].value > 0.0 ==>
         Indicators.RSI(xs, period)[t].Some? && Indicators.RSI(xs, period)[t].value < 100.0) by {
      forall t | 1 <= t < |xs| {
        IndicatorProperties.RsiBounded(xs, period, t);
      }
    }
    Indicators.RSI(xs, period)
  }

  // ---------------------------------------------------------- true range

  /** The largest of the three ranges; at position 0, where there is no
      previous close, the high-low range. */
  function TR(bars: Bars): (r: seq<Option<real>>)
    requires bars.Aligned()
    ensures |r| == |bars.close| && AllSome(r)
    ensures forall t :: 0 <= t < |r| ==> r[t].value >= bars.high[t] - bars.low[t] && r[t].value >= 0.0
    ensures |r| > 0 ==> r[0].value == Indicators.Abs(bars.high[0] - bars.low[0])
    ensures forall t :: 1 <= t < |r| ==>
      r[t].value >= Indicators.Abs(bars.high[t] - bars.close[t - 1]) &&
      r[t].value >= Indicators.Abs(bars.close[t - 1] - bars.low[t])
    ensures forall t :: 1 <= t < |r| ==>
      r[t].value == Indicators.Abs(bars.high[t] - bars.low[t]) ||
      r[t].value == Indicators.Abs(bars.high[t] - bars.close[t - 1]) ||
      r[t].value == Indicators.Abs(bars.close[t - 1] - bars.low[t])
  {
    assert forall t :: 1 <= t < |bars.close| ==>
      Indicators.TR(bars)[t].value >= Indicators.Abs(bars.high[t] - bars.close[t - 1]) &&
      Indicators.TR(bars)[t].value >= Indicators.Abs(bars.close[t - 1] - bars.low[t]) &&
      (Indicators.TR(bars)[t].value == Indicators.Abs(bars.high[t] - bars.low[t]) ||
       Indicators.TR(bars)[t].value == Indicators.Abs(bars.high[t] - bars.close[t - 1]) ||
       Indicators.TR(bars)[t].value == Indicators.Abs(bars.close[t - 1] - bars.low[t])) by {
      forall t | 1 <= t < |bars.close| {
        IndicatorProperties.TrIsLargestRange(bars, t);
      }
    }
    Indicators.TR(bars)
  }

  /** The trailing mean of TR over `period` bars. */
  function ATR(bars: Bars, period: Period): (r: seq<Option<real>>)
    requires bars.Aligned()
    ensures |r| == |bars.close|
    ensures forall t :: 0 <= t < |r| ==> (r[t].Some? <==> t >= period - 1)
    ensures forall t :: period - 1 <= t < |r| ==> r[t].value == Sum(Values(Window(TR(bars), period, t))) / period as real
  {
    Indicators.ATR(bars, period)
  }

  // --------------------------------------------------------------- stubs

  /** `BBANDS(ohlc)` raises whatever the bars. */
  function BBANDS(bars: Bars): (r: Result<Indicators.Bands, LegacyError>)
    ensures r.Failure? && r.error == NotImplemented
  {
    Failure(NotImplemented)
  }

  /** `KC(ohlc)` raises whatever the bars. */
  function KC(bars: Bars): (r: Result<Indicators.Channel, LegacyError>)
    ensures r.Failure? && r.error == NotImplemented
  {
    Failure(NotImplemented)
  }

  /** `STOCH(ohlc, period=14)` raises whatever the bars and period. */
  function STOCH(bars: Bars, period: int): (r: Result<seq<Option<real>>, LegacyError>)
    ensures r.Failure? && r.error == NotImplemented
  {
    Failure(NotImplemented)
  }

  /** `WILLIAMS(ohlc, period=10)` raises whatever the bars and period. */
  function WILLIAMS(bars: Bars, period: int): (r: Result<seq<Option<real>>, LegacyError>)
    ensures r.Failure? && r.error == NotImplemented
  {
    Failure(NotImplemented)
  }
}

=== FILE: selection.dfy ===
/** The indicator dialogue of `src/main.py`: up to five indicators are asked
    for, each as a name and as many periods as `ind_periods` gives the name,
    and handed to the chart as entries.  The user's answers are two scripts:
    the lines typed at the name prompt and the numbers typed at the period
    prompts, each in the order they are asked for.  A script that runs out
    is the `EndOfInput` failure (Python's `EOFError`). */
module Selection {
  import opened Base
  import opened Text
  import Indicators
  import Chart
  import Series

  /** The dialogue stops asking once this many indicators are accepted. */
  const MaxIndicators := 5

  datatype SelectionError = EndOfInput

  /** How many periods are asked for a name with `ind_periods` value
      `arity`: none, one, or a fast and a slow one. */
  function Asked(arity: nat): (n: nat)
    ensures n <= 2 && (n == 0 <==> arity == 0)
  {
    if arity == 0 then 0 else if arity == 1 then 1 else 2
  }

  predicate Known(name: string) {
    name in Indicators.IndPeriods
  }

  /** An entry as the dialogue builds it: a known, lower-case name and one
      number per period asked for it. */
  predicate WellFormed(e: Chart.Entry) {
    Known(e.name) && Lower(e.name) == e.name && |e.args| == Asked(Indicators.IndPeriods[e.name])
  }

  /** The `while i < 5` loop, with the entries accepted so far in `acc`
      (`i` is always `|acc|`): an empty name ends the dialogue, an unknown
      name is asked again without counting, and a known one takes its
      periods from the number script. */
  function Collect(names: seq<string>, numbers: seq<int>, acc: seq<Chart.Entry>): (r: Result<seq<Chart.Entry>, SelectionError>)
    requires |acc| <= MaxIndicators
    ensures r.Success? ==> |acc| <= |r.value| <= MaxIndicators && r.value[..|acc|] == acc
    ensures r.Success? && (forall k :: 0 <= k < |acc| ==> WellFormed(acc[k])) ==>
      forall k :: 0 <= k < |r.value| ==> WellFormed(r.value[k])
    decreases |names|
  {
    if |acc| == MaxIndicators then Success(acc)
    else if |names| == 0 then Failure(EndOfInput)
    else
      var name := Lower(names[0]);
      if name == "" then Success(acc)
      else if !Known(name) then Collect(names[1..], numbers, acc)
      else
        var n := Asked(Indicators.IndPeriods[name]);
        if |numbers| < n then Failure(EndOfInput)
        else
          LowerIdempotent(names[0]);
          Collect(names[1..], numbers[n..], acc + [Chart.Entry(name, numbers[..n])])
  }

  /** The whole dialogue: at most five entries, each well formed, whose
      periods read in order are the first numbers typed. */
  function Select(names: seq<string>, numbers: seq<int>): (r: Result<seq<Chart.Entry>, SelectionError>)
    ensures r.Success? ==> |r.value| <= MaxIndicators
    ensures r.Success? ==> forall k :: 0 <= k < |r.value| ==> WellFormed(r.value[k])
    ensures r.Success? ==> var ps := Periods(r.value); |ps| <= |numbers| && ps == numbers[..|ps|]
  {
    var r := Collect(names, numbers, []);
    if r.Failure? then r
    else
      PeriodsAreTyped(names, numbers, []);
      assert r.value[0..] == r.value;
      r
  }

  // ------------------------------------------------ reference definitions

  /** The names the user asks for, lower-cased, in order: the known names
      typed before the first empty line. */
  function Wanted(names: seq<string>): (w: seq<string>)
    ensures |w| <= |names|
  {
    if |names| == 0 || Lower(names[0]) == "" then []
    else if Known(Lower(names[0])) then [Lower(names[0])] + Wanted(names[1..])
    else Wanted(names[1..])
  }

  /** The name lines the dialogue acts on: empty and known names. */
  function Relevant(names: seq<string>): (kept: seq<string>)
    ensures |kept| <= |names|
    ensures forall k :: 0 <= k < |kept| ==> kept[k] == "" || Known(Lower(kept[k]))
  {
    if |names| == 0 then []
    else if names[0] == "" || Known(Lower(names[0])) then [names[0]] + Relevant(names[1..])
    else Relevant(names[1..])
  }

  /** The periods of `es`, entry after entry. */
  function Periods(es: seq<Chart.Entry>): seq<int>
  {
    if |es| == 0 then [] else es[0].args + Periods(es[1..])
  }

  // ------------------------------------------------------- properties

  /** The entries added to `acc` take their periods from the number script
      in order: read one after the other, they are its first numbers. */
  lemma {:induction false} PeriodsAreTyped(names: seq<string>, numbers: seq<int>, acc: seq<Chart.Entry>)
    requires |acc| <= MaxIndicators
    requires Collect(names, numbers, acc).Success?
    ensures var ps := Periods(Collect(names, numbers, acc).value[|acc|..]);
      |ps| <= |numbers| && ps == numbers[..|ps|]
    decreases |names|
  {
    var r := Collect(names, numbers, acc).value;
    if |acc| == MaxIndicators || Lower(names[0]) == "" {
      assert r[|acc|..] == [];
    } else if !Known(Lower(names[0])) {
      PeriodsAreTyped(names[1..], numbers, acc);
      assert r == Collect(names[1..], numbers, acc).value;
    } else {
      var name := Lower(names[0]);
      var n := Asked(Indicators.IndPeriods[name]);
      CollectKnownStep(names, numbers, acc);
      var e := Chart.Entry(name, numbers[..n]);
      PeriodsAreTyped(names[1..], numbers[n..], acc + [e]);
      EntryAfterPrefix(r, acc, e);
      var rest := Periods(r[|acc| + 1..]);
      assert rest == numbers[n..][..|rest|] by {
        assert |acc + [e]| == |acc| + 1;
      }
      PeriodsStep(r, |acc|);
      PrefixThenPrefix(numbers, n, rest);
    }
  }

  /** One accepted name: its periods are read and the loop goes on. */
  lemma CollectKnownStep(names: seq<string>, numbers: seq<int>, acc: seq<Chart.Entry>)
    requires |acc| < MaxIndicators && |names| > 0
    requires Lower(names[0]) != "" && Known(Lower(names[0]))
    requires Collect(names, numbers, acc).Success?
    ensures var n := Asked(Indicators.IndPeriods[Lower(names[0])]);
      n <= |numbers| &&
      Collect(names, numbers, acc) == Collect(names[1..], numbers[n..], acc + [Chart.Entry(Lower(names[0]), numbers[..n])])
  {
  }

  lemma EntryAfterPrefix(r: seq<Chart.Entry>, acc: seq<Chart.Entry>, e: Chart.Entry)
    requires |acc| < |r| && r[..|acc| + 1] == acc + [e]
    ensures r[|acc|] == e
  {
    assert r[|acc|] == r[..|acc| + 1][|acc|];
  }

  lemma PeriodsStep(es: seq<Chart.Entry>, i: int)
    requires 0 <= i < |es|
    ensures Periods(es[i..]) == es[i].args + Periods(es[i + 1..])
  {
    assert es[i..][1..] == es[i + 1..];
  }

  lemma PrefixThenPrefix(xs: seq<int>, n: nat, rest: seq<int>)
    requires n <= |xs| && |rest| <= |xs| - n && rest == xs[n..][..|rest|]
    ensures xs[..n] + rest == xs[..n + |rest|]
  {
  }

  /** The entries are the first wanted names, as many as fit under the cap. */
  lemma {:induction false} EntriesAreWanted(names: seq<string>, numbers: seq<int>, acc: seq<Chart.Entry>)
    requires |acc| <= MaxIndicators
    requires Collect(names, numbers, acc).Success?
    ensures var r := Collect(names, numbers, acc).value;
      var w := Wanted(names);
      |r| - |acc| == (if |w| < MaxIndicators - |acc| then |w| else MaxIndicators - |acc|) &&
      forall k :: |acc| <= k < |r| ==> r[k].name == w[k - |acc|]
    decreases |names|
  {
    if |acc| < MaxIndicators && |names| > 0 {
      var name := Lower(names[0]);
      if name != "" {
        if !Known(name) {
          EntriesAreWanted(names[1..], numbers, acc);
        } else {
          var n := Asked(Indicators.IndPeriods[name]);
          var e := Chart.Entry(name, numbers[..n]);
          EntriesAreWanted(names[1..], numbers[n..], acc + [e]);
          var r := Collect(names, numbers, acc).value;
          assert r == Collect(names[1..], numbers[n..], acc + [e]).value;
          var w, w1 := Wanted(names), Wanted(names[1..]);
          assert w == [name] + w1;
          forall k | |acc| <= k < |r| ensures r[k].name == w[k - |acc|] {
            if k == |acc| {
              assert r[..|acc| + 1] == acc + [e];
              assert r[k] == (acc + [e])[k];
            } else {
              assert w[k - |acc|] == w1[k - (|acc| + 1)];
            }
          }
        }
      }
    }
  }

  /** Fewer than five entries only when the user pressed Enter on an empty
      name. */
  lemma {:induction false} ShortSelectionMeansStop(names: seq<string>, numbers: seq<int>, acc: seq<Chart.Entry>)
    requires |acc| <= MaxIndicators
    requires Collect(names, numbers, acc).Success?
    requires |Collect(names, numbers, acc).value| < MaxIndicators
    ensures exists k :: 0 <= k < |names| && names[k] == ""
    decreases |names|
  {
    var name := Lower(names[0]);
    if name == "" {
      assert names[0] == "";
    } else if !Known(name) {
      ShortSelectionMeansStop(names[1..], numbers, acc);
      var k :| 0 <= k < |names[1..]| && names[1..][k] == "";
      assert names[k + 1] == "";
    } else {
      var n := Asked(Indicators.IndPeriods[name]);
      ShortSelectionMeansStop(names[1..], numbers[n..], acc + [Chart.Entry(name, numbers[..n])]);
      var k :| 0 <= k < |names[1..]| && names[1..][k] == "";
      assert names[k + 1] == "";
    }
  }

  /** Unknown names change nothing: the dialogue gives the same answer when
      they are struck from the script. */
  lemma {:induction false} UnknownNamesIgnored(names: seq<string>, numbers: seq<int>, acc: seq<Chart.Entry>)
    requires |acc| <= MaxIndicators
    ensures Collect(names, numbers, acc) == Collect(Relevant(names), numbers, acc)
    decreases |names|
  {
    if |acc| < MaxIndicators && |names| > 0 {
      var name := Lower(names[0]);
      var rest := Relevant(names[1..]);
      if names[0] == "" {
        assert Relevant(names) == [names[0]] + rest;
      } else if !Known(name) {
        UnknownNamesIgnored(names[1..], numbers, acc);
      } else {
        assert Relevant(names) == [names[0]] + rest;
        assert Relevant(names)[1..] == rest;
        var n := Asked(Indicators.IndPeriods[name]);
        if |numbers| >= n {
          UnknownNamesIgnored(names[1..], numbers[n..], acc + [Chart.Entry(name, numbers[..n])]);
        }
      }
    }
  }

  // ----------------------------------------------- what the chart makes of it

  lemma {:induction false} NameCountPositive(inds: seq<Chart.Entry>, name: string, k: int)
    requires 0 <= k < |inds| && inds[k].name == name
    ensures Chart.NameCount(inds, name) > 0
    decreases |inds|
  {
    if k < |inds| - 1 {
      NameCountPositive(inds[..|inds| - 1], name, k);
    }
  }

  /** `add_indicator` has no branch for the lower-case `kc`. */
  lemma LowerKcUnhandled()
    ensures "kc" !in Chart.Handled
  {
  }

  /** A selected entry is never the chart's upper-case `KC`: the dialogue
      lower-cases every name, so a selected `kc` falls through every branch
      of `add_indicator` and leaves the chart as it was. */
  lemma KeltnerNeverDrawn(c: Chart.Chart, bars: Series.Bars, stdev: seq<real> -> real, e: Chart.Entry)
    requires bars.Aligned() && WellFormed(e)
    ensures e.name != "KC"
    ensures e.name == "kc" ==> Chart.AddIndicator(c, bars, stdev, e) == Success(c)
  {
    if e.name == "KC" {
      assert false;
    }
    if e.name == "kc" {
      LowerKcUnhandled();
    }
  }

  /** Choosing `tr` in the dialogue makes the chart fail: the entry carries
      no period, and the `tr` branch reads one. */
  lemma ChoosingTrFails(names: seq<string>, numbers: seq<int>, bars: Series.Bars, stdev: seq<real> -> real, k: int)
    requires bars.Aligned()
    requires Select(names, numbers).Success?
    requires 0 <= k < |Select(names, numbers).value| && Select(names, numbers).value[k].name == "tr"
    ensures Chart.Build(bars, stdev, Select(names, numbers).value).Failure?
  {
    NameCountPositive(Select(names, numbers).value, "tr", k);
    Chart.AddAllFailsOnTr(Chart.Initial, bars, stdev, Select(names, numbers).value);
  }
}

=== FILE: series.dfy ===
/** The series store: aligned OHLCV columns, derived columns with an explicit
    "no value" marker, and the pandas building blocks the indicators are made
    of (`rolling(window=p)` with its default `min_periods=p`, element-wise
    arithmetic with NaN propagation, window sums, extrema and the median). */
module Series {
  import opened Base

  /** A window or smoothing period, which these indicators need positive.
      Zero and negative typed periods are dealt with per name by `Chart`;
      MOM and ROC take a signed offset instead. */
  type Period = p: int | p >= 1 witness 1

  /** The numeric columns of the price table; `time` only fixes the row count. */
  datatype Bars = Bars(open: seq<real>, high: seq<real>, low: seq<real>, close: seq<real>, volume: seq<real>)
  {
    /** Every column has the table's row count. */
    predicate Aligned() {
      |open| == |high| == |low| == |close| == |volume|
    }

    /** Each bar's close lies inside its own low..high range. */
    predicate WellFormed()
      requires Aligned()
    {
      forall i {:trigger CloseInRange(i)} :: 0 <= i < |close| ==> CloseInRange(i)
    }

    /** Bar `i` exists and its close lies inside its low..high range. */
    predicate CloseInRange(i: int) {
      0 <= i < |close| && i < |low| && i < |high| && low[i] <= close[i] <= high[i]
    }
  }

  /** A clean price column seen as a derived series with every value present. */
  function Lift(xs: seq<real>): (r: seq<Option<real>>)
    ensures |r| == |xs|
    ensures forall i :: 0 <= i < |xs| ==> r[i] == Some(xs[i])
  {
    seq(|xs|, i requires 0 <= i < |xs| => Some(xs[i]))
  }

  predicate AllSome(w: seq<Option<real>>) {
    forall i :: 0 <= i < |w| ==> w[i].Some?
  }

  function Values(w: seq<Option<real>>): (r: seq<real>)
    requires AllSome(w)
    ensures |r| == |w|
    ensures forall i :: 0 <= i < |w| ==> Some(r[i]) == w[i]
  {
    seq(|w|, i requires 0 <= i < |w| => w[i].value)
  }

  /** Lifting a clean column and reading it back is the identity. */
  lemma ValuesOfLift(xs: seq<real>)
    ensures AllSome(Lift(xs))
    ensures Values(Lift(xs)) == xs
  {
  }

  // ---------------------------------------------------------------- windows

  function Sum(xs: seq<real>): real
  {
    if |xs| == 0 then 0.0 else Sum(xs[..|xs| - 1]) + xs[|xs| - 1]
  }

  /** A window of equal values sums to that value times its length. */
  lemma {:induction false} SumOfConstant(xs: seq<real>, c: real)
    requires forall i :: 0 <= i < |xs| ==> xs[i] == c
    ensures Sum(xs) == c * |xs| as real
  {
    if |xs| > 0 {
      SumOfConstant(xs[..|xs| - 1], c);
    }
  }

  /** A window of non-negative values has a non-negative sum. */
  lemma {:induction false} SumNonNegative(xs: seq<real>)
    requires forall i :: 0 <= i < |xs| ==> xs[i] >= 0.0
    ensures Sum(xs) >= 0.0
  {
    if |xs| > 0 {
      SumNonNegative(xs[..|xs| - 1]);
    }
  }

  /** Scaling every element scales the sum. */
  lemma {:induction false} SumScaled(xs: seq<real>, ys: seq<real>, k: real)
    requires |ys| == |xs|
    requires forall i :: 0 <= i < |xs| ==> ys[i] == xs[i] * k
    ensures Sum(ys) == Sum(xs) * k
  {
    if |xs| > 0 {
      SumScaled(xs[..|xs| - 1], ys[..|ys| - 1], k);
    }
  }

  /** The element-wise products `w[i]·x[i]`; their sum is the numerator of
      the average of `x` weighted by `w`. */
  function Products(w: seq<real>, x: seq<real>): (r: seq<real>)
    requires |w| == |x|
    ensures |r| == |w|
    ensures forall i :: 0 <= i < |w| ==> r[i] == w[i] * x[i]
  {
    seq(|w|, i requires 0 <= i < |w| => w[i] * x[i])
  }

  /** Every element multiplied by `k`. */
  function Scaled(w: seq<real>, k: real): (r: seq<real>)
    ensures |r| == |w|
    ensures forall i :: 0 <= i < |w| ==> r[i] == w[i] * k
  {
    seq(|w|, i requires 0 <= i < |w| => w[i] * k)
  }

  /** Term-wise smaller values have a smaller sum. */
  lemma {:induction false} SumMonotone(xs: seq<real>, ys: seq<real>)
    requires |xs| == |ys|
    requires forall i :: 0 <= i < |xs| ==> xs[i] <= ys[i]
    ensures Sum(xs) <= Sum(ys)
  {
    if |xs| > 0 {
      SumMonotone(xs[..|xs| - 1], ys[..|ys| - 1]);
    }
  }

  /** With non-negative weights, values of at least `lo` give a weighted sum
      of at least `lo` times the total weight. */
  lemma WeightedSumAbove(w: seq<real>, x: seq<real>, lo: real)
    requires |w| == |x|
    requires forall i :: 0 <= i < |w| ==> w[i] >= 0.0 && lo <= x[i]
    ensures Sum(w) * lo <= Sum(Products(w, x))
  {
    ScaledBelowProducts(w, x, lo);
    SumScaled(w, Scaled(w, lo), lo);
  }

  /** With non-negative weights, values of at most `hi` give a weighted sum
      of at most `hi` times the total weight. */
  lemma WeightedSumBelow(w: seq<real>, x: seq<real>, hi: real)
    requires |w| == |x|
    requires forall i :: 0 <= i < |w| ==> w[i] >= 0.0 && x[i] <= hi
    ensures Sum(Products(w, x)) <= Sum(w) * hi
  {
    ProductsBelowScaled(w, x, hi);
    SumScaled(w, Scaled(w, hi), hi);
  }

  /** An average with positive weights lies between the smallest and the
      largest of the values averaged. */
  lemma WeightedAverageBetween(w: seq<real>, x: seq<real>)
    requires |w| == |x| > 0
    requires forall i :: 0 <= i < |w| ==> w[i] > 0.0
    requires Sum(w) > 0.0
    ensures Lowest(x) <= Sum(Products(w, x)) / Sum(w) <= Highest(x)
  {
    var s, a, lo, hi := Sum(w), Sum(Products(w, x)), Lowest(x), Highest(x);
    WeightedSumBetween(w, x, lo, hi, s, a);
    QuotientBetween(a, s, lo, hi);
  }

  /** Both bounds on the weighted sum at once, stated over names `s` and `a`
      for the total weight and the weighted sum so that the products stay
      out of the caller's reasoning. */
  lemma WeightedSumBetween(w: seq<real>, x: seq<real>, lo: real, hi: real, s: real, a: real)
    requires |w| == |x|
    requires forall i :: 0 <= i < |w| ==> w[i] >= 0.0 && lo <= x[i] <= hi
    requires s == Sum(w) && a == Sum(Products(w, x))
    ensures s * lo <= a <= s * hi
  {
    WeightedSumAbove(w, x, lo);
    WeightedSumBelow(w, x, hi);
  }

  /** A quotient by a positive total whose numerator lies within `lo` and `hi`
      times that total lies within `lo` and `hi`. */
  lemma QuotientBetween(a: real, s: real, lo: real, hi: real)
    requires s > 0.0 && s * lo <= a <= s * hi
    ensures lo <= a / s <= hi
  {
    assert (a / s) * s == a;
    CancelPositive(lo, a / s, s);
    CancelPositive(a / s, hi, s);
  }

  lemma ScaledBelowProducts(w: seq<real>, x: seq<real>, lo: real)
    requires |w| == |x|
    requires forall i :: 0 <= i < |w| ==> w[i] >= 0.0 && lo <= x[i]
    ensures Sum(Scaled(w, lo)) <= Sum(Products(w, x))
  {
    forall i | 0 <= i < |w|
      ensures Scaled(w, lo)[i] <= Products(w, x)[i]
    {
      TermAbove(w[i], x[i], lo);
    }
    SumMonotone(Scaled(w, lo), Products(w, x));
  }

  lemma ProductsBelowScaled(w: seq<real>, x: seq<real>, hi: real)
    requires |w| == |x|
    requires forall i :: 0 <= i < |w| ==> w[i] >= 0.0 && x[i] <= hi
    ensures Sum(Products(w, x)) <= Sum(Scaled(w, hi))
  {
    forall i | 0 <= i < |w|
      ensures Products(w, x)[i] <= Scaled(w, hi)[i]
    {
      TermBelow(w[i], x[i], hi);
    }
    SumMonotone(Products(w, x), Scaled(w, hi));
  }

  /** A non-negative weight keeps a lower bound. */
  lemma TermAbove(v: real, x: real, lo: real)
    requires v >= 0.0 && lo <= x
    ensures v * lo <= v * x
  {
    assert v * (x - lo) >= 0.0;
  }

  /** A non-negative weight keeps an upper bound. */
  lemma TermBelow(v: real, x: real, hi: real)
    requires v >= 0.0 && x <= hi
    ensures v * x <= v * hi
  {
    assert v * (hi - x) >= 0.0;
  }

  /** pandas `mean()` of a window: its sum over its count. */
  function Mean(xs: seq<real>): real
  {
    if |xs| == 0 then 0.0 else Sum(xs) / |xs| as real
  }

  /** pandas `max()` of a window. */
  function Highest(xs: seq<real>): (r: real)
    ensures |xs| > 0 ==> exists i :: 0 <= i < |xs| && r == xs[i]
    ensures forall i :: 0 <= i < |xs| ==> xs[i] <= r
  {
    if |xs| == 0 then 0.0
    else if |xs| == 1 then xs[0]
    else
      var m := Highest(xs[..|xs| - 1]);
      assert forall i :: 0 <= i < |xs| - 1 ==> xs[..|xs| - 1][i] == xs[i];
      if xs[|xs| - 1] > m then xs[|xs| - 1] else m
  }

  /** pandas `min()` of a window. */
  function Lowest(xs: seq<real>): (r: real)
    ensures |xs| > 0 ==> exists i :: 0 <= i < |xs| && r == xs[i]
    ensures forall i :: 0 <= i < |xs| ==> r <= xs[i]
  {
    if |xs| == 0 then 0.0
    else if |xs| == 1 then xs[0]
    else
      var m := Lowest(xs[..|xs| - 1]);
      assert forall i :: 0 <= i < |xs| - 1 ==> xs[..|xs| - 1][i] == xs[i];
      if xs[|xs| - 1] < m then xs[|xs| - 1] else m
  }

  /** The trailing window of `p` positions that ends at `t`. */
  function Window<T>(xs: seq<T>, p: Period, t: int): (w: seq<T>)
    requires p - 1 <= t < |xs|
    ensures |w| == p
    ensures forall k :: 0 <= k < p ==> w[k] == xs[t - p + 1 + k]
  {
    xs[t - p + 1..t + 1]
  }

  /** `rolling(window=p)` with the default `min_periods=p`: a value exists at `t`
      when `p` positions are available and none of them is missing. */
  predicate Filled(xs: seq<Option<real>>, p: Period, t: int) {
    p - 1 <= t < |xs| && AllSome(Window(xs, p, t))
  }

  function Rolling(xs: seq<Option<real>>, p: Period, f: seq<real> -> real): (r: seq<Option<real>>)
    ensures |r| == |xs|
    ensures forall t :: 0 <= t < |xs| ==> (r[t].Some? <==> Filled(xs, p, t))
    ensures forall t :: 0 <= t < |xs| && Filled(xs, p, t) ==> r[t].value == f(Values(Window(xs, p, t)))
  {
    seq(|xs|, t requires 0 <= t < |xs| =>
      if Filled(xs, p, t) then Some(f(Values(Window(xs, p, t)))) else None)
  }

  /** A rolling computation over a clean column is defined from position `p - 1`
      on, and there it sees exactly the last `p` prices. */
  lemma RollingOverClean(xs: seq<real>, p: Period, f: seq<real> -> real)
    ensures forall t :: 0 <= t < |xs| ==> (Rolling(Lift(xs), p, f)[t].Some? <==> t >= p - 1)
    ensures forall t :: p - 1 <= t < |xs| ==> Rolling(Lift(xs), p, f)[t] == Some(f(Window(xs, p, t)))
  {
    forall t | p - 1 <= t < |xs|
      ensures Filled(Lift(xs), p, t) && Values(Window(Lift(xs), p, t)) == Window(xs, p, t)
    {
      var w := Window(Lift(xs), p, t);
      assert AllSome(w);
      assert Values(w) == Window(xs, p, t);
    }
  }

  /** Entry `t` of a rolling computation depends on positions `t-p+1..t` only. */
  lemma {:induction false} RollingIsLocal(xs: seq<Option<real>>, ys: seq<Option<real>>, p: Period,
                                          f: seq<real> -> real, t: int)
    requires 0 <= t < |xs| && t < |ys|
    requires forall k :: t - p + 1 <= k <= t && 0 <= k ==> xs[k] == ys[k]
    ensures Rolling(xs, p, f)[t] == Rolling(ys, p, f)[t]
  {
    if p - 1 <= t {
      assert Window(xs, p, t) == Window(ys, p, t);
    }
  }

  // ------------------------------------------------ element-wise arithmetic

  /** `a + b` on aligned series: NaN on either side gives NaN. */
  function Plus(xs: seq<Option<real>>, ys: seq<Option<real>>): (r: seq<Option<real>>)
    requires |xs| == |ys|
    ensures |r| == |xs|
    ensures forall t :: 0 <= t < |xs| ==>
      r[t] == (if xs[t].Some? && ys[t].Some? then Some(xs[t].value + ys[t].value) else None)
  {
    seq(|xs|, t requires 0 <= t < |xs| =>
      if xs[t].Some? && ys[t].Some? then Some(xs[t].value + ys[t].value) else None)
  }

  /** `a - b` on aligned series. */
  function Minus(xs: seq<Option<real>>, ys: seq<Option<real>>): (r: seq<Option<real>>)
    requires |xs| == |ys|
    ensures |r| == |xs|
    ensures forall t :: 0 <= t < |xs| ==>
      r[t] == (if xs[t].Some? && ys[t].Some? then Some(xs[t].value - ys[t].value) else None)
  {
    seq(|xs|, t requires 0 <= t < |xs| =>
      if xs[t].Some? && ys[t].Some? then Some(xs[t].value - ys[t].value) else None)
  }

  /** `a * b` on aligned series. */
  function Times(xs: seq<Option<real>>, ys: seq<Option<real>>): (r: seq<Option<real>>)
    requires |xs| == |ys|
    ensures |r| == |xs|
    ensures forall t :: 0 <= t < |xs| ==>
      r[t] == (if xs[t].Some? && ys[t].Some? then Some(xs[t].value * ys[t].value) else None)
  {
    seq(|xs|, t requires 0 <= t < |xs| => TimesAt(xs[t], ys[t]))
  }

  function TimesAt(x: Option<real>, y: Option<real>): Option<real>
  {
    if x.Some? && y.Some? then Some(x.value * y.value) else None
  }

  /** `k * a` for a scalar `k`. */
  function Scale(k: real, xs: seq<Option<real>>): (r: seq<Option<real>>)
    ensures |r| == |xs|
    ensures forall t :: 0 <= t < |xs| ==> r[t] == (if xs[t].Some? then Some(k * xs[t].value) else None)
  {
    seq(|xs|, t requires 0 <= t < |xs| => ScaleAt(k, xs[t]))
  }

  function ScaleAt(k: real, x: Option<real>): Option<real>
  {
    if x.Some? then Some(k * x.value) else None
  }

  /** `a / b` on aligned series; a zero divisor yields the "no value" marker
      where pandas would produce an infinity or NaN. */
  function Divide(xs: seq<Option<real>>, ys: seq<Option<real>>): (r: seq<Option<real>>)
    requires |xs| == |ys|
    ensures |r| == |xs|
    ensures forall t :: 0 <= t < |xs| ==>
      r[t] == (if xs[t].Some? && ys[t].Some? && ys[t].value != 0.0
               then Some(xs[t].value / ys[t].value) else None)
  {
    seq(|xs|, t requires 0 <= t < |xs| =>
      if xs[t].Some? && ys[t].Some? && ys[t].value != 0.0 then Some(xs[t].value / ys[t].value) else None)
  }

  /** Bands `upper = middle + k·dev` and `lower = middle - k·dev` at a
      position where both series have a value sit `k·dev` away from the middle
      on either side; `v` names the deviation there. */
  lemma BandAt(middle: seq<Option<real>>, dev: seq<Option<real>>, upper: seq<Option<real>>,
               lower: seq<Option<real>>, k: real, t: int, v: real)
    requires |middle| == |dev| && 0 <= t < |middle|
    requires upper == Plus(middle, Scale(k, dev)) && lower == Minus(middle, Scale(k, dev))
    requires middle[t].Some? && dev[t].Some? && dev[t].value == v
    ensures upper[t].Some? && lower[t].Some?
    ensures upper[t].value - middle[t].value == k * v
    ensures middle[t].value - lower[t].value == k * v
  {
  }

  /** `v` is the change from `prev` to `cur` as a percentage of `cur`, which
      must be non-zero: `100 * (diff / m)` at one position. */
  predicate ChangePercent(v: real, prev: real, cur: real) {
    cur != 0.0 && v == 100.0 * ((cur - prev) / cur)
  }

  /** Where the one-step difference `d[t]` is present and `m[t]` is non-zero,
      `100 * (d / m)` at `t` is the percent change. */
  lemma ScaledChangeAt(d: seq<Option<real>>, m: seq<real>, t: int)
    requires |d| == |m| && 1 <= t < |m| && m[t] != 0.0
    requires d[t] == Some(m[t] - m[t - 1])
    ensures Scale(100.0, Divide(d, Lift(m)))[t].Some?
    ensures ChangePercent(Scale(100.0, Divide(d, Lift(m)))[t].value, m[t - 1], m[t])
  {
    var q := Divide(d, Lift(m));
    assert Lift(m)[t] == Some(m[t]);
    assert q[t] == Some((m[t] - m[t - 1]) / m[t]);
  }

  /** `v` is the position of `x` in the range from `lo` to `hi`, in percent
      from the bottom: `v = 100 · (x - lo) / (hi - lo)` multiplied out. Naming
      the relation lets callers match it without redoing the arithmetic. */
  predicate PercentAbove(v: real, x: real, hi: real, lo: real) {
    v * (hi - lo) == 100.0 * (x - lo)
  }

  /** `v` is the position of `x` in negative percent from the top:
      `v = -100 · (hi - x) / (hi - lo)` multiplied out. */
  predicate PercentBelow(v: real, x: real, hi: real, lo: real) {
    v * (hi - lo) == -100.0 * (hi - x)
  }

  /** `r = 100 · (c - ll) / (hh - ll)` at a position where both extremes have
      a value and differ: the position of `c[t]` in the range, in percent
      from the bottom, stated without the division. */
  lemma PercentFromBottomAt(c: seq<real>, hh: seq<Option<real>>, ll: seq<Option<real>>, r: seq<Option<real>>, t: int)
    requires |hh| == |c| && |ll| == |c| && 0 <= t < |c|
    requires r == Scale(100.0, Divide(Minus(Lift(c), ll), Minus(hh, ll)))
    requires hh[t].Some? && ll[t].Some? && hh[t].value != ll[t].value
    ensures r[t].Some? && PercentAbove(r[t].value, c[t], hh[t].value, ll[t].value)
  {
    var num, den := Minus(Lift(c), ll), Minus(hh, ll);
    assert num[t].Some? && num[t].value == c[t] - ll[t].value;
    assert den[t].Some? && den[t].value == hh[t].value - ll[t].value;
    var q := Divide(num, den);
    assert q[t].Some? && q[t].value == (c[t] - ll[t].value) / (hh[t].value - ll[t].value);
    assert r[t].Some? && r[t].value == 100.0 * q[t].value;
    ScaledQuotient(r[t].value, q[t].value, c[t] - ll[t].value, hh[t].value - ll[t].value, 100.0);
  }

  /** `r = -100 · (hh - c) / (hh - ll)`: the position of `c[t]` in negative
      percent from the top, stated without the division. */
  lemma PercentFromTopAt(c: seq<real>, hh: seq<Option<real>>, ll: seq<Option<real>>, r: seq<Option<real>>, t: int)
    requires |hh| == |c| && |ll| == |c| && 0 <= t < |c|
    requires r == Scale(-100.0, Divide(Minus(hh, Lift(c)), Minus(hh, ll)))
    requires hh[t].Some? && ll[t].Some? && hh[t].value != ll[t].value
    ensures r[t].Some? && PercentBelow(r[t].value, c[t], hh[t].value, ll[t].value)
  {
    var num, den := Minus(hh, Lift(c)), Minus(hh, ll);
    assert num[t].Some? && num[t].value == hh[t].value - c[t];
    assert den[t].Some? && den[t].value == hh[t].value - ll[t].value;
    var q := Divide(num, den);
    assert q[t].Some? && q[t].value == (hh[t].value - c[t]) / (hh[t].value - ll[t].value);
    assert r[t].Some? && r[t].value == -100.0 * q[t].value;
    ScaledQuotient(r[t].value, q[t].value, hh[t].value - c[t], hh[t].value - ll[t].value, -100.0);
  }

  /** Both percent positions at once: over a non-empty range they differ by
      exactly 100, and for a point inside the range they lie in [0, 100] and
      [-100, 0]. */
  lemma PercentPositions(c: seq<real>, hh: seq<Option<real>>, ll: seq<Option<real>>,
                          up: seq<Option<real>>, down: seq<Option<real>>, t: int)
    requires |hh| == |c| && |ll| == |c| && 0 <= t < |c|
    requires up == Scale(100.0, Divide(Minus(Lift(c), ll), Minus(hh, ll)))
    requires down == Scale(-100.0, Divide(Minus(hh, Lift(c)), Minus(hh, ll)))
    requires hh[t].Some? && ll[t].Some? && hh[t].value != ll[t].value
    ensures up[t].Some? && down[t].Some? && up[t].value - down[t].value == 100.0
    ensures ll[t].value <= c[t] <= hh[t].value ==>
              0.0 <= up[t].value <= 100.0 && -100.0 <= down[t].value <= 0.0
  {
    PercentFromBottomAt(c, hh, ll, up, t);
    PercentFromTopAt(c, hh, ll, down, t);
    FractionsOfWhole(up[t].value, down[t].value, c[t], hh[t].value, ll[t].value);
    if ll[t].value <= c[t] <= hh[t].value {
      PercentFromBottom(up[t].value, c[t], hh[t].value, ll[t].value);
      PercentFromTop(down[t].value, c[t], hh[t].value, ll[t].value);
    }
  }

  /** A percentage `v` with `v·(hi-lo) = 100·(x-lo)` for `x` in the range
      lies in [0, 100]. */
  lemma PercentFromBottom(v: real, x: real, hi: real, lo: real)
    requires lo <= x <= hi && lo != hi
    requires PercentAbove(v, x, hi, lo)
    ensures 0.0 <= v <= 100.0
  {
    CancelPositive(0.0, v, hi - lo);
    CancelPositive(v, 100.0, hi - lo);
  }

  /** A percentage `v` with `v·(hi-lo) = -100·(hi-x)` for `x` in the range
      lies in [-100, 0]. */
  lemma PercentFromTop(v: real, x: real, hi: real, lo: real)
    requires lo <= x <= hi && lo != hi
    requires PercentBelow(v, x, hi, lo)
    ensures -100.0 <= v <= 0.0
  {
    CancelPositive(v, 0.0, hi - lo);
    assert -100.0 * (hi - lo) <= -100.0 * (hi - x);
    CancelPositive(-100.0, v, hi - lo);
  }

  /** A positive factor can be cancelled from both sides of `<=`. */
  lemma CancelPositive(a: real, b: real, d: real)
    requires d > 0.0 && a * d <= b * d
    ensures a <= b
  {
  }

  /** The two percentages of one point in a non-empty range differ by 100. */
  lemma FractionsOfWhole(s: real, w: real, x: real, hi: real, lo: real)
    requires hi != lo
    requires PercentAbove(s, x, hi, lo) && PercentBelow(w, x, hi, lo)
    ensures s - w == 100.0
  {
    assert (s - w) * (hi - lo) == 100.0 * (hi - lo);
  }

  /** `v = k · (a / d)` multiplied out. */
  lemma ScaledQuotient(v: real, q: real, a: real, d: real, k: real)
    requires d != 0.0 && q == a / d && v == k * q
    ensures v * d == k * a
  {
    assert q * d == a;
  }

  /** Equal factors give equal products (stated once so that callers need
      not rediscover it under a nonlinear goal). */
  lemma MulEq(k: real, x: real, y: real)
    requires x == y
    ensures k * x == k * y
  {
  }

  // ------------------------------------------------------------- the median

  predicate Ascending(s: seq<real>) {
    forall i, j :: 0 <= i < j < |s| ==> s[i] <= s[j]
  }

  function Insert(x: real, s: seq<real>): (r: seq<real>)
    requires Ascending(s)
    ensures Ascending(r)
    ensures multiset(r) == multiset(s) + multiset{x}
    ensures |r| == |s| + 1
    ensures r[0] == (if |s| > 0 && s[0] < x then s[0] else x)
  {
    if |s| == 0 then [x]
    else if x <= s[0] then [x] + s
    else
      var rest := Insert(x, s[1..]);
      assert s == [s[0]] + s[1..];
      PrependAscending(s[0], rest);
      [s[0]] + rest
  }

  /** Putting an element no larger than the head in front keeps a sequence
      ascending. */
  lemma PrependAscending(x: real, s: seq<real>)
    requires Ascending(s) && (|s| > 0 ==> x <= s[0])
    ensures Ascending([x] + s)
  {
  }

  /** Insertion sort: an ascending permutation of the window. */
  function Sort(s: seq<real>): (r: seq<real>)
    ensures Ascending(r)
    ensures multiset(r) == multiset(s)
    ensures |r| == |s|
  {
    if |s| == 0 then []
    else
      assert s == [s[0]] + s[1..];
      Insert(s[0], Sort(s[1..]))
  }

  /** pandas `median()`: the middle element of the sorted window, or the mean of
      the two middle elements when the window has even length. */
  function Median(w: seq<real>): real
  {
    Middle(Sort(w))
  }

  /** The middle of an already sorted window. */
  function Middle(s: seq<real>): real
  {
    var n := |s|;
    if n == 0 then 0.0
    else if n % 2 == 1 then s[n / 2]
    else (s[n / 2 - 1] + s[n / 2]) / 2.0
  }

  /** Every element of the sorted window lies between the window's extremes. */
  lemma SortedWithinExtremes(w: seq<real>, k: int)
    requires 0 <= k < |w|
    ensures Lowest(w) <= Sort(w)[k] <= Highest(w)
  {
    var s := Sort(w);
    assert s[k] in multiset(w);
    var i :| 0 <= i < |w| && w[i] == s[k];
  }

  /** The middle of values that all lie in a range lies in that range. */
  lemma MiddleWithin(s: seq<real>, lo: real, hi: real)
    requires |s| > 0
    requires forall k :: 0 <= k < |s| ==> lo <= s[k] <= hi
    ensures lo <= Middle(s) <= hi
  {
  }

  /** The median lies between the lowest and the highest value of the window. */
  lemma MedianBetweenExtremes(w: seq<real>)
    requires |w| > 0
    ensures Lowest(w) <= Median(w) <= Highest(w)
  {
    var s := Sort(w);
    var lo, hi := Lowest(w), Highest(w);
    forall k | 0 <= k < |s|
      ensures lo <= s[k] <= hi
    {
      SortedWithinExtremes(w, k);
    }
    MiddleWithin(s, lo, hi);
  }
}

=== FILE: smoothing.dfy ===
/** Exponentially weighted means, `Series.ewm(..., adjust=True).mean()`.

    pandas documents the adjusted mean at position t as
        y[t] = Σ_{i=0..t} (1-α)^i · x[t-i]  /  Σ_{i=0..t} (1-α)^i
    and computes it online with the update
        y[t] = (w·D[t-1]·y[t-1] + x[t]) / (w·D[t-1] + 1),   D[t] = w·D[t-1] + 1,
    where w = 1-α is the decay.  The closed form is the definition here and the
    online update is proved from it (EwmUpdate).  `span=p` gives α = 2/(p+1);
    `alpha=1/p` is the Wilder smoothing used by SSMA, SMMA and RSI. */
module Smoothing {
  import opened Series

  function Pow(w: real, k: nat): (r: real)
    ensures w >= 0.0 ==> r >= 0.0
  {
    if k == 0 then 1.0 else w * Pow(w, k - 1)
  }

  /** Σ_{i=0..n-1} w^i · xs[t-i]: the newest-first weighted sum of the `n`
      positions that end at `t`. */
  function WeightedSum(xs: seq<real>, w: real, t: int, n: nat): real
    requires n <= t + 1 <= |xs|
  {
    if n == 0 then 0.0 else WeightedSum(xs, w, t, n - 1) + Pow(w, n - 1) * xs[t - (n - 1)]
  }

  /** Σ_{i=0..n-1} w^i: the total weight of `n` positions. */
  function WeightTotal(w: real, n: nat): (r: real)
    ensures w >= 0.0 && n >= 1 ==> r >= 1.0
  {
    if n == 0 then 0.0 else WeightTotal(w, n - 1) + Pow(w, n - 1)
  }

  /** The decay 1-α for `span=p`, α = 2/(p+1). */
  function SpanDecay(span: Period): (w: real)
    ensures 0.0 <= w < 1.0
    ensures w * (span as real + 1.0) == span as real - 1.0
  {
    1.0 - 2.0 / (span as real + 1.0)
  }

  /** The decay 1-α for `alpha=1/p`. */
  function AlphaDecay(p: Period): (w: real)
    ensures 0.0 <= w < 1.0
    ensures w * p as real == p as real - 1.0
  {
    1.0 - 1.0 / p as real
  }

  /** The adjusted exponentially weighted mean of a column with no missing value. */
  function Ewm(xs: seq<real>, w: real): (r: seq<real>)
    requires 0.0 <= w < 1.0
    ensures |r| == |xs|
  {
    seq(|xs|, t requires 0 <= t < |xs| => EwmValue(xs, w, t))
  }

  /** The mean at one position: the weighted sum over the total weight. */
  function EwmValue(xs: seq<real>, w: real, t: int): real
    requires 0.0 <= w < 1.0 && 0 <= t < |xs|
  {
    WeightedSum(xs, w, t, t + 1) / WeightTotal(w, t + 1)
  }

  lemma EwmAt(xs: seq<real>, w: real, t: int)
    requires 0.0 <= w < 1.0 && 0 <= t < |xs|
    ensures Ewm(xs, w)[t] == EwmValue(xs, w, t)
  {
  }

  /** The mean carries the whole weighted sum once scaled by the total weight
      (`n` is `t + 1`, named so that callers can pass the term they hold). */
  lemma EwmValueTimesTotal(xs: seq<real>, w: real, t: int, n: nat)
    requires 0.0 <= w < 1.0 && 0 <= t < |xs| && n == t + 1
    ensures EwmValue(xs, w, t) * WeightTotal(w, n) == WeightedSum(xs, w, t, n)
  {
  }

  // ------------------------------------------------------ the online update

  lemma {:induction false} WeightedSumStep(xs: seq<real>, w: real, t: int, n: nat)
    requires 1 <= t < |xs| && n <= t
    ensures WeightedSum(xs, w, t, n + 1) == xs[t] + w * WeightedSum(xs, w, t - 1, n)
  {
    if n > 0 {
      WeightedSumStep(xs, w, t, n - 1);
    }
  }

  lemma {:induction false} WeightTotalStep(w: real, n: nat)
    ensures WeightTotal(w, n + 1) == 1.0 + w * WeightTotal(w, n)
  {
    if n > 0 {
      WeightTotalStep(w, n - 1);
    }
  }

  /** The mean starts at the first observation. */
  lemma EwmFirst(xs: seq<real>, w: real)
    requires 0.0 <= w < 1.0
    ensures |xs| > 0 ==> Ewm(xs, w)[0] == xs[0]
  {
    if |xs| > 0 {
      EwmAt(xs, w, 0);
      assert WeightedSum(xs, w, 0, 1) == xs[0];
      assert WeightTotal(w, 1) == 1.0;
    }
  }

  /** One step of pandas' online update with adjust=True: the previous mean
      `prev`, carried with the total weight `total`, decays by `w` and the new
      observation `x` enters with weight 1. */
  function OnlineStep(prev: real, total: real, w: real, x: real): (r: real)
    requires w >= 0.0 && total >= 0.0
    ensures w * total * prev + x == r * (w * total + 1.0)
  {
    (w * total * prev + x) / (w * total + 1.0)
  }

  /** The closed form obeys the online update: the mean at `t` is one
      OnlineStep from the mean at `t-1`. */
  lemma EwmUpdate(xs: seq<real>, w: real, t: int)
    requires 0.0 <= w < 1.0 && 1 <= t < |xs|
    ensures Ewm(xs, w)[t] == OnlineStep(Ewm(xs, w)[t - 1], WeightTotal(w, t), w, xs[t])
  {
    EwmValueUpdate(xs, w, t);
    EwmAt(xs, w, t);
    EwmAt(xs, w, t - 1);
  }

  /** Every step of the closed form is pandas' online update, so the closed
      form and the online computation give the same series. */
  lemma EwmFollowsUpdate(xs: seq<real>, w: real)
    requires 0.0 <= w < 1.0
    ensures forall t :: 1 <= t < |xs| ==>
      Ewm(xs, w)[t] == OnlineStep(Ewm(xs, w)[t - 1], WeightTotal(w, t), w, xs[t])
  {
    forall t | 1 <= t < |xs|
      ensures Ewm(xs, w)[t] == OnlineStep(Ewm(xs, w)[t - 1], WeightTotal(w, t), w, xs[t])
    {
      EwmUpdate(xs, w, t);
    }
  }

  lemma EwmValueUpdate(xs: seq<real>, w: real, t: int)
    requires 0.0 <= w < 1.0 && 1 <= t < |xs|
    ensures EwmValue(xs, w, t) == OnlineStep(EwmValue(xs, w, t - 1), WeightTotal(w, t), w, xs[t])
  {
    EwmValueRecurrence(xs, w, t);
    WeightTotalStep(w, t);
    UpdateAlgebra(EwmValue(xs, w, t), EwmValue(xs, w, t - 1), WeightTotal(w, t + 1), WeightTotal(w, t), xs[t], w);
  }

  /** The recurrence on the weighted numerators, read through the means. */
  lemma EwmValueRecurrence(xs: seq<real>, w: real, t: int)
    requires 0.0 <= w < 1.0 && 1 <= t < |xs|
    ensures EwmValue(xs, w, t) * WeightTotal(w, t + 1) == xs[t] + w * (EwmValue(xs, w, t - 1) * WeightTotal(w, t))
  {
    EwmValueNumerator(xs, w, t);
    EwmValueTimesTotal(xs, w, t - 1, t);
    MulEq(w, WeightedSum(xs, w, t - 1, t), EwmValue(xs, w, t - 1) * WeightTotal(w, t));
  }

  lemma EwmValueNumerator(xs: seq<real>, w: real, t: int)
    requires 0.0 <= w < 1.0 && 1 <= t < |xs|
    ensures EwmValue(xs, w, t) * WeightTotal(w, t + 1) == xs[t] + w * WeightedSum(xs, w, t - 1, t)
  {
    EwmValueTimesTotal(xs, w, t, t + 1);
    WeightedSumStep(xs, w, t, t);
  }

  /** The algebra of one step: a mean `next` whose weight `b = 1 + w·e`
      carries `x` plus the decayed numerator `w·(prev·e)`. */
  lemma UpdateAlgebra(next: real, prev: real, b: real, e: real, x: real, w: real)
    requires w >= 0.0 && e >= 1.0 && b == 1.0 + w * e
    requires next * b == x + w * (prev * e)
    ensures next == OnlineStep(prev, e, w, x)
  {
  }

  /** A quotient `v = s/d` with `lo·d <= s` is at least `lo`. */
  lemma QuotientAtLeast(v: real, d: real, s: real, lo: real)
    requires d > 0.0 && v * d == s && lo * d <= s
    ensures lo <= v
  {
  }

  /** A quotient `v = s/d` with `s <= hi·d` is at most `hi`. */
  lemma QuotientAtMost(v: real, d: real, s: real, hi: real)
    requires d > 0.0 && v * d == s && s <= hi * d
    ensures v <= hi
  {
  }

  lemma StepAtLeast(lo: real, a: real, s: real, p: real, x: real)
    requires lo * a <= s && p >= 0.0 && lo <= x
    ensures lo * (a + p) <= s + p * x
  {
    assert p * x - p * lo == p * (x - lo);
  }

  lemma StepAtMost(hi: real, a: real, s: real, p: real, x: real)
    requires s <= hi * a && p >= 0.0 && x <= hi
    ensures s + p * x <= hi * (a + p)
  {
    assert p * hi - p * x == p * (hi - x);
  }

  // ---------------------------------------------------------------- bounds

  lemma {:induction false} WeightedSumAtLeast(xs: seq<real>, w: real, t: int, n: nat, lo: real)
    requires 0.0 <= w && n <= t + 1 <= |xs|
    requires forall i :: 0 <= i <= t ==> lo <= xs[i]
    ensures lo * WeightTotal(w, n) <= WeightedSum(xs, w, t, n)
  {
    if n > 0 {
      var a, s0, p, x := WeightTotal(w, n - 1), WeightedSum(xs, w, t, n - 1), Pow(w, n - 1), xs[t - (n - 1)];
      assert lo * a <= s0 by {
        WeightedSumAtLeast(xs, w, t, n - 1, lo);
      }
      StepAtLeast(lo, a, s0, p, x);
    }
  }

  lemma {:induction false} WeightedSumAtMost(xs: seq<real>, w: real, t: int, n: nat, hi: real)
    requires 0.0 <= w && n <= t + 1 <= |xs|
    requires forall i :: 0 <= i <= t ==> xs[i] <= hi
    ensures WeightedSum(xs, w, t, n) <= hi * WeightTotal(w, n)
  {
    if n > 0 {
      var a, s0, p, x := WeightTotal(w, n - 1), WeightedSum(xs, w, t, n - 1), Pow(w, n - 1), xs[t - (n - 1)];
      assert s0 <= hi * a by {
        WeightedSumAtMost(xs, w, t, n - 1, hi);
      }
      StepAtMost(hi, a, s0, p, x);
    }
  }

  /** A mean of values that are all at least `lo` is at least `lo`. */
  lemma EwmAtLeast(xs: seq<real>, w: real, lo: real, t: int)
    requires 0.0 <= w < 1.0 && 0 <= t < |xs|
    requires forall i :: 0 <= i < |xs| ==> lo <= xs[i]
    ensures lo <= Ewm(xs, w)[t]
  {
    WeightedSumAtLeast(xs, w, t, t + 1, lo);
    EwmAt(xs, w, t);
    EwmValueTimesTotal(xs, w, t, t + 1);
    QuotientAtLeast(EwmValue(xs, w, t), WeightTotal(w, t + 1), WeightedSum(xs, w, t, t + 1), lo);
  }

  /** A mean of values that are all at most `hi` is at most `hi`. */
  lemma EwmAtMost(xs: seq<real>, w: real, hi: real, t: int)
    requires 0.0 <= w < 1.0 && 0 <= t < |xs|
    requires forall i :: 0 <= i < |xs| ==> xs[i] <= hi
    ensures Ewm(xs, w)[t] <= hi
  {
    WeightedSumAtMost(xs, w, t, t + 1, hi);
    EwmAt(xs, w, t);
    EwmValueTimesTotal(xs, w, t, t + 1);
    QuotientAtMost(EwmValue(xs, w, t), WeightTotal(w, t + 1), WeightedSum(xs, w, t, t + 1), hi);
  }

  /** Non-negative observations have a non-negative mean. */
  lemma EwmNonNegative(xs: seq<real>, w: real)
    requires 0.0 <= w < 1.0
    ensures (forall i :: 0 <= i < |xs| ==> xs[i] >= 0.0) ==> forall t :: 0 <= t < |xs| ==> Ewm(xs, w)[t] >= 0.0
  {
    if forall i :: 0 <= i < |xs| ==> xs[i] >= 0.0 {
      forall t | 0 <= t < |xs| ensures Ewm(xs, w)[t] >= 0.0 {
        EwmAtLeast(xs, w, 0.0, t);
      }
    }
  }

  /** A constant column is its own exponentially weighted mean. */
  lemma EwmOfConstant(xs: seq<real>, w: real, c: real)
    requires 0.0 <= w < 1.0
    requires forall i :: 0 <= i < |xs| ==> xs[i] == c
    ensures Ewm(xs, w) == xs
  {
    forall t | 0 <= t < |xs|
      ensures Ewm(xs, w)[t] == xs[t]
    {
      EwmAtLeast(xs, w, c, t);
      EwmAtMost(xs, w, c, t);
    }
  }

  // -------------------------------------------------------------- causality

  lemma {:induction false} WeightedSumIsCausal(xs: seq<real>, ys: seq<real>, w: real, t: int, n: nat)
    requires n <= t + 1 <= |xs| && t + 1 <= |ys|
    requires xs[..t + 1] == ys[..t + 1]
    ensures WeightedSum(xs, w, t, n) == WeightedSum(ys, w, t, n)
  {
    if n > 0 {
      WeightedSumIsCausal(xs, ys, w, t, n - 1);
      assert xs[t - (n - 1)] == xs[..t + 1][t - (n - 1)];
    }
  }

  /** No look-ahead: the mean at `t` depends on positions `0..t` only. */
  lemma EwmIsCausal(xs: seq<real>, ys: seq<real>, w: real, t: int)
    requires 0.0 <= w < 1.0 && 0 <= t < |xs| && t < |ys|
    requires xs[..t + 1] == ys[..t + 1]
    ensures Ewm(xs, w)[t] == Ewm(ys, w)[t]
  {
    WeightedSumIsCausal(xs, ys, w, t, t + 1);
    EwmAt(xs, w, t);
    EwmAt(ys, w, t);
  }
}

=== FILE: text.dfy ===
/** String helpers the Python code gets from `str`: `lower()` and f-string
    formatting of integers. */
module Text {

  /** `str.lower()` restricted to ASCII: upper-case letters map to lower case,
      every other character is kept. */
  function LowerChar(c: char): (r: char)
    ensures 'A' <= c <= 'Z' ==> 'a' <= r <= 'z' && r as int - 'a' as int == c as int - 'A' as int
    ensures !('A' <= c <= 'Z') ==> r == c
  {
    if 'A' <= c <= 'Z' then (c as int - 'A' as int + 'a' as int) as char else c
  }

  function Lower(s: string): (r: string)
    ensures |r| == |s|
    ensures forall i :: 0 <= i < |s| ==> r[i] == LowerChar(s[i])
  {
    seq(|s|, i requires 0 <= i < |s| => LowerChar(s[i]))
  }

  /** Lower-casing twice changes nothing more than lower-casing once. */
  lemma LowerIdempotent(s: string)
    ensures Lower(Lower(s)) == Lower(s)
  {
  }

  function DigitChar(d: nat): (c: char)
    requires d < 10
    ensures '0' <= c <= '9'
  {
    ('0' as int + d) as char
  }

  /** Decimal digits of a natural number, most significant first, as `str(n)`. */
  function NatToString(n: nat): (r: string)
    ensures |r| >= 1
    ensures forall i :: 0 <= i < |r| ==> '0' <= r[i] <= '9'
    decreases n
  {
    if n < 10 then [DigitChar(n)] else NatToString(n / 10) + [DigitChar(n % 10)]
  }

  /** `f'{n}'` for a Python int: a leading '-' for negative numbers. */
  function IntToString(n: int): (r: string)
    ensures |r| >= 1
    ensures n >= 0 ==> forall i :: 0 <= i < |r| ==> '0' <= r[i] <= '9'
    ensures n < 0 ==> r[0] == '-'
  {
    if n >= 0 then NatToString(n) else "-" + NatToString(-n)
  }
}

=== FILE: timeframe.dfy ===
/** `process_tf` in `get_data.py`: the timeframe a user types, mapped to one
    of the exchange's kline intervals.  Minute and month abbreviations are
    matched case-sensitively (`m` is minutes, `M` is months); every other form
    is matched after lower-casing.  A string that matches no branch gives
    `None` (the function falls off its `elif` chain). */
module Timeframe {
  import opened Base
  import opened Text

  /** The exchange's kline intervals. */
  datatype Interval =
    | Minute1 | Minute3 | Minute5 | Minute15 | Minute30
    | Hour1 | Hour2 | Hour4 | Hour6 | Hour8 | Hour12
    | Day1 | Day3 | Week1 | Month1

  datatype Unit = Minutes | Hours | Days | Weeks | Months

  function UnitOf(i: Interval): Unit {
    match i
    case Minute1 | Minute3 | Minute5 | Minute15 | Minute30 => Minutes
    case Hour1 | Hour2 | Hour4 | Hour6 | Hour8 | Hour12 => Hours
    case Day1 | Day3 => Days
    case Week1 => Weeks
    case Month1 => Months
  }

  /** The number of units in an interval, as it is spelled. */
  function Count(i: Interval): string {
    match i
    case Minute1 => "1"   case Minute3 => "3"   case Minute5 => "5"
    case Minute15 => "15" case Minute30 => "30"
    case Hour1 => "1"     case Hour2 => "2"     case Hour4 => "4"
    case Hour6 => "6"     case Hour8 => "8"     case Hour12 => "12"
    case Day1 => "1"      case Day3 => "3"      case Week1 => "1"
    case Month1 => "1"
  }

  /** The short unit word accepted after lower-casing; the month has none. */
  function ShortWord(u: Unit): string
    requires u != Months
  {
    match u
    case Minutes => "min"
    case Hours => "h"
    case Days => "d"
    case Weeks => "w"
  }

  /** The long unit word accepted after lower-casing. */
  function LongWord(u: Unit): string {
    match u
    case Minutes => "minute"
    case Hours => "hour"
    case Days => "day"
    case Weeks => "week"
    case Months => "month"
  }

  /** `<n><unit>` and `<n> <unit>`, the two spellings every list pairs up. */
  function Spellings(n: string, unit: string): (forms: seq<string>)
    ensures |forms| == 2
  {
    [n + unit, n + " " + unit]
  }

  /** Spellings a branch accepts exactly as typed (`tf in [...]`): `m` for
      minutes and `M` for the month. */
  function ExactForms(i: Interval): seq<string> {
    match UnitOf(i)
    case Minutes => Spellings(Count(i), "m")
    case Months => Spellings(Count(i), "M")
    case _ => []
  }

  /** Spellings a branch accepts after lower-casing (`tf.lower() in [...]`):
      the short and the long unit word, or only the long one for the month. */
  function LowerForms(i: Interval): seq<string> {
    if UnitOf(i) == Months then Spellings(Count(i), LongWord(Months))
    else Spellings(Count(i), ShortWord(UnitOf(i))) + Spellings(Count(i), LongWord(UnitOf(i)))
  }

  /** The branch for `i` accepts `tf`. */
  predicate Accepts(i: Interval, tf: string) {
    tf in ExactForms(i) || Lower(tf) in LowerForms(i)
  }

  /** The exchange's code for each interval, `KLINE_INTERVAL_*`: `1m` … `30m`,
      `1h` … `12h`, `1d`, `3d`, `1w`, `1M`. */
  function Code(i: Interval): string {
    match UnitOf(i)
    case Minutes => Count(i) + "m"
    case Months => Count(i) + "M"
    case _ => Count(i) + ShortWord(UnitOf(i))
  }

  // ---------------------------------------------------------- the chain

  /** The `elif` chain's order of branches. */
  const Branches: seq<Interval> :=
    [Minute1, Minute3, Minute5, Minute15, Minute30, Hour1, Hour2, Hour4, Hour6, Hour8, Hour12,
     Day1, Day3, Week1, Month1]

  /** Every interval has a branch. */
  lemma EveryIntervalHasBranch(i: Interval)
    ensures i in Branches
  {
  }

  /** The first of `bs` that accepts `tf`. */
  function FirstAccepting(bs: seq<Interval>, tf: string): (r: Option<Interval>)
    ensures r.Some? ==> r.value in bs && Accepts(r.value, tf)
  {
    if |bs| == 0 then None
    else if Accepts(bs[0], tf) then Some(bs[0])
    else FirstAccepting(bs[1..], tf)
  }

  /** `process_tf(tf)`: the first branch, in source order, that accepts `tf`. */
  function ProcessTf(tf: string): (r: Option<Interval>)
    ensures r.Some? ==> Accepts(r.value, tf)
  {
    FirstAccepting(Branches, tf)
  }

  /** `None` exactly when no branch in the list accepts the string. */
  lemma {:induction false} NoneWhenNoneAccepts(bs: seq<Interval>, tf: string)
    ensures FirstAccepting(bs, tf).None? <==> forall k :: 0 <= k < |bs| ==> !Accepts(bs[k], tf)
  {
    if |bs| > 0 {
      NoneWhenNoneAccepts(bs[1..], tf);
      assert forall k :: 1 <= k < |bs| ==> bs[k] == bs[1..][k - 1];
    }
  }

  /** Two strings every branch treats alike get the same answer. */
  lemma {:induction false} AlikeStringsAlikeAnswers(bs: seq<Interval>, tf: string, tf2: string)
    requires forall k :: 0 <= k < |bs| ==> (Accepts(bs[k], tf) <==> Accepts(bs[k], tf2))
    ensures FirstAccepting(bs, tf) == FirstAccepting(bs, tf2)
  {
    if |bs| > 0 {
      assert forall k :: 0 <= k < |bs[1..]| ==> bs[1..][k] == bs[k + 1];
      AlikeStringsAlikeAnswers(bs[1..], tf, tf2);
    }
  }

  /** When exactly one branch of the list accepts the string, that one is
      the answer. */
  lemma {:induction false} OnlyAcceptingBranch(bs: seq<Interval>, tf: string, i: Interval)
    requires i in bs
    requires forall k :: 0 <= k < |bs| ==> (Accepts(bs[k], tf) <==> bs[k] == i)
    ensures FirstAccepting(bs, tf) == Some(i)
  {
    if bs[0] != i {
      assert forall k :: 0 <= k < |bs[1..]| ==> bs[1..][k] == bs[k + 1];
      OnlyAcceptingBranch(bs[1..], tf, i);
    }
  }

  /** `None` exactly when no branch accepts the string: with the ensures of
      `ProcessTf` this is an if-and-only-if, so the function never raises and
      maps every unlisted string to `None`. */
  lemma NoneMeansNoBranch(tf: string, i: Interval)
    requires ProcessTf(tf).None?
    ensures !Accepts(i, tf)
  {
    NoneWhenNoneAccepts(Branches, tf);
    EveryIntervalHasBranch(i);
  }

  // ------------------------------------------------- reading a spelling

  /** A non-empty run of decimal digits. */
  predicate Digits(n: string) {
    |n| > 0 && forall k :: 0 <= k < |n| ==> '0' <= n[k] <= '9'
  }

  /** A non-empty word with no digit and no space. */
  predicate Word(u: string) {
    |u| > 0 && forall k :: 0 <= k < |u| ==> u[k] != ' ' && !('0' <= u[k] <= '9')
  }

  /** A spelling determines its number and its unit word: the digits run
      exactly as far as the number, and a space after them is the separator,
      never part of the word. */
  lemma {:induction false} SpellingDeterminesParts(n: string, u: string, n2: string, u2: string, s: string)
    requires Digits(n) && Digits(n2) && Word(u) && Word(u2)
    requires s in Spellings(n, u) && s in Spellings(n2, u2)
    ensures n == n2 && u == u2
  {
    var sep := if s == n + u then "" else " ";
    var sep2 := if s == n2 + u2 then "" else " ";
    assert s == n + (sep + u);
    assert s == n2 + (sep2 + u2);
    // the digits stop where the number stops, so both numbers end at the same place
    assert forall k :: 0 <= k < |n| ==> s[k] == n[k];
    assert forall k :: 0 <= k < |n2| ==> s[k] == n2[k];
    assert s[|n|] == (sep + u)[0] && !('0' <= s[|n|] <= '9');
    assert s[|n2|] == (sep2 + u2)[0] && !('0' <= s[|n2|] <= '9');
    if |n| < |n2| { assert false; }
    if |n2| < |n| { assert false; }
    assert n == s[..|n|] == n2;
    assert sep + u == s[|n|..] == sep2 + u2;
    assert (sep == " ") == (s[|n|] == ' ');
    assert (sep2 == " ") == (s[|n|] == ' ');
    assert u == (sep + u)[|sep|..];
    assert u2 == (sep2 + u2)[|sep2|..];
  }

  /** The parts every branch spells with are numbers and words. */
  lemma PartsAreWellFormed(i: Interval)
    ensures Digits(Count(i)) && Word(LongWord(UnitOf(i))) && Word("m") && Word("M")
    ensures UnitOf(i) != Months ==> Word(ShortWord(UnitOf(i)))
  {
  }

  /** No unit word is spelled like another. */
  lemma WordsDiffer(u: Unit, v: Unit)
    ensures LongWord(u) == LongWord(v) ==> u == v
    ensures u != Months && v != Months ==> (ShortWord(u) == ShortWord(v) ==> u == v) && ShortWord(u) != LongWord(v)
    ensures v != Months ==> LongWord(u) != ShortWord(v)
  {
  }

  /** An interval is known by its unit and its number. */
  lemma PartsDetermineInterval(i: Interval, j: Interval)
    requires UnitOf(i) == UnitOf(j) && Count(i) == Count(j)
    ensures i == j
  {
  }

  /** The string ends in `m` or `M`. */
  predicate EndsInM(s: string) {
    |s| > 0 && (s[|s| - 1] == 'm' || s[|s| - 1] == 'M')
  }

  /** Both spellings end in the unit's last letter. */
  lemma SpellingsEnd(n: string, unit: string)
    requires |unit| > 0
    ensures forall s :: s in Spellings(n, unit) ==> |s| > 0 && s[|s| - 1] == unit[|unit| - 1]
  {
    assert (n + unit)[|n + unit| - 1] == unit[|unit| - 1];
    assert (n + " " + unit)[|n + " " + unit| - 1] == unit[|unit| - 1];
  }

  /** The exactly-matched spellings end in `m` (minutes) or `M` (the month). */
  lemma ExactFormsEnd(i: Interval)
    ensures forall s :: s in ExactForms(i) ==> |s| > 0 && s[|s| - 1] == (if i.Month1? then 'M' else 'm')
  {
    SpellingsEnd(Count(i), "m");
    SpellingsEnd(Count(i), "M");
  }

  /** No spelling matched after lower-casing ends in `m` or `M`. */
  lemma LowerFormsEnd(i: Interval)
    ensures forall s :: s in LowerForms(i) ==> !EndsInM(s)
  {
    var u := UnitOf(i);
    assert LongWord(u)[|LongWord(u)| - 1] !in "mM";
    SpellingsEnd(Count(i), LongWord(u));
    if u != Months {
      assert ShortWord(u)[|ShortWord(u)| - 1] !in "mM";
      SpellingsEnd(Count(i), ShortWord(u));
    }
  }

  /** Lower-casing a string ending in `m` or `M` gives one ending in `m`. */
  lemma LowerKeepsM(tf: string)
    requires EndsInM(tf)
    ensures EndsInM(Lower(tf)) && Lower(tf)[|tf| - 1] == 'm'
  {
  }

  // ----------------------------------------------------- the properties

  /** The branches never overlap: no string is accepted by two intervals, so
      the order of the `elif` chain does not matter. */
  lemma BranchesDisjoint(i: Interval, j: Interval, tf: string)
    requires Accepts(i, tf) && Accepts(j, tf)
    ensures i == j
  {
    PartsAreWellFormed(i);
    PartsAreWellFormed(j);
    WordsDiffer(UnitOf(i), UnitOf(j));
    if tf in ExactForms(i) && tf in ExactForms(j) {
      var e := if UnitOf(i) == Months then "M" else "m";
      var e2 := if UnitOf(j) == Months then "M" else "m";
      SpellingDeterminesParts(Count(i), e, Count(j), e2, tf);
      PartsDetermineInterval(i, j);
    } else if tf in ExactForms(i) || tf in ExactForms(j) {
      var k := if tf in ExactForms(i) then i else j;
      var l := if k == i then j else i;
      ExactFormsEnd(k);
      LowerFormsEnd(l);
      LowerKeepsM(tf);
    } else {
      var w := Lower(tf);
      assert w in LowerForms(i) && w in LowerForms(j);
      var a := if w in Spellings(Count(i), LongWord(UnitOf(i))) then LongWord(UnitOf(i)) else ShortWord(UnitOf(i));
      var b := if w in Spellings(Count(j), LongWord(UnitOf(j))) then LongWord(UnitOf(j)) else ShortWord(UnitOf(j));
      SpellingDeterminesParts(Count(i), a, Count(j), b, w);
      PartsDetermineInterval(i, j);
    }
  }

  /** A string some branch accepts is read as that branch's interval. */
  lemma AcceptedIsAnswer(i: Interval, tf: string)
    requires Accepts(i, tf)
    ensures ProcessTf(tf) == Some(i)
  {
    forall k | 0 <= k < |Branches| ensures Accepts(Branches[k], tf) <==> Branches[k] == i {
      if Accepts(Branches[k], tf) {
        BranchesDisjoint(Branches[k], i, tf);
      }
    }
    EveryIntervalHasBranch(i);
    OnlyAcceptingBranch(Branches, tf, i);
  }

  /** A string with no upper-case letter is its own lower-case form. */
  lemma LowerOfLowerCase(s: string)
    requires forall k :: 0 <= k < |s| ==> !('A' <= s[k] <= 'Z')
    ensures Lower(s) == s
  {
  }

  /** The exchange's own code for an interval is read back as that interval. */
  lemma CodeRoundTrip(i: Interval)
    ensures ProcessTf(Code(i)) == Some(i)
  {
    var u := UnitOf(i);
    if u == Minutes || u == Months {
      assert Code(i) == ExactForms(i)[0];
    } else {
      PartsAreWellFormed(i);
      assert forall k :: 0 <= k < |ShortWord(u)| ==> 'a' <= ShortWord(u)[k] <= 'z';
      LowerOfLowerCase(Code(i));
      assert Lower(Code(i)) == LowerForms(i)[0];
    }
    AcceptedIsAnswer(i, Code(i));
  }

  /** A timeframe that does not end in `m` or `M` is read case-insensitively:
      lower-casing it first changes nothing, so `"4H"` and `"4h"`, or
      `"1 DAY"` and `"1 day"`, name the same interval. */
  lemma CaseInsensitiveOutsideM(tf: string)
    requires !EndsInM(tf)
    ensures ProcessTf(Lower(tf)) == ProcessTf(tf)
  {
    LowerIdempotent(tf);
    assert !EndsInM(Lower(tf));
    forall j ensures Accepts(j, Lower(tf)) == Accepts(j, tf) {
      ExactFormsEnd(j);
    }
    AlikeStringsAlikeAnswers(Branches, Lower(tf), tf);
  }

  /** Only the month's branch accepts a string ending in a capital `M`. */
  lemma OnlyMonthTakesCapitalM(j: Interval, tf: string)
    requires |tf| > 0 && tf[|tf| - 1] == 'M'
    requires Accepts(j, tf)
    ensures j == Month1
  {
    LowerKeepsM(tf);
    ExactFormsEnd(j);
    LowerFormsEnd(j);
  }

  /** A timeframe ending in a capital `M` can only be the month: it is the
      month when typed exactly as `"1M"` or `"1 M"`, and unknown otherwise. */
  lemma CapitalMIsMonthOnly(tf: string)
    requires |tf| > 0 && tf[|tf| - 1] == 'M'
    ensures ProcessTf(tf) == if tf in ["1M", "1 M"] then Some(Month1) else None
  {
    MonthTakesCapitalM(tf);
    if Accepts(Month1, tf) {
      AcceptedIsAnswer(Month1, tf);
    } else {
      forall j | Accepts(j, tf) ensures j == Month1 {
        OnlyMonthTakesCapitalM(j, tf);
      }
      NoneWhenNoneAccepts(Branches, tf);
    }
  }

  /** Of the strings ending in a capital `M`, the month's branch takes
      exactly `"1M"` and `"1 M"`. */
  lemma MonthTakesCapitalM(tf: string)
    requires |tf| > 0 && tf[|tf| - 1] == 'M'
    ensures Accepts(Month1, tf) <==> tf in ["1M", "1 M"]
  {
    assert "1" + "M" == "1M" && "1" + " " + "M" == "1 M";
    assert ExactForms(Month1) == Spellings("1", "M") == ["1M", "1 M"];
    LowerKeepsM(tf);
    LowerFormsEnd(Month1);
  }

  /** `"3M"`, `"5M"`, `"15M"` and `"30M"` match no branch: only the exact
      lower-case short forms name those minutes. */
  lemma UpperCaseMinutesUnknown(tf: string)
    requires tf in ["3M", "5M", "15M", "30M"]
    ensures ProcessTf(tf) == None
  {
    CapitalMIsMonthOnly(tf);
  }

  /** `"1m"`, `"1 m"` and, in any case, `"1min"` and `"1 minute"` are one
      minute; `"1M"` and `"1 M"` are one month. */
  lemma MinuteAndMonthSpellings(tf: string)
    requires tf in ["1m", "1 m", "1MIN", "1 Minute", "1M", "1 M"]
    ensures ProcessTf(tf) == if tf in ["1M", "1 M"] then Some(Month1) else Some(Minute1)
  {
    if tf in ["1M", "1 M"] {
      CapitalMIsMonthOnly(tf);
    } else if tf in ["1m", "1 m"] {
      assert "1" + "m" == "1m" && "1" + " " + "m" == "1 m";
      assert ExactForms(Minute1) == Spellings("1", "m") == ["1m", "1 m"];
      AcceptedIsAnswer(Minute1, tf);
    } else {
      assert "1" + "min" == "1min" && "1" + " " + "minute" == "1 minute";
      assert LowerForms(Minute1)[0] == "1min" && LowerForms(Minute1)[3] == "1 minute";
      assert Lower("1MIN") == "1min" && Lower("1 Minute") == "1 minute";
      AcceptedIsAnswer(Minute1, tf);
    }
  }

  /** `"4H"` and `"4h"` are both four hours. */
  lemma FourHours(tf: string)
    requires tf in ["4H", "4h"]
    ensures ProcessTf(tf) == Some(Hour4)
  {
    assert Lower(tf) == "4h";
    assert LowerForms(Hour4)[0] == "4h";
    AcceptedIsAnswer(Hour4, tf);
  }
}
